=== FILE: README.md ===
# Block map of the C1X compiler, in Dafny

This project models `BlockMap`, the first pass of the C1X compiler's bytecode parser. From one
method's bytecode, `BlockMap` computes:

- the basic blocks: one `BlockBegin` per start offset, created on demand by `make`;
- a conservative successor list for every block;
- the exception-handler blocks that cover each block's trapping instructions;
- a reverse post-order numbering of the blocks reachable from offset 0, with loop headers
  flagged and the blocks inside loops collected;
- optionally, the set of local-variable slots that some block inside a loop stores to.

The model has nine modules:

- `Outcomes`: the result and error types.
- `Bytes`: big-endian reads of the bytecode array.
- `Bytecodes`: opcode numbers, the opcode table as a parameter, switch decoding and instruction
  lengths.
- `Instructions`: a pure reference definition of what the linear scan and the store pass do,
  one instruction at a time.
- `Blocks`: the blocks as values: offset, id, flags and depth-first number.
- `ExceptionMaps`: the inner class `ExceptionMap`.
- `Relocation`: a pure reference definition of the successor-list move.
- `Numbering`: a pure reference definition of the depth-first numbering: its state, its
  three cases, what each call keeps, and what a whole numbering promises.
- `BlockMaps`: the class `BlockMap` itself, with every pass as a method.

`BlockMap` and `ExceptionMap` are classes whose methods update fields in place:

- `blockMap` is an `array<int>`: -1 for "no block here", otherwise the index of the block in
  `blocks`.
- `successorMap` is an `array?` of optional successor lists.
- the bit maps (`canTrap`, `storesInLoops`, `visited`, `active`) are a `set<int>` or an
  `array<bool>`.
- `loopBlocks` is a `seq`, and the handler map is a `map` from a block index to the set of
  handler-block indices.

Each pass is a method, proved against a pure function of its inputs:

- the scan against `Instructions.Decode` and `Instructions.ScanFrom`;
- the move of the successor lists against `Relocation.Relocated` and
  `BlockMaps.AttachedThrough`;
- the numbering against the predicates `Numbering.Swept` (one call of `numberBlock`) and
  `Numbering.Renumbered` (a whole numbering: a depth-first numbering, loop headers exactly the
  targets of back edges, and the blocks the loop list gains);
- the store pass against `Instructions.BlockStoresFrom` and `BlockMaps.LoopStores`.

The callers' own inputs are parameters of the constructor:

- the bytecode;
- the exception handlers;
- the number of locals;
- whether the method is `Object.<init>` under finalizer registration;
- the opcode table (`Isa`: instruction lengths, trapping opcodes, store opcodes, and the
  number of the extended word-return opcode).

Java runtime exceptions on malformed bytecode are modelled as error results:

- an index outside the code, from `make` or from a byte read, gives `Malformed`;
- the relocation `assert` gives `FellOffEnd`;
- `shouldNotReachHere` in `processStore` gives `NotAStore`;
- a `tableswitch` whose case count is below -1 (a negative `ArrayList` capacity) gives
  `Malformed`;
- the null dereference when handlers are attached outside any block (Findings row 2) is the
  error `NoOpenBlock` of the as-written `BlockMaps.AttachedThroughAsWritten` only. The class
  implements the corrected behaviour: it attaches handlers only while a block is open.

`Bytes.java`, `BytecodeTableSwitch.java`, `BytecodeLookupSwitch.java`, `Bytecodes.java`,
`BitMap.java` and `BlockBegin.java` are not part of this model. What the model needs of them
(operand layout, switch layout, instruction lengths) follows section 6.5 of the Java Virtual
Machine Specification.

## Model

All source paths are `C1X/src/com/sun/c1x/graph/BlockMap.java`.

| member | source | states |
|---|---|---|
| BlockMaps.BlockMap.constructor | C1X/src/com/sun/c1x/graph/BlockMap.java:216-227 | no blocks yet and the counter at `firstBlockNum`; every offset has no block and no list; an exception map exists exactly when the method has handlers, with no traps and no handler sets yet |
| ExceptionMaps.ExceptionMap.constructor | C1X/src/com/sun/c1x/graph/BlockMap.java:137-142 | the handler list and the object-init flag as given; no trapping offsets and an empty handler map |
| ExceptionMaps.ExceptionMap.SetCanTrap | C1X/src/com/sun/c1x/graph/BlockMap.java:144-146 | the offset joins the trapping set; the handler map is unchanged |
| ExceptionMaps.Covering | C1X/src/com/sun/c1x/graph/BlockMap.java:151-157 | every handler it yields is one of the method's handlers and covers `bci`; only the last can be a catch-all |
| ExceptionMaps.CoveringComplete | C1X/src/com/sun/c1x/graph/BlockMap.java:151-157 | a covering handler that no earlier covering catch-all precedes is yielded |
| ExceptionMaps.CoveringStopsAtCatchAll | C1X/src/com/sun/c1x/graph/BlockMap.java:154-156 | nothing after the first covering catch-all is yielded |
| ExceptionMaps.HandlerBlocks | C1X/src/com/sun/c1x/graph/BlockMap.java:153 | exactly the blocks at the handler offsets of the given handlers |
| ExceptionMaps.Attached | C1X/src/com/sun/c1x/graph/BlockMap.java:175-183 | adding handlers to one block creates its set if missing and unions the handler blocks in; every other entry is unchanged |
| ExceptionMaps.AttachedSnoc | C1X/src/com/sun/c1x/graph/BlockMap.java:175-183 | adding one more handler is one `addHandler` step on the map built so far |
| ExceptionMaps.ExceptionMap.AddHandler | C1X/src/com/sun/c1x/graph/BlockMap.java:175-183 | the block's set, created if missing, gains the handler; nothing else changes |
| ExceptionMaps.ExceptionMap.AddHandlers | C1X/src/com/sun/c1x/graph/BlockMap.java:148-160 | at a trapping offset, the block gains the blocks of the covering handlers up to the first catch-all; otherwise nothing changes |
| ExceptionMaps.ExceptionMap.GetHandlers | C1X/src/com/sun/c1x/graph/BlockMap.java:162-166 | a block with no handler set has no handlers |
| BlockMaps.BlockMap.SetHandlerEntrypoints | C1X/src/com/sun/c1x/graph/BlockMap.java:168-173 | passes exactly when every handler offset is inside the code (`Malformed` otherwise); then a block exists at each handler offset, flagged as an exception entry, and no other block is new; new blocks take the next ids in handler order (`Grew`, `MadeInOrder`) |
| BlockMaps.BlockMap.Get | C1X/src/com/sun/c1x/graph/BlockMap.java:244-249 | past the end there is no block; otherwise a block exactly at the block starts, and that block's offset is the one asked for |
| BlockMaps.BlockMap.Make | C1X/src/com/sun/c1x/graph/BlockMap.java:251-258 | an existing block is returned and nothing changes; otherwise a new block with the next id is appended and registered at that offset, and nothing else changes |
| BlockMaps.FirstAskedFirstMade | C1X/src/com/sun/c1x/graph/BlockMap.java:251-258 | of two new blocks, the one whose offset is asked for first (before any request for the other) has the lower index, and so the lower id |
| BlockMaps.InOrderTrans | C1X/src/com/sun/c1x/graph/BlockMap.java:251-258 | blocks made in order in two steps are made in order for the two request lists joined |
| BlockMaps.BlockMap.AddEntrypoint | C1X/src/com/sun/c1x/graph/BlockMap.java:235-237 | the block at the offset, made if missing, gains the flag; every other block and offset is unchanged |
| BlockMaps.BlockMap.NumberOfBlocks | C1X/src/com/sun/c1x/graph/BlockMap.java:326-328 | the counter minus `firstBlock` is the number of blocks, which is the number of distinct block starts |
| BlockMaps.BlockMap.BlocksAreStarts | C1X/src/com/sun/c1x/graph/BlockMap.java:251-258 | the registry holds as many block starts as blocks |
| BlockMaps.BlockMap.Succ1 | C1X/src/com/sun/c1x/graph/BlockMap.java:632-634 | a block at the target and a one-element list at `bci` naming it; a new block takes the next id; nothing else changes |
| BlockMaps.BlockMap.Succ2 | C1X/src/com/sun/c1x/graph/BlockMap.java:628-630 | blocks at both targets and a two-element list in that order; new blocks take the next ids, the first target's before the second's (`MadeInOrder`); nothing else changes |
| BlockMaps.BlockMap.MakeAll | C1X/src/com/sun/c1x/graph/BlockMap.java:456-461 | blocks exist at every case target and the default, and nowhere else new; new blocks take the next ids in the order the targets are listed; the list names them in order |
| BlockMaps.BlockMap.MakeSwitchSuccessors | C1X/src/com/sun/c1x/graph/BlockMap.java:454-463 | the list at `bci` is the case targets' blocks in order, then the default's block; new blocks take the next ids in that order |
| Instructions.Decode | C1X/src/com/sun/c1x/graph/BlockMap.java:352-449 | the scan's view of one instruction: its size is positive; its successors lie in the code; a `jsr`'s subroutine is its second successor; a trapping instruction ends control flow or has no list |
| BlockMaps.JsrDecodes | C1X/src/com/sun/c1x/graph/BlockMap.java:410-424 | `jsr`/`jsr_w` with an operand inside the code and both targets inside it: a 3- or 5-byte instruction, list [next, target], subroutine at the target; otherwise `Malformed` |
| Bytecodes.LengthAt | C1X/src/com/sun/c1x/graph/BlockMap.java:439-448 | the table length for fixed-length opcodes; 4 for `wide` + load/store and 6 for `wide iinc` |
| Bytecodes.TableSwitchAt | C1X/src/com/sun/c1x/graph/BlockMap.java:426-431 | the case count is the `high - low + 1` of the header in Java `int`; below -1 it is `Malformed`, and -1 gives an empty list; the size is the header-derived size |
| Bytecodes.LookupSwitchAt | C1X/src/com/sun/c1x/graph/BlockMap.java:433-438 | the case count matches the pair count of the header; the size is the header-derived size |
| Bytecodes.ReadTargets | C1X/src/com/sun/c1x/graph/BlockMap.java:458-461 | `n` targets, the first the switch offset plus the first signed 32-bit entry |
| Bytecodes.StandardLength | C1X/src/com/sun/c1x/graph/BlockMap.java:448 | fixed lengths from 1 to 5; the known stores have the lengths the store pass hard-codes |
| Bytecodes.StandardIsa | C1X/src/com/sun/c1x/graph/BlockMap.java:448 | an opcode table with the standard lengths meets what the builder asks of its table |
| Bytes.BeS2 | C1X/src/com/sun/c1x/graph/BlockMap.java:393 | a signed 16-bit value congruent to the unsigned big-endian read |
| Bytes.BeS4 | C1X/src/com/sun/c1x/graph/BlockMap.java:405 | a signed 32-bit value congruent to the unsigned big-endian read |
| Bytes.BeU2 | C1X/src/com/sun/c1x/graph/BlockMap.java:577 | an unsigned 16-bit value |
| Bytes.S2RoundTrip | C1X/src/com/sun/c1x/graph/BlockMap.java:393 | reading back a 16-bit offset written at any position gives the offset |
| Bytes.S4RoundTrip | C1X/src/com/sun/c1x/graph/BlockMap.java:405 | reading back a 32-bit offset written at any position gives the offset |
| Bytes.Int32 | C1X/src/com/sun/c1x/graph/BlockMap.java:456 | Java `int` wrap-around: in range and congruent modulo 2^32 |
| BlockMaps.BlockMap.ScanGoto | C1X/src/com/sun/c1x/graph/BlockMap.java:398-408 | the step `Decode` prescribes: one successor, advance 3 or 5, `Malformed` for operands or targets outside the code |
| BlockMaps.BlockMap.ScanConditional | C1X/src/com/sun/c1x/graph/BlockMap.java:377-396 | the step `Decode` prescribes: successors fall-through and target, advance 3; new blocks numbered fall-through first (`Recorded`, `Grew`) |
| BlockMaps.BlockMap.CallSubroutine | C1X/src/com/sun/c1x/graph/BlockMap.java:412-413 | list [next, target] and the subroutine-entry flag on the target only; new blocks numbered `next` first, then `target` |
| BlockMaps.BlockMap.ScanJsr | C1X/src/com/sun/c1x/graph/BlockMap.java:410-424 | the step `Decode` prescribes for `jsr` and `jsr_w`, with new blocks numbered in successor order |
| BlockMaps.BlockMap.JumpToSubroutine | C1X/src/com/sun/c1x/graph/BlockMap.java:411-423 | with the operand read: the step `Decode` prescribes, with new blocks numbered in successor order |
| BlockMaps.BlockMap.ScanSwitch | C1X/src/com/sun/c1x/graph/BlockMap.java:426-438 | the step `Decode` prescribes: case lists in order, advance by the switch's size; new blocks numbered in list order |
| BlockMaps.BlockMap.ScanSwitchTargets | C1X/src/com/sun/c1x/graph/BlockMap.java:454-463 | once the switch header is decoded and its targets are in the code: the step `Decode` prescribes, case targets' blocks then the default's, numbered in that order |
| BlockMaps.BlockMap.ScanRet | C1X/src/com/sun/c1x/graph/BlockMap.java:372-375 | an empty list, advance 2 |
| BlockMaps.BlockMap.ScanExit | C1X/src/com/sun/c1x/graph/BlockMap.java:353-370 | an empty list, advance 1; `athrow` always traps, and any return traps under finalizer registration |
| BlockMaps.BlockMap.MarkExitTrap | C1X/src/com/sun/c1x/graph/BlockMap.java:354-367 | the trap set gains `bci` exactly for `athrow` or under finalizer registration |
| BlockMaps.BlockMap.ScanOther | C1X/src/com/sun/c1x/graph/BlockMap.java:439-448 | no list; advance by the instruction length; a trap exactly for the opcodes the table calls trapping |
| BlockMaps.BlockMap.ScanInstruction | C1X/src/com/sun/c1x/graph/BlockMap.java:351-450 | whatever the opcode, the step `Decode` prescribes, new blocks numbered in the order of the successor list |
| BlockMaps.BlockMap.ScanAdvance | C1X/src/com/sun/c1x/graph/BlockMap.java:350-451 | one loop iteration carries the scan invariant over, including the order in which blocks were made (`Summary.made`), and the rest of the walk is unchanged |
| Instructions.ScanFrom | C1X/src/com/sun/c1x/graph/BlockMap.java:350-451 | the walk visits instruction starts that all decode; lists exactly at the block-ending ones, as decoded; targets inside the code; subroutines among targets; traps among starts |
| BlockMaps.ThenStep | C1X/src/com/sun/c1x/graph/BlockMap.java:350-451 | recording one decoded instruction and walking on from the next offset is the walk from here |
| BlockMaps.ThenFail | C1X/src/com/sun/c1x/graph/BlockMap.java:350-451 | an undecodable instruction fails the whole walk with its error |
| BlockMaps.MergeRecord | C1X/src/com/sun/c1x/graph/BlockMap.java:350-451 | recording an instruction commutes with merging a later walk |
| BlockMaps.ScanStart | C1X/src/com/sun/c1x/graph/BlockMap.java:349 | after `make(0).setStandardEntry()` the scan invariant holds for the empty walk |
| BlockMaps.ScanStep | C1X/src/com/sun/c1x/graph/BlockMap.java:350-451 | one recorded instruction extends the scan invariant by that instruction |
| BlockMaps.ScanStepOrder | C1X/src/com/sun/c1x/graph/BlockMap.java:350-451 | one more instruction's blocks are numbered after those of the walk so far, in its list order |
| BlockMaps.BlockMap.IterateOverBytecodes | C1X/src/com/sun/c1x/graph/BlockMap.java:342-452 | passes exactly when the walk from 0 decodes; then a block at 0 and at every target and nowhere else new; new blocks take ids in the order the walk asks for them (0 first, then each list in walk order: `ScannedFrom` over `[0] + made`); the standard-entry flag at 0 and the subroutine flag at each `jsr` target; each list as decoded at its instruction, and no other list changed; every trap recorded; otherwise the walk's error |
| Relocation.NextStart | C1X/src/com/sun/c1x/graph/BlockMap.java:473 | the first block start at or after `y`, or the end |
| Relocation.LastStart | C1X/src/com/sun/c1x/graph/BlockMap.java:473 | the last block start at or before `x`, or -1 |
| Relocation.FirstList | C1X/src/com/sun/c1x/graph/BlockMap.java:484 | the first offset in a range holding a list, or the range's end |
| Relocation.OwnerInRegion | C1X/src/com/sun/c1x/graph/BlockMap.java:472-490 | an offset lies in an open block exactly when no list occurs between the last block start and it |
| Relocation.OpenAtEnd | C1X/src/com/sun/c1x/graph/BlockMap.java:492 | a block is still open at the end exactly when the last block produced no list |
| Relocation.StartsListed | C1X/src/com/sun/c1x/graph/BlockMap.java:465-492 | when no block is open at the end, every block start holds a list after the move |
| Relocation.StrayListsAreUnowned | C1X/src/com/sun/c1x/graph/BlockMap.java:484-490 | a list left at a non-start lies in dead code after a block's end |
| Relocation.LastStartFindsZero | C1X/src/com/sun/c1x/graph/BlockMap.java:470 | with a block at 0, every offset has a last block start |
| Relocation.ProgressDone | C1X/src/com/sun/c1x/graph/BlockMap.java:472-491 | once the loop has visited every offset, each entry is the relocated list |
| Relocation.VisitProgress | C1X/src/com/sun/c1x/graph/BlockMap.java:472-491 | one iteration keeps the relocation invariant |
| Relocation.VisitOpens | C1X/src/com/sun/c1x/graph/BlockMap.java:473-480 | the block the iteration works on is the owner of the offset, and the open block afterwards is the one the reference definition gives |
| Relocation.VisitWrites | C1X/src/com/sun/c1x/graph/BlockMap.java:477-488 | an iteration writes only the offset itself and the open block's start |
| Relocation.VisitClosing | C1X/src/com/sun/c1x/graph/BlockMap.java:474-488 | the last block start's entry is what the reference definition gives so far |
| Relocation.VisitEarlier | C1X/src/com/sun/c1x/graph/BlockMap.java:472-491 | earlier block starts keep the entry the reference definition gives |
| Relocation.VisitAt | C1X/src/com/sun/c1x/graph/BlockMap.java:484-490 | the visited offset's own entry is what the reference definition gives |
| BlockMaps.BlockMap.EnterAt | C1X/src/com/sun/c1x/graph/BlockMap.java:473-480 | the list writes `Enter` gives; the open block is the block at this offset, else the one already open |
| BlockMaps.BlockMap.LeaveAt | C1X/src/com/sun/c1x/graph/BlockMap.java:484-490 | the list writes `Leave` gives: a list at this offset moves to the open block's start and closes the block |
| BlockMaps.BlockMap.AttachHandlers | C1X/src/com/sun/c1x/graph/BlockMap.java:481-483 | at a trapping offset the open block gains the covering handlers' blocks; the trap set is unchanged |
| BlockMaps.BlockMap.RelocateAt | C1X/src/com/sun/c1x/graph/BlockMap.java:473-490 | one iteration: the list writes of the reference step and the handlers of a trapping offset attached to its open block |
| BlockMaps.BlockMap.RelocateStep | C1X/src/com/sun/c1x/graph/BlockMap.java:472-491 | one iteration keeps the relocation invariant |
| BlockMaps.BlockMap.RelocateAll | C1X/src/com/sun/c1x/graph/BlockMap.java:472-491 | the loop over every offset ends with the relocation invariant at the end of the code |
| BlockMaps.AttachedThroughHandlers | C1X/src/com/sun/c1x/graph/BlockMap.java:481-483 | after the pass, a block's handler set is what it had plus the blocks of the handlers covering its trapping offsets, and nothing more |
| BlockMaps.AttachedCovering | C1X/src/com/sun/c1x/graph/BlockMap.java:148-160 | attaching the handlers covering one offset adds exactly their blocks, to that block only |
| BlockMaps.HandlersOfSnoc | C1X/src/com/sun/c1x/graph/BlockMap.java:481-483 | the handler blocks after one more offset are those before plus that offset's |
| BlockMaps.BlockMap.MoveSuccessorLists | C1X/src/com/sun/c1x/graph/BlockMap.java:465-493 | every entry becomes the relocated list (lists moved to block starts, fall-through lists added); handlers attached as the reference definition gives; `FellOffEnd` exactly when the last block produced no list |
| BlockMaps.BlockMap.ListedEdges | C1X/src/com/sun/c1x/graph/BlockMap.java:465-493 | after a passing move every block holds a list, and the lists and handler sets form a graph on the blocks |
| BlockMaps.GraphFrom | C1X/src/com/sun/c1x/graph/BlockMap.java:522-530 | a block's edges are its list's elements and its handler blocks |
| BlockMaps.BlockMap.AddLoopBlock | C1X/src/com/sun/c1x/graph/BlockMap.java:542-547 | the block is appended to the loop list |
| BlockMaps.BlockMap.EnterBlock | C1X/src/com/sun/c1x/graph/BlockMap.java:518-519 | the state becomes `Mark` of the old one: the block visited and active, entered with the current counter; the unvisited set shrinks |
| BlockMaps.BlockMap.LeaveBlock | C1X/src/com/sun/c1x/graph/BlockMap.java:533-537 | the state becomes `Finish` of the old one: the block leaves the active path and takes the counter, which counts down; it joins the loop list exactly when `inLoop` |
| BlockMaps.BlockMap.MarkLoopHeader | C1X/src/com/sun/c1x/graph/BlockMap.java:508-512 | the state becomes `BackEdge` of the old one: the block gains the loop-header flag and joins the loop list |
| BlockMaps.BlockMap.NumberBlock | C1X/src/com/sun/c1x/graph/BlockMap.java:503-540 | `Swept` from the old state: the newly visited blocks are numbered down from the counter in post-order, in whole subtrees; every edge out of them goes to a block finished earlier or back to a block enclosing it, and only such targets become loop headers; the loop list gains exactly the blocks with an edge out of their subtree into a loop header; the answer is whether `k` or a target of those edges is a loop header. A back edge flags `k`, appends it and answers true; a finished block changes nothing and answers its flag; a fresh block is numbered last |
| BlockMaps.BlockMap.NumberFresh | C1X/src/com/sun/c1x/graph/BlockMap.java:518-539 | a fresh block is entered, its edges explored and the block left: `Swept` over a segment that is the subtrees `parts` of the successor list in list order (`ListOrder`), then the handlers' subtrees `rest`, then the block itself |
| BlockMaps.BlockMap.ExploreEdges | C1X/src/com/sun/c1x/graph/BlockMap.java:521-531 | `Swept` over all successors of `k`, the answer being the OR of theirs; the blocks numbered are whole subtrees of successors of `k` (`Chain`): first the successor list's subtrees `parts`, in list order (`ListOrder`), then the handlers' `rest`, empty without a handler table |
| BlockMaps.BlockMap.ExploreHandlers | C1X/src/com/sun/c1x/graph/BlockMap.java:526-531 | after the successor list, the handlers extend the segment: `Swept` and `Chain` over the list's blocks and the handlers together; nothing is added without a handler table |
| BlockMaps.BlockMap.ExploreList | C1X/src/com/sun/c1x/graph/BlockMap.java:522-525 | `Swept` and `Chain` over the blocks of a successor list; the segment is the concatenation of the subtrees `parts` of the elements at `picks`, in list order (`ListOrder`) |
| BlockMaps.BlockMap.ExploreNext | C1X/src/com/sun/c1x/graph/BlockMap.java:523-524 | one turn of the list loop keeps the loop state `Listed` at the next element: a block already reached adds no part, a fresh one adds its subtree as the next part |
| BlockMaps.ListedNext | C1X/src/com/sun/c1x/graph/BlockMap.java:522-525 | numbering from the next list element takes `Listed` from `i` to `i + 1` |
| BlockMaps.ListOrderNext | C1X/src/com/sun/c1x/graph/BlockMap.java:522-525 | the list order grows by the next element: no part for a block already reached, its subtree as the next part otherwise |
| Numbering.ListOrderSkip | C1X/src/com/sun/c1x/graph/BlockMap.java:505-507 | an element already visited, or inside an earlier part, adds no part |
| Numbering.ListOrderPick | C1X/src/com/sun/c1x/graph/BlockMap.java:518-539 | a fresh element adds its subtree, which ends with it and was entered after the earlier parts, as the next part |
| Numbering.ListOrderExtends | C1X/src/com/sun/c1x/graph/BlockMap.java:526-531 | numbering the handlers after the list leaves the list order intact |
| Numbering.ListOrderReached | C1X/src/com/sun/c1x/graph/BlockMap.java:522-525 | in a list order every element was visited before, or lies in the part of an element at or before it |
| BlockMaps.BlockMap.ExploreSet | C1X/src/com/sun/c1x/graph/BlockMap.java:526-531 | the same over a handler set, in whatever order the set yields its blocks |
| Numbering.BackEdgeSwept | C1X/src/com/sun/c1x/graph/BlockMap.java:508-512 | a block met again while active: nothing is numbered, the block is flagged and appended to the loop list, and the answer is true |
| Numbering.VisitedSwept | C1X/src/com/sun/c1x/graph/BlockMap.java:507-515 | a block met again after it was finished: nothing changes, and the answer is whether it is a loop header |
| Numbering.FreshSwept | C1X/src/com/sun/c1x/graph/BlockMap.java:518-539 | a fresh block's own answer adds nothing: it is a loop header only if an edge out of its subtree enters it |
| Numbering.FinishLast | C1X/src/com/sun/c1x/graph/BlockMap.java:532-539 | leaving a block after exploring its edges numbers it last in its segment, above every edge target that does not enclose it, and appends it to the loop list exactly when its answer is true |
| Numbering.SweptTrans | C1X/src/com/sun/c1x/graph/BlockMap.java:521-531 | exploring two sets of blocks in turn is exploring their union, and the answers are OR-ed |
| Numbering.NumberedAll | C1X/src/com/sun/c1x/graph/BlockMap.java:495-501 | a numbering from nothing visited is `Renumbered`: consecutive numbers counting down, nested subtrees, and every edge forward unless it enters a block enclosing its source; a block is a loop header exactly when it was one or such a back edge enters it; the loop list gains exactly the blocks with an edge out of their subtree into a loop header; every other block is untouched |
| BlockMaps.BlockMap.NumberFrom | C1X/src/com/sun/c1x/graph/BlockMap.java:496-499 | from fresh bit maps: the blocks are `Renumbered` over a segment that ends with the start block |
| BlockMaps.BlockMap.ComputeBlockNumbers | C1X/src/com/sun/c1x/graph/BlockMap.java:495-501 | the blocks are `Renumbered` from the block at offset 0, counting down from the block counter, and the counter is restored |
| Numbering.ReachableNumbered | C1X/src/com/sun/c1x/graph/BlockMap.java:503-540 | every block on a path from a numbered block is numbered |
| Numbering.DocExampleNumbering | C1X/src/com/sun/c1x/graph/BlockMap.java:98-107 | the documented numbering 2, 4, 7, 5, 6, 3, 8 of the example method, with the block at 22 as the only loop header and the loop list holding 22 four times and 0, 5, 9, 15 and 19 once, is `Renumbered` over the example's graph |
| BlockMaps.BlockMap.StoreOne | C1X/src/com/sun/c1x/graph/BlockMap.java:619-621 | the slot is added to the stored set |
| BlockMaps.BlockMap.StoreTwo | C1X/src/com/sun/c1x/graph/BlockMap.java:623-626 | both slots of a two-slot value are added |
| Instructions.StoreAt | C1X/src/com/sun/c1x/graph/BlockMap.java:559-566 | one step of the store pass: a positive advance; slots only for `wide` or a known store; `NotAStore` exactly for an opcode the table calls a store that the pass does not know |
| Instructions.StoreStepIsInstructionLength | C1X/src/com/sun/c1x/graph/BlockMap.java:575-617 | with a `wide` store advancing 4, every store step advances by the instruction's length |
| BlockMaps.BlockMap.ProcessStore | C1X/src/com/sun/c1x/graph/BlockMap.java:587-617 | the store's slot, or its two slots, is added, and the store's length returned; `NotAStore` for an unknown store |
| BlockMaps.BlockMap.ProcessWideStore | C1X/src/com/sun/c1x/graph/BlockMap.java:575-585 | the 16-bit slot is added; advance 6 for `iinc`, 4 for a store, else the instruction length |
| BlockMaps.BlockMap.StoreStepAt | C1X/src/com/sun/c1x/graph/BlockMap.java:559-566 | one loop step dispatches as `StoreAt` prescribes |
| BlockMaps.WalkStep | C1X/src/com/sun/c1x/graph/BlockMap.java:557-571 | one step of a block's walk: it stops at the end of the code or at the next block start |
| BlockMaps.BlockMap.ProcessBlockStores | C1X/src/com/sun/c1x/graph/BlockMap.java:555-571 | the slots stored from the block's start to the next block start are added, or the walk's error is reported |
| BlockMaps.LoopStoresOk | C1X/src/com/sun/c1x/graph/BlockMap.java:553-572 | the pass succeeds exactly when every loop block's walk does |
| BlockMaps.LoopStoresUnion | C1X/src/com/sun/c1x/graph/BlockMap.java:553-572 | a slot is stored in a loop exactly when some loop block's walk stores it |
| BlockMaps.LoopStoresFirstFailure | C1X/src/com/sun/c1x/graph/BlockMap.java:553-572 | a failing pass reports the error of the first loop block whose walk fails |
| BlockMaps.LoopStoresFailKept | C1X/src/com/sun/c1x/graph/BlockMap.java:553-572 | once a prefix of the loop list fails, the whole pass fails the same way |
| BlockMaps.BlockMap.ProcessLoopBlocks | C1X/src/com/sun/c1x/graph/BlockMap.java:549-573 | the union of the loop blocks' stored slots is added, or the first failing walk's error is reported |
| BlockMaps.AllLocals | C1X/src/com/sun/c1x/graph/BlockMap.java:305 | exactly the slots 0 to `maxLocals - 1` |
| BlockMaps.BlockMap.ComputeStores | C1X/src/com/sun/c1x/graph/BlockMap.java:298-306 | every local is marked when the store pass is off; otherwise the loop pass's outcome |
| BlockMaps.BlockMap.ScanWithEntries | C1X/src/com/sun/c1x/graph/BlockMap.java:292-295 | handler entries first, then the scan: `Malformed` for a handler offset outside the code, else the scan's outcome; `entered` is the state in between (`EntriesFrom`), and on success the scan summary from it is `ScanFrom` of the code from 0 (`ScannedFrom`); no loop header appears; the handler entry blocks take the next ids in handler order and the scan's blocks follow in walk order |
| BlockMaps.BlockMap.MoveAndConnect | C1X/src/com/sun/c1x/graph/BlockMap.java:296 | every entry becomes the relocated list and the handler map the attachment the reference definition gives; `FellOffEnd` exactly when the last block is open; on success the lists and handler sets form the graph `g` |
| BlockMaps.BlockMap.BuildGraph | C1X/src/com/sun/c1x/graph/BlockMap.java:292-296 | the entry pass, the scan and the move, each as its own method states, chained through the scanned state `scanned`: the first failure is the outcome; on success the graph `g` is the one the relocated lists and attached handler sets describe; the scanned state's new blocks are numbered in handler order, then in walk order |
| BlockMaps.BlockMap.NumberAndStore | C1X/src/com/sun/c1x/graph/BlockMap.java:297-306 | the blocks `bs` are renumbered from the block at 0 over the graph (`NumberedFrom`), the counter is restored, and then the stores are computed as configured |
| BlockMaps.BlockMap.NumberedLoopList | C1X/src/com/sun/c1x/graph/BlockMap.java:549-573 | every block a numbering puts on the loop list is one the store pass can walk |
| BlockMaps.BlockMap.Build | C1X/src/com/sun/c1x/graph/BlockMap.java:291-308 | the first failing pass decides the error (`Malformed` from the handler entries or the scan, the scan's error, `FellOffEnd`, the store pass's error); on success: the handler entry blocks, the scan summary `ScanFrom` of the code, the relocated successor lists, the attached handler sets, the graph they describe, the depth-first renumbering of the scanned blocks from the block at 0 with its loop headers and loop list, and the stored slots (all locals, or the union of the loop blocks' walks); the blocks are created with ids in handler order, then in walk order, before the renumbering |
| BlockMaps.BlockMap.GetSuccessors | C1X/src/com/sun/c1x/graph/BlockMap.java:265-267 | after a build, the block's list exists and its elements are edges of the graph |
| BlockMaps.BlockMap.GetHandlers | C1X/src/com/sun/c1x/graph/BlockMap.java:278-283 | without handlers the set is empty; otherwise its elements are edges of the graph |
| BlockMaps.BlockMap.Cleanup | C1X/src/com/sun/c1x/graph/BlockMap.java:315-320 | the successor map, the loop list and the exception map are dropped; the blocks stay registered |

## Left out

- `numberOfBytes` and `getStoresInLoops` (lines 330-340) return a field unchanged. The model
  reads the field directly.
- The Java `assert current == null` at line 492 is modelled as the error `FellOffEnd`, whether
  or not Java assertions are enabled. With assertions off, Java would go on with a block that
  has no successor list.
- Handler sets are Java `HashSet`s with no defined iteration order. `ExploreSet` takes their
  members in an unspecified order through `Pick`, so the numbering is proved for every order.
- Blocks are identified by their index in `blocks` (id minus `firstBlock`), and the handler
  map is keyed by that index. The model keeps no `BlockBegin` objects or object identity.
- A `loopBlocks` of `null` is modelled as the empty sequence.
- BlockMaps.BlockMap.Build: requires an empty loop list, so one map is built once. Java does
  not guard against a second `build`, which would append to the old list.
- BlockMaps.BlockMap.Build: on failure, the state reached so far is not stated. The failure
  cases are stated on the stage methods (`IterateOverBytecodes`, `SetHandlerEntrypoints`,
  `MoveSuccessorLists`, `ProcessLoopBlocks`).
- BlockMaps.BlockMap.Build: does not state that the numbered blocks are exactly the blocks
  reachable from offset 0. It states that they are closed under the edges
  (`Numbering.ReachableNumbered`) and end with the block at 0. "Only reachable blocks" is not
  proved.
- Numbering.NumberedAll: states what the loop list gains as a set, not its order or how often
  a block appears. The store pass is a union over the list, so only the choice of which failing
  block's error is reported first depends on the order.
- BlockMaps.BlockMap.NumberBlock: states the loop list's growth as a set, as above.
- BlockMaps.BlockMap.NumberFrom: states the loop list's growth as a set, as above.
- BlockMaps.BlockMap.ComputeBlockNumbers: states the loop list's growth as a set, as above.
- BlockMaps.BlockMap.NumberFresh: states the loop list's growth as a set, as above. `loopBlocks` is private and only the store pass (`processLoopBlocks`) reads it.
- BlockMaps.BlockMap.ExploreEdges: states the loop list's growth as a set, as above. `loopBlocks` is private and only the store pass (`processLoopBlocks`) reads it.
- BlockMaps.BlockMap.ExploreList: states the loop list's growth as a set, as above. `loopBlocks` is private and only the store pass (`processLoopBlocks`) reads it.
- BlockMaps.BlockMap.ExploreSet: states the loop list's growth as a set, as above. `loopBlocks` is private and only the store pass (`processLoopBlocks`) reads it.
- BlockMaps.BlockMap.NumberAndStore: states the loop list's growth as a set, as above. `loopBlocks` is private and only the store pass (`processLoopBlocks`) reads it.
- BlockMaps.BlockMap.Build: states the loop list's growth as a set, as above. `loopBlocks` is private and only the store pass (`processLoopBlocks`) reads it.
- BlockMaps.BlockMap.NumberBlock: the order of the successor list is pinned by `ListOrder` one
  block at a time (`NumberFresh`, `ExploreEdges`, `ExploreList`). `Swept` itself, and so this
  member's contract, holds for every order of the successors, not only Java's list order.
- BlockMaps.BlockMap.NumberFrom: the numbering is proved for every order of the successors, not
  only Java's list order, as for `NumberBlock`.
- BlockMaps.BlockMap.ComputeBlockNumbers: the numbering is proved for every order of the
  successors, not only Java's list order, as for `NumberBlock`.
- BlockMaps.BlockMap.NumberAndStore: the numbering is proved for every order of the successors,
  not only Java's list order, as for `NumberBlock`.
- BlockMaps.BlockMap.Build: the numbering is proved for every order of the successors, not only
  Java's list order, as for `NumberBlock`.
- Numbering.NumberedAll: `Renumbered` holds for every order of the successors, not only Java's
  list order; so a numbering other than the documented one of the example also satisfies it.
- Numbering.DocExampleNumbering: takes the example's graph as written in the class comment;
  it does not derive the graph from the example's bytecode through the scan and the move.
- BlockMaps.BlockMap.ScanInstruction: on a failed step, the partial state is not stated
  (Java may already have made some blocks).
- `BitMap.setAll` is modelled as `AllLocals(maxLocals)`, the slots below `maxLocals`.
- The opcode table (`Bytecodes.lengthOf`, `canTrap`, `isStore`) and the value of the extended
  `WRETURN` opcode come from another class. They are the parameter `Isa`, constrained only by
  what the builder relies on.
- `Cleanup` drops the successor map and the exception map, so the graph invariant no longer
  holds afterwards. As in Java, only `Get` and `NumberOfBlocks` remain usable.
- Relocation: a successor list produced by dead code after a block's end stays at its offset
  and is not moved (`StrayListsAreUnowned`). The numbering never reads it, but "successor lists
  only at block starts" does not hold for such code.
- `C1XOptions.GenFinalizerRegistration` and the intrinsic lookup that decide `isObjectInit` are
  outside the model. The flag is a constructor parameter.
- The `RiMethod` interface and the `BlockBegin` class are not part of this model. Only the
  block id, offset, flags and depth-first number that this class reads and writes are kept.

## Findings

| source | as written | input that shows it | evidently intended | confidence | as-written member | corrected member |
|---|---|---|---|---|---|---|
| C1X/src/com/sun/c1x/graph/BlockMap.java:578-582 | `processWideStore` returns 3 for `wide` + `istore`/`lstore`/`fstore`/`dstore`/`astore`, but that instruction is 4 bytes long, so the loop-store walk lands inside the instruction | the loop block `wide istore 315` (bytes `c4 36 01 3b`): the walk resumes at offset 3, reads the index's low byte `0x3b` as `istore_0`, and reports slots {315, 0} instead of {315} | advance by 4, as the instruction length does | not executed | Instructions.WideStoreAsWritten | Instructions.StoreStepIsInstructionLength, BlockMaps.BlockMap.ProcessWideStore |
| C1X/src/com/sun/c1x/graph/BlockMap.java:481-483 | `addHandlers(current, bci)` is called even when no block is open (`current == null`, dead code after a block-ending instruction), and `addHandler` then dereferences the null block | `goto 4; athrow; return` with one catch-all handler over the whole method at offset 4: the `athrow` at 3 can trap, lies in no open block, and `build` throws on the null block | attach handlers only while a block is open | not executed | BlockMaps.AttachedThroughAsWritten, BlockMaps.AsWrittenAttachment, BlockMaps.DeadThrowAborts | BlockMaps.AttachedThroughHandlers, BlockMaps.BlockMap.MoveSuccessorLists |

=== FILE: blockmaps.dfy ===
/** The block-map builder: from one method's bytecode, the basic blocks (one per start offset),
    a conservative successor list per block, the handler blocks covering each block, a
    reverse-postorder numbering with loop headers, and the locals stored inside loops. */
module BlockMaps {
  import opened Outcomes
  import opened Bytes
  import opened Bytecodes
  import opened Instructions
  import opened ExceptionMaps
  import opened Relocation
  import opened Blocks
  import opened Numbering

  /** A sequence without repetitions has as many distinct elements as it has elements. */
  lemma {:induction false} DistinctCard(s: seq<int>)
    requires forall i, j :: 0 <= i < j < |s| ==> s[i] != s[j]
    ensures |set i | 0 <= i < |s| :: s[i]| == |s|
  {
    if s != [] {
      var t := s[..|s| - 1];
      DistinctCard(t);
      var a, b := set i | 0 <= i < |t| :: t[i], set i | 0 <= i < |s| :: s[i];
      assert b == a + {s[|s| - 1]} by {
        forall v | v in b ensures v in a + {s[|s| - 1]} {
          var i :| 0 <= i < |s| && v == s[i];
          if i < |t| { assert t[i] == v; }
        }
        forall v | v in a ensures v in b {
          var i :| 0 <= i < |t| && v == t[i];
          assert s[i] == v;
        }
      }
      assert s[|s| - 1] !in a;
    }
  }

  /** The blocks a successor list names: the block index at each target offset. */
  function Targets(bm: seq<int>, ts: seq<int>): (r: seq<int>)
    ensures |r| == |ts| && forall i :: 0 <= i < |ts| && 0 <= ts[i] < |bm| ==> r[i] == bm[ts[i]]
  {
    seq(|ts|, i requires 0 <= i < |ts| => if 0 <= ts[i] < |bm| then bm[ts[i]] else -1)
  }

  /** Creating blocks elsewhere does not change a list whose targets already have blocks. */
  lemma TargetsStable(bm: seq<int>, bm': seq<int>, ts: seq<int>)
    requires |bm| == |bm'| && forall i :: 0 <= i < |ts| ==> 0 <= ts[i] < |bm| && bm[ts[i]] != -1
    requires forall x :: 0 <= x < |bm| && bm[x] != -1 ==> bm'[x] == bm[x]
    ensures Targets(bm', ts) == Targets(bm, ts)
  {
  }

  /** Two walks' records side by side. */
  function Merge(a: Summary, b: Summary): Summary {
    Summary(a.starts + b.starts, a.targets + b.targets, a.subroutines + b.subroutines, a.traps + b.traps,
            a.lists + b.lists, a.made + b.made)
  }

  /** The scan so far (`acc`) followed by the rest of the scan. */
  function Then(acc: Summary, rest: Result<Summary>): Result<Summary> {
    match rest
    case Fail(e) => Fail(e)
    case Ok(s) => Ok(Merge(acc, s))
  }

  /** The flags of the block starting at `x` in the registry `bm`/`blocks`, or none. */
  function FlagsIn(bm: seq<int>, blocks: seq<Block>, x: int): set<Flag> {
    if 0 <= x < |bm| && 0 <= bm[x] < |blocks| then blocks[bm[x]].flags else {}
  }

  /** `x` occurs in `ts` before every occurrence of `y`. */
  predicate Before(ts: seq<int>, x: int, y: int) {
    forall q :: 0 <= q < |ts| && ts[q] == y ==> x in ts[..q]
  }

  /** From `bm`/`blocks` to `bm'`/`blocks'` the new blocks were appended in the order in which
      `ts` first asks for their offsets: every new block comes after the existing ones, and of
      two new blocks the one with the lower index, and so the lower id (`make` numbers blocks
      with `blockNum++`), is the one whose offset `ts` asks for first. */
  predicate MadeInOrder(bm: seq<int>, blocks: seq<Block>, bm': seq<int>, blocks': seq<Block>, ts: seq<int>) {
    |bm'| == |bm| && |blocks| <= |blocks'|
    && (forall x :: 0 <= x < |bm| ==> bm'[x] < |blocks'|)
    && (forall x :: 0 <= x < |bm| && bm[x] == -1 && bm'[x] != -1 ==> |blocks| <= bm'[x])
    && (forall x, y :: (0 <= x < |bm| && 0 <= y < |bm| && bm[x] == -1 && bm[y] == -1 && bm'[x] != -1
                        && bm'[x] < bm'[y]) ==> Before(ts, x, y))
  }

  /** Of two new blocks with different indices, the one whose offset `ts` asks for first (at
      `p`, before any occurrence of the other) has the lower index, and so the lower id. */
  lemma FirstAskedFirstMade(bm: seq<int>, blocks: seq<Block>, bm': seq<int>, blocks': seq<Block>, ts: seq<int>,
                            x: int, y: int, p: int)
    requires MadeInOrder(bm, blocks, bm', blocks', ts)
    requires 0 <= x < |bm| && 0 <= y < |bm| && bm[x] == -1 && bm[y] == -1 && bm'[x] != -1 && bm'[y] != -1
    requires bm'[x] != bm'[y]
    requires 0 <= p < |ts| && ts[p] == x && y !in ts[..p]
    ensures bm'[x] < bm'[y]
  {
  }

  /** From registry `bm`/`blocks` to `bm'`/`blocks'`: exactly the offsets in `ts` gained
      blocks, in the order `ts` asks for them, existing blocks kept their index, and the blocks
      at `marks` (only) gained `f`. */
  predicate Grew(bm: seq<int>, blocks: seq<Block>, bm': seq<int>, blocks': seq<Block>, ts: seq<int>, marks: set<int>, f: Flag) {
    |bm'| == |bm|
    && (forall x :: 0 <= x < |bm| ==> (bm'[x] != -1 <==> bm[x] != -1 || x in ts))
    && (forall x :: 0 <= x < |bm| && bm[x] != -1 ==> bm'[x] == bm[x])
    && (forall x :: 0 <= x < |bm| ==> FlagsIn(bm', blocks', x) == FlagsIn(bm, blocks, x) + (if x in marks then {f} else {}))
    && MadeInOrder(bm, blocks, bm', blocks', ts)
  }

  /** Every entry of `l` is the index of one of `n` blocks. */
  predicate ListBelow(l: seq<int>, n: int) {
    forall i :: 0 <= i < |l| ==> 0 <= l[i] < n
  }

  /** Every member of `s` is the index of one of `n` blocks. */
  predicate SetBelow(s: set<int>, n: int) {
    forall k :: k in s ==> 0 <= k < n
  }

  /** Blocks made in order in two steps are made in order in one. */
  lemma InOrderTrans(bm0: seq<int>, bl0: seq<Block>, bm1: seq<int>, bl1: seq<Block>, bm2: seq<int>, bl2: seq<Block>,
                     ts1: seq<int>, ts2: seq<int>)
    requires MadeInOrder(bm0, bl0, bm1, bl1, ts1) && MadeInOrder(bm1, bl1, bm2, bl2, ts2)
    requires forall x :: 0 <= x < |bm0| ==> (bm1[x] != -1 <==> bm0[x] != -1 || x in ts1)
    requires forall x :: 0 <= x < |bm1| && bm1[x] != -1 ==> bm2[x] == bm1[x]
    ensures MadeInOrder(bm0, bl0, bm2, bl2, ts1 + ts2)
  {
    var ts := ts1 + ts2;
    forall x, y | 0 <= x < |bm0| && 0 <= y < |bm0| && bm0[x] == -1 && bm0[y] == -1 && bm2[x] != -1
                  && bm2[x] < bm2[y]
      ensures Before(ts, x, y)
    {
      forall q | 0 <= q < |ts| && ts[q] == y ensures x in ts[..q] {
        if bm1[x] == -1 {
          // `x` is new in the second step, and so is `y`, which comes after it
          assert bm1[y] == -1;
          assert y !in ts1;
          assert q >= |ts1| && ts2[q - |ts1|] == y;
          assert x in ts2[..q - |ts1|];
          assert ts[..q] == ts1 + ts2[..q - |ts1|];
        } else if q < |ts1| && bm1[y] != -1 {
          assert ts1[q] == y && x in ts1[..q];
          assert ts[..q] == ts1[..q];
        } else {
          assert q >= |ts1|;
          assert x in ts1;
          assert ts[..q] == ts1 + ts2[..q - |ts1|];
        }
      }
    }
  }

  /** Growth composes: blocks made in two steps are made in one. */
  lemma GrewTrans(bm0: seq<int>, bl0: seq<Block>, bm1: seq<int>, bl1: seq<Block>, bm2: seq<int>, bl2: seq<Block>,
                  ts1: seq<int>, m1: set<int>, ts2: seq<int>, m2: set<int>, f: Flag)
    requires Grew(bm0, bl0, bm1, bl1, ts1, m1, f) && Grew(bm1, bl1, bm2, bl2, ts2, m2, f)
    ensures Grew(bm0, bl0, bm2, bl2, ts1 + ts2, m1 + m2, f)
  {
    forall x | 0 <= x < |bm0| ensures bm2[x] != -1 <==> bm0[x] != -1 || x in ts1 + ts2 {
      assert x in ts1 + ts2 <==> x in ts1 || x in ts2;
    }
    InOrderTrans(bm0, bl0, bm1, bl1, bm2, bl2, ts1, ts2);
  }

  /** The entry offsets of the handlers, in declaration order. */
  function EntryOffsets(hs: seq<Handler>): (r: seq<int>)
    ensures |r| == |hs| && forall i :: 0 <= i < |hs| ==> r[i] == hs[i].handlerBci
  {
    if hs == [] then [] else EntryOffsets(hs[..|hs| - 1]) + [hs[|hs| - 1].handlerBci]
  }

  /** The entry offsets of the handlers, as a set. */
  function EntrySet(hs: seq<Handler>): (r: set<int>)
    ensures forall h :: h in hs ==> h.handlerBci in r
    ensures forall x :: x in r ==> exists h :: h in hs && h.handlerBci == x
  {
    if hs == [] then {} else EntrySet(hs[..|hs| - 1]) + {hs[|hs| - 1].handlerBci}
  }

  /** Every handler's entry offset lies in the code and starts a block. */
  predicate EntriesMade(hs: seq<Handler>, bm: seq<int>) {
    forall i :: 0 <= i < |hs| ==> 0 <= hs[i].handlerBci < |bm| && bm[hs[i].handlerBci] != -1
  }

  /** The handler map after the relocation pass has visited `[0, n)`: each trapping offset
      inside an open block attaches the handlers covering it to that block. */
  function AttachedThrough(m: map<int, set<int>>, bm: seq<int>, osm: SuccessorMap, canTrap: set<int>,
                           hs: seq<Handler>, n: nat): map<int, set<int>>
    requires |osm| == |bm| && n <= |bm| && HandlersInCode(hs, |bm|)
  {
    if n == 0 then m
    else
      var m' := AttachedThrough(m, bm, osm, canTrap, hs, n - 1);
      var o := Owner(bm, osm, n - 1);
      if o == -1 || n - 1 !in canTrap then m' else Attached(m', o, bm, Covering(hs, n - 1))
  }

  /** The handler blocks of block `k` by their meaning: the blocks of the handlers covering
      some trapping offset in `[0, n)` that lies inside `k`. */
  ghost function HandlersOf(bm: seq<int>, osm: SuccessorMap, canTrap: set<int>, hs: seq<Handler>, n: nat, k: int): set<int>
    requires |osm| == |bm| && n <= |bm| && HandlersInCode(hs, |bm|)
  {
    set x, i | 0 <= x < n && x in canTrap && Owner(bm, osm, x) == k && 0 <= i < |Covering(hs, x)|
             :: CoveredBlock(bm, hs, x, i)
  }

  /** The block of the `i`-th handler attached for offset `x`. */
  function CoveredBlock(bm: seq<int>, hs: seq<Handler>, x: int, i: int): int
    requires HandlersInCode(hs, |bm|) && 0 <= i < |Covering(hs, x)|
  {
    var h := Covering(hs, x)[i];
    assert exists j :: 0 <= j < |hs| && hs[j] == h;
    bm[h.handlerBci]
  }

  lemma HandlersOfSnoc(bm: seq<int>, osm: SuccessorMap, canTrap: set<int>, hs: seq<Handler>, n: nat, k: int)
    requires |osm| == |bm| && 0 < n <= |bm| && HandlersInCode(hs, |bm|)
    ensures var x := n - 1;
      HandlersOf(bm, osm, canTrap, hs, n, k)
      == HandlersOf(bm, osm, canTrap, hs, x, k)
         + (if x in canTrap && Owner(bm, osm, x) == k
            then set i | 0 <= i < |Covering(hs, x)| :: CoveredBlock(bm, hs, x, i) else {})
  {
    var x := n - 1;
    var l := HandlersOf(bm, osm, canTrap, hs, n, k);
    var p := HandlersOf(bm, osm, canTrap, hs, x, k);
    var here := if x in canTrap && Owner(bm, osm, x) == k
                then set i | 0 <= i < |Covering(hs, x)| :: CoveredBlock(bm, hs, x, i) else {};
    forall b | b in l ensures b in p + here {
      var y, i :| 0 <= y < n && y in canTrap && Owner(bm, osm, y) == k && 0 <= i < |Covering(hs, y)|
                  && b == CoveredBlock(bm, hs, y, i);
      if y < x {
        assert b in p;
      }
    }
    forall b | b in p + here ensures b in l {
      if b in p {
        var y, i :| 0 <= y < x && y in canTrap && Owner(bm, osm, y) == k && 0 <= i < |Covering(hs, y)|
                    && b == CoveredBlock(bm, hs, y, i);
      } else {
        var i :| 0 <= i < |Covering(hs, x)| && b == CoveredBlock(bm, hs, x, i);
      }
    }
  }

  /** Attaching the handlers covering `x` to block `o` adds, for `o`, the covered blocks. */
  lemma AttachedCovering(m: map<int, set<int>>, o: int, bm: seq<int>, hs: seq<Handler>, x: int, k: int)
    requires HandlersInCode(hs, |bm|)
    ensures var cov := Covering(hs, x);
      (forall i :: 0 <= i < |cov| ==> 0 <= cov[i].handlerBci < |bm|)
      && Lookup(Attached(m, o, bm, cov), k)
         == if k == o then Lookup(m, k) + set i | 0 <= i < |cov| :: CoveredBlock(bm, hs, x, i) else Lookup(m, k)
  {
    var cov := Covering(hs, x);
    forall i | 0 <= i < |cov| ensures 0 <= cov[i].handlerBci < |bm| {
      assert exists j :: 0 <= j < |hs| && hs[j] == cov[i];
    }
    var here := set i | 0 <= i < |cov| :: CoveredBlock(bm, hs, x, i);
    if cov != [] {
      forall b | b in HandlerBlocks(bm, cov) ensures b in here {
        var i :| 0 <= i < |cov| && b == bm[cov[i].handlerBci];
        assert b == CoveredBlock(bm, hs, x, i);
      }
      forall b | b in here ensures b in HandlerBlocks(bm, cov) {
        var i :| 0 <= i < |cov| && b == CoveredBlock(bm, hs, x, i);
        assert b == bm[cov[i].handlerBci];
      }
    }
  }

  /** The relocation pass gives every block exactly the handler blocks of the handlers covering
      its trapping offsets, on top of what it had. */
  lemma {:induction false} AttachedThroughHandlers(m: map<int, set<int>>, bm: seq<int>, osm: SuccessorMap, canTrap: set<int>,
                                                   hs: seq<Handler>, n: nat, k: int)
    requires |osm| == |bm| && n <= |bm| && HandlersInCode(hs, |bm|) && k != -1
    ensures Lookup(AttachedThrough(m, bm, osm, canTrap, hs, n), k) == Lookup(m, k) + HandlersOf(bm, osm, canTrap, hs, n, k)
  {
    if n > 0 {
      var x := n - 1;
      AttachedThroughHandlers(m, bm, osm, canTrap, hs, x, k);
      var prev := AttachedThrough(m, bm, osm, canTrap, hs, x);
      var o := Owner(bm, osm, x);
      var cov := Covering(hs, x);
      HandlersOfSnoc(bm, osm, canTrap, hs, n, k);
      if o != -1 && x in canTrap {
        assert AttachedThrough(m, bm, osm, canTrap, hs, n) == Attached(prev, o, bm, cov);
        AttachedCovering(prev, o, bm, hs, x, k);
      } else {
        assert AttachedThrough(m, bm, osm, canTrap, hs, n) == prev;
      }
    }
  }

  /** The handler attachment of the relocation pass as the source writes it: at a trapping
      offset that no open block holds (dead code after a block-ending instruction), attaching a
      covering handler dereferences the missing block and the build aborts. */
  function AttachedThroughAsWritten(m: map<int, set<int>>, bm: seq<int>, osm: SuccessorMap, canTrap: set<int>,
                                    hs: seq<Handler>, n: nat): Result<map<int, set<int>>>
    requires |osm| == |bm| && n <= |bm| && HandlersInCode(hs, |bm|)
  {
    if n == 0 then Ok(m)
    else
      match AttachedThroughAsWritten(m, bm, osm, canTrap, hs, n - 1)
      case Fail(e) => Fail(e)
      case Ok(m') =>
        var o := Owner(bm, osm, n - 1);
        if n - 1 !in canTrap then Ok(m')
        else if o == -1 then (if Covering(hs, n - 1) == [] then Ok(m') else Fail(NoOpenBlock))
        else Ok(Attached(m', o, bm, Covering(hs, n - 1)))
  }

  /** Dead trapping code that a handler covers. */
  predicate DeadCovered(bm: seq<int>, osm: SuccessorMap, canTrap: set<int>, hs: seq<Handler>, x: int)
    requires |osm| == |bm| && 0 <= x < |bm|
  {
    x in canTrap && Owner(bm, osm, x) == -1 && Covering(hs, x) != []
  }

  /** The source's attachment aborts exactly when some covered trapping offset lies in dead
      code, and otherwise agrees with the corrected one. */
  lemma {:induction false} AsWrittenAttachment(m: map<int, set<int>>, bm: seq<int>, osm: SuccessorMap, canTrap: set<int>,
                                               hs: seq<Handler>, n: nat)
    requires |osm| == |bm| && n <= |bm| && HandlersInCode(hs, |bm|)
    ensures AttachedThroughAsWritten(m, bm, osm, canTrap, hs, n).Fail?
            <==> exists x :: 0 <= x < n && DeadCovered(bm, osm, canTrap, hs, x)
    ensures AttachedThroughAsWritten(m, bm, osm, canTrap, hs, n).Ok? ==>
              AttachedThroughAsWritten(m, bm, osm, canTrap, hs, n).value == AttachedThrough(m, bm, osm, canTrap, hs, n)
  {
    if n > 0 {
      AsWrittenAttachment(m, bm, osm, canTrap, hs, n - 1);
      if !DeadCovered(bm, osm, canTrap, hs, n - 1) {
        assert (exists x :: 0 <= x < n && DeadCovered(bm, osm, canTrap, hs, x))
           <==> exists x :: 0 <= x < n - 1 && DeadCovered(bm, osm, canTrap, hs, x);
      }
    }
  }

  /** `goto` over an unreachable `athrow` to a `return`, all covered by a catch-all handler at
      the `return`: the `athrow` at offset 3 can trap, lies in no open block, and the source's
      attachment aborts there; the corrected attachment gives block 0 no handler. */
  lemma DeadThrowAborts()
    ensures var bm := [0, -1, -1, -1, 1];
      var osm := [Some([1]), None, None, Some([]), Some([])];
      var hs := [Handler(0, 5, 4, true)];
      AttachedThroughAsWritten(map[], bm, osm, {3}, hs, 5) == Fail(NoOpenBlock)
      && Lookup(AttachedThrough(map[], bm, osm, {3}, hs, 5), 0) == {}
  {
    var bm := [0, -1, -1, -1, 1];
    var osm := [Some([1]), None, None, Some([]), Some([])];
    var hs := [Handler(0, 5, 4, true)];
    assert Owner(bm, osm, 3) == -1;
    assert Covering(hs, 3) == hs;
  }

  /** The elements of a successor list, as a set. */
  function ElemSet(l: seq<int>): (r: set<int>)
    ensures forall i :: 0 <= i < |l| ==> l[i] in r
    ensures forall x :: x in r ==> x in l
  {
    set x | x in l
  }

  /** Taking one more element out of the rest of `hs` adds it to the part done. */
  lemma DoneGrows(hs: set<int>, rest: set<int>, t: int)
    requires t in rest && rest <= hs
    ensures hs - rest + {t} == hs - (rest - {t}) && rest - {t} < rest && t in hs
  {
  }

  /** Nothing left: everything is done. */
  lemma DoneAll(hs: set<int>, rest: set<int>)
    requires rest == {}
    ensures hs - rest == hs
  {
  }

  /** One more element of a list adds that element to its set. */
  lemma ElemSetGrows(l: seq<int>, i: int)
    requires 0 <= i < |l|
    ensures ElemSet(l[..i + 1]) == ElemSet(l[..i]) + {l[i]}
  {
    assert l[..i + 1] == l[..i] + [l[i]];
  }

  /** `Swept` over two equal sets of targets. */
  lemma SweptOver(g: seq<set<int>>, a: Dfs, b: Dfs, seg: seq<int>, x: set<int>, y: set<int>, inLoop: bool)
    requires Swept(g, a, b, seg, x, inLoop) && x == y
    ensures Swept(g, a, b, seg, y, inLoop)
  {
  }

  /** The loop state of numbering from the successor list `ts` of `p`, from `a` to `b`: the
      first `i` elements were explored, and `seg` is the concatenation of the subtrees `parts`
      of the elements at `picks`, in list order. */
  ghost predicate Listed(g: seq<set<int>>, ts: seq<int>, i: int, a: Dfs, b: Dfs, seg: seq<int>, inLoop: bool,
                         p: int, picks: seq<int>, parts: seq<seq<int>>) {
    (0 <= i <= |ts| && Swept(g, a, b, seg, ElemSet(ts[..i]), inLoop) && Chain(g, a, b, seg, p)
     && seg == Concat(parts) && ListOrder(ts[..i], a.visited, a.counter, b.entry, picks, parts))
  }

  /** Before the first element. */
  lemma ListedNone(g: seq<set<int>>, ts: seq<int>, a: Dfs, p: int)
    requires Numbered(a) && |g| == |a.blocks|
    ensures Listed(g, ts, 0, a, a, [], false, p, [], [])
  {
    SweptNone(g, a);
    assert ElemSet(ts[..0]) == {};
    ChainNone(g, a, p);
  }

  /** Numbering from `ts[i]` takes the loop state to `i + 1`. */
  lemma ListedNext(g: seq<set<int>>, ts: seq<int>, i: int, a: Dfs, b: Dfs, c: Dfs, seg: seq<int>, s: seq<int>,
                   inLoop: bool, r: bool, p: int, picks: seq<int>, parts: seq<seq<int>>)
    requires Listed(g, ts, i, a, b, seg, inLoop, p, picks, parts) && i < |ts| && Entered(b)
    requires 0 <= p < |g| && ElemSet(ts) <= g[p] && 0 <= ts[i] < |a.blocks|
    requires Swept(g, b, c, s, {ts[i]}, r) && EndsWith(b, c, s, ts[i]) && (s == [] <==> b.visited[ts[i]])
    ensures Listed(g, ts, i + 1, a, c, seg + s, inLoop || r, p, if s == [] then picks else picks + [i],
                   if s == [] then parts else parts + [s])
  {
    SweptTrans(g, a, b, c, seg, s, ElemSet(ts[..i]), {ts[i]}, inLoop, r);
    ChainNext(g, a, b, c, seg, s, p, ts[i]);
    ElemSetGrows(ts, i);
    ListOrderNext(ts, i, a, b, c, seg, s, picks, parts);
  }

  /** Numbering from the list's element `ts[i]` keeps the list order: a block already reached
      adds nothing, and a fresh one starts the next part. */
  lemma ListOrderNext(ts: seq<int>, i: int, a: Dfs, b: Dfs, c: Dfs, seg: seq<int>, s: seq<int>,
                      picks: seq<int>, parts: seq<seq<int>>)
    requires 0 <= i < |ts| && 0 <= ts[i] < |a.blocks| && Framed(a, b) && Counted(a, b, seg) && Framed(b, c)
    requires seg == Concat(parts) && ListOrder(ts[..i], a.visited, a.counter, b.entry, picks, parts)
    requires (s == [] <==> b.visited[ts[i]]) && EndsWith(b, c, s, ts[i])
    ensures seg + s == Concat(if s == [] then parts else parts + [s])
    ensures ListOrder(ts[..i + 1], a.visited, a.counter, c.entry, if s == [] then picks else picks + [i],
                      if s == [] then parts else parts + [s])
  {
    if s == [] {
      assert a.visited[ts[i]] || ts[i] in seg;
      assert seg + s == seg;
      ListOrderSkip(ts, i, a.visited, a.counter, b.entry, c.entry, picks, parts);
    } else {
      ListOrderPick(ts, i, a.visited, a.counter, b.entry, c.entry, picks, parts, s);
    }
  }

  /** Blocks whose flags, offset by offset, gained no loop-header flag carry none if none did
      before. */
  lemma NoHeadersGrown(bm: seq<int>, bs: seq<Block>, bm': seq<int>, bs': seq<Block>)
    requires NoHeaders(bs) && |bm'| == |bm|
    requires forall k :: 0 <= k < |bs'| ==> 0 <= bs'[k].bci < |bm'| && bm'[bs'[k].bci] == k
    requires forall x :: 0 <= x < |bm| ==> ParserLoopHeader in FlagsIn(bm', bs', x) ==> ParserLoopHeader in FlagsIn(bm, bs, x)
    ensures NoHeaders(bs')
  {
    forall t | 0 <= t < |bs'| ensures ParserLoopHeader !in bs'[t].flags {
      assert FlagsIn(bm', bs', bs'[t].bci) == bs'[t].flags;
    }
  }

  /** The numbering graph `g` (block index to the indices of its successors and handlers) is the
      one the successor lists `sm` and the handler map `hm` describe; every block has a list. */
  ghost predicate EdgesOf(g: seq<set<int>>, bs: seq<Block>, sm: seq<Option<seq<int>>>, hm: map<int, set<int>>) {
    |g| == |bs|
    && forall k :: 0 <= k < |bs| ==>
         0 <= bs[k].bci < |sm| && sm[bs[k].bci].Some?
         && g[k] == ElemSet(sm[bs[k].bci].value) + Lookup(hm, k) && SetBelow(g[k], |bs|)
  }

  lemma EdgesShape(g: seq<set<int>>, bs: seq<Block>, bs': seq<Block>, sm: seq<Option<seq<int>>>, hm: map<int, set<int>>)
    requires EdgesOf(g, bs, sm, hm) && Shape(bs, bs')
    ensures EdgesOf(g, bs', sm, hm)
  {
  }

  /** The graph depends only on where the blocks start, not on their flags or numbers. */
  lemma GraphFromShape(bs: seq<Block>, bs': seq<Block>, sm: seq<Option<seq<int>>>, hm: map<int, set<int>>)
    requires forall k :: 0 <= k < |bs| ==> 0 <= bs[k].bci < |sm| && sm[bs[k].bci].Some?
    requires Shape(bs, bs')
    ensures GraphFrom(bs', sm, hm) == GraphFrom(bs, sm, hm)
  {
  }

  /** Some member of a non-empty set: a hash set's iteration order is left open. */
  method Pick<T>(s: set<T>) returns (x: T)
    requires s != {}
    ensures x in s
  {
    assert |s| != 0;
    x :| x in s;
  }

  /** Every local slot below `n`: the store set with all its bits set. */
  function AllLocals(n: nat): (r: set<int>)
    ensures forall i :: i in r <==> 0 <= i < n
  {
    if n == 0 then {} else AllLocals(n - 1) + {n - 1}
  }

  /** The numbering graph of the blocks `bs`, from their successor lists `sm` and handler sets `hm`. */
  function GraphFrom(bs: seq<Block>, sm: seq<Option<seq<int>>>, hm: map<int, set<int>>): (g: seq<set<int>>)
    requires forall k :: 0 <= k < |bs| ==> 0 <= bs[k].bci < |sm| && sm[bs[k].bci].Some?
    ensures |g| == |bs| && forall k :: 0 <= k < |bs| ==> g[k] == ElemSet(sm[bs[k].bci].value) + Lookup(hm, k)
  {
    seq(|bs|, k requires 0 <= k < |bs| => ElemSet(sm[bs[k].bci].value) + Lookup(hm, k))
  }

  /** What `jsr` and `jsr_w` decode to: a two-way transfer to the return address and the
      subroutine, which is also the subroutine entry. */
  lemma JsrDecodes(isa: Isa, code: seq<Byte>, bci: nat, objectInit: bool)
    requires isa.Valid() && bci < |code| && (code[bci] == JSR || code[bci] == JSR_W)
    ensures var width := if code[bci] == JSR then 2 else 4;
      !InRange(code, bci + 1, width) ==> Decode(isa, code, bci, objectInit) == Fail(Malformed)
    ensures var width := if code[bci] == JSR then 2 else 4;
      InRange(code, bci + 1, width) ==>
        var target := bci + (if width == 2 then BeS2(code, bci + 1) else BeS4(code, bci + 1));
        var next := bci + width + 1;
        Decode(isa, code, bci, objectInit)
          == if 0 <= next < |code| && 0 <= target < |code| then Ok(Insn(width + 1, Some([next, target]), Some(target), false))
             else Fail(Malformed)
  {
    var width := if code[bci] == JSR then 2 else 4;
    if InRange(code, bci + 1, width) {
      var target := bci + (if width == 2 then BeS2(code, bci + 1) else BeS4(code, bci + 1));
      var next := bci + width + 1;
      assert AllInCode(code, [next, target]) <==> 0 <= next < |code| && 0 <= target < |code| by {
        assert [next, target][0] == next && [next, target][1] == target;
      }
    }
  }


  /** The parts of the builder's state the linear scan changes. */
  datatype Snapshot = Snapshot(succ: seq<Option<seq<int>>>, bm: seq<int>, blocks: seq<Block>,
                               canTrap: set<int>, handlers: map<int, set<int>>)

  /** The subroutine entry an instruction marks. */
  function InsnMarks(ins: Insn): set<int> {
    if ins.subroutine.Some? then {ins.subroutine.value} else {}
  }

  /** From `a` to `b` the scan recorded, at `bci`, the successor list `succ` (blocks for its
      targets, the list itself), the subroutine flag at `marks`, and (with handlers) a trap if
      `trap`. */
  predicate RecordedFrom(n: int, hasHandlers: bool, a: Snapshot, b: Snapshot, bci: int,
                         succ: Option<seq<int>>, marks: set<int>, trap: bool) {
    |a.succ| == n && |a.bm| == n && 0 <= bci < n
    && (forall i :: 0 <= i < |ListTargets(succ)| ==> 0 <= ListTargets(succ)[i] < n)
    && Grew(a.bm, a.blocks, b.bm, b.blocks, ListTargets(succ), marks, SubroutineEntry)
    && b.succ == (if succ.Some? then a.succ[bci := Some(Targets(b.bm, succ.value))] else a.succ)
    && (hasHandlers ==> b.canTrap == a.canTrap + (if trap then {bci} else {}) && b.handlers == a.handlers)
  }

  /** From `a` to `b` the scan recorded the walk `s`: each visited block-ending instruction's
      successor list (all other lists untouched), a block at 0 and at every target (and nowhere
      else new), the standard-entry flag at 0, the subroutine flag at each `jsr` target, and
      (with handlers) every trapping offset. */
  predicate ScannedFrom(n: int, hasHandlers: bool, a: Snapshot, b: Snapshot, s: Summary) {
    |a.succ| == n && |b.succ| == n && |a.bm| == n && |b.bm| == n
    && (forall x :: x in s.starts ==> 0 <= x < n)
    && (forall t :: t in s.targets ==> 0 <= t < n)
    && ListsRecorded(s)
    && (forall x :: 0 <= x < n ==>
          b.succ[x] == (if x in s.lists then Some(Targets(b.bm, s.lists[x])) else a.succ[x]))
    && (forall x :: 0 <= x < n ==> (b.bm[x] != -1 <==> a.bm[x] != -1 || x == 0 || x in s.targets))
    && (forall x :: 0 <= x < n && a.bm[x] != -1 ==> b.bm[x] == a.bm[x])
    && (forall x :: 0 <= x < n ==>
          FlagsIn(b.bm, b.blocks, x) == FlagsIn(a.bm, a.blocks, x) + (if x == 0 then {StandardEntry} else {})
                                        + (if x in s.subroutines then {SubroutineEntry} else {}))
    && (hasHandlers ==> b.canTrap == a.canTrap + s.traps && b.handlers == a.handlers)
    && (forall t :: t in s.made ==> t in s.targets) && (forall t :: t in s.targets ==> t in s.made)
    && MadeInOrder(a.bm, a.blocks, b.bm, b.blocks, [0] + s.made)
  }

  /** The empty walk is a unit on both sides. */
  lemma ThenUnit(acc: Summary, r: Result<Summary>)
    ensures Then(NoWalk(), r) == r
    ensures Then(acc, Ok(NoWalk())) == Ok(acc)
  {
    if r.Ok? {
      var m := Merge(NoWalk(), r.value);
      assert m.starts == r.value.starts && m.targets == r.value.targets;
      assert m.subroutines == r.value.subroutines && m.traps == r.value.traps && m.lists == r.value.lists;
      assert m.made == r.value.made;
    }
    var m := Merge(acc, NoWalk());
    assert m.starts == acc.starts && m.targets == acc.targets && m.subroutines == acc.subroutines && m.traps == acc.traps;
    assert m.lists == acc.lists && m.made == acc.made;
  }

  /** Recording an instruction before a walk that does not revisit it is recording it after. */
  lemma MergeRecord(acc: Summary, rest: Summary, bci: int, ins: Insn)
    requires bci !in rest.lists
    ensures Merge(acc, Record(rest, bci, ins)) == Merge(Push(acc, bci, ins), rest)
  {
    var l, r := Merge(acc, Record(rest, bci, ins)), Merge(Push(acc, bci, ins), rest);
    assert l.starts == r.starts && l.targets == r.targets && l.subroutines == r.subroutines && l.traps == r.traps;
    assert l.made == r.made;
    assert l.lists == r.lists by {
      forall k ensures k in l.lists <==> k in r.lists {}
      forall k | k in l.lists ensures l.lists[k] == r.lists[k] {}
    }
  }

  /** One more instruction of the walk moves from the walk still to do into the walk done. */
  lemma ThenStep(isa: Isa, code: seq<Byte>, objectInit: bool, acc: Summary, bci: nat, ins: Insn)
    requires isa.Valid() && bci < |code| && Decode(isa, code, bci, objectInit) == Ok(ins)
    ensures Then(acc, ScanFrom(isa, code, objectInit, bci))
         == Then(Push(acc, bci, ins), ScanFrom(isa, code, objectInit, bci + ins.size))
  {
    var rest := ScanFrom(isa, code, objectInit, bci + ins.size);
    ScanUnfold(isa, code, objectInit, bci, ins);
    if rest.Ok? {
      assert bci !in rest.value.lists;
      MergeRecord(acc, rest.value, bci, ins);
    }
  }

  /** The walk from a decodable instruction records it on top of the walk from the next one. */
  lemma ScanUnfold(isa: Isa, code: seq<Byte>, objectInit: bool, bci: nat, ins: Insn)
    requires isa.Valid() && bci < |code| && Decode(isa, code, bci, objectInit) == Ok(ins)
    ensures var rest := ScanFrom(isa, code, objectInit, bci + ins.size);
      ScanFrom(isa, code, objectInit, bci) == if rest.Ok? then Ok(Record(rest.value, bci, ins)) else Fail(rest.error)
  {
  }

  /** A malformed instruction ends the walk with its error. */
  lemma ThenFail(isa: Isa, code: seq<Byte>, objectInit: bool, acc: Summary, bci: nat)
    requires isa.Valid() && bci < |code| && Decode(isa, code, bci, objectInit).Fail?
    ensures Then(acc, ScanFrom(isa, code, objectInit, bci)) == Fail(Decode(isa, code, bci, objectInit).error)
  {
  }

  /** Making the entry block at 0 starts the scan with nothing recorded yet. */
  lemma ScanStart(n: int, hasHandlers: bool, a: Snapshot, b: Snapshot)
    requires |a.succ| == n && |a.bm| == n && b.succ == a.succ && b.canTrap == a.canTrap && b.handlers == a.handlers
    requires Grew(a.bm, a.blocks, b.bm, b.blocks, [0], {0}, StandardEntry)
    ensures ScannedFrom(n, hasHandlers, a, b, NoWalk())
  {
    forall x | 0 <= x < n ensures b.bm[x] != -1 <==> a.bm[x] != -1 || x == 0 {
      assert x in [0] <==> x == 0;
    }
    assert [0] + NoWalk().made == [0];
  }

  /** The scan invariant survives recording one more instruction at a fresh offset. */
  lemma {:induction false} ScanStep(n: int, hasHandlers: bool, a: Snapshot, b: Snapshot, c: Snapshot,
                                    acc: Summary, bci: int, ins: Insn)
    requires ScannedFrom(n, hasHandlers, a, b, acc)
    requires forall x :: x in acc.starts ==> x < bci
    requires RecordedFrom(n, hasHandlers, b, c, bci, ins.succ, InsnMarks(ins), ins.traps)
    ensures ScannedFrom(n, hasHandlers, a, c, Push(acc, bci, ins))
    ensures forall x :: x in Push(acc, bci, ins).starts ==> x <= bci
  {
    var acc' := Push(acc, bci, ins);
    forall x | 0 <= x < n
      ensures c.succ[x] == (if x in acc'.lists then Some(Targets(c.bm, acc'.lists[x])) else a.succ[x])
    {
      if x != bci && x in acc.lists {
        var ts := acc.lists[x];
        assert forall i :: 0 <= i < |ts| ==> ts[i] in ts;
        TargetsStable(b.bm, c.bm, ts);
      }
    }
    forall x | 0 <= x < n
      ensures c.bm[x] != -1 <==> a.bm[x] != -1 || x == 0 || x in acc'.targets
    {
      assert x in ListTargets(ins.succ) <==> x in SuccSet(ins);
    }
    forall x | 0 <= x < n
      ensures FlagsIn(c.bm, c.blocks, x) == FlagsIn(a.bm, a.blocks, x) + (if x == 0 then {StandardEntry} else {})
                                            + (if x in acc'.subroutines then {SubroutineEntry} else {})
    {
      assert x in InsnMarks(ins) <==> ins.subroutine == Some(x);
    }
    ScanStepOrder(n, a, b, c, acc, ins);
  }

  /** The blocks one more instruction makes are numbered after those the walk so far made. */
  lemma ScanStepOrder(n: int, a: Snapshot, b: Snapshot, c: Snapshot, acc: Summary, ins: Insn)
    requires |a.bm| == n && |b.bm| == n
    requires forall x :: 0 <= x < n ==> (b.bm[x] != -1 <==> a.bm[x] != -1 || x == 0 || x in acc.targets)
    requires forall x :: 0 <= x < n && a.bm[x] != -1 ==> b.bm[x] == a.bm[x]
    requires forall t :: t in acc.made <==> t in acc.targets
    requires MadeInOrder(a.bm, a.blocks, b.bm, b.blocks, [0] + acc.made)
    requires Grew(b.bm, b.blocks, c.bm, c.blocks, ListTargets(ins.succ), InsnMarks(ins), SubroutineEntry)
    ensures forall t :: t in acc.made + ListTargets(ins.succ) <==> t in acc.targets + SuccSet(ins)
    ensures MadeInOrder(a.bm, a.blocks, c.bm, c.blocks, [0] + (acc.made + ListTargets(ins.succ)))
  {
    forall x | 0 <= x < n ensures b.bm[x] != -1 <==> a.bm[x] != -1 || x in [0] + acc.made {
      assert x in [0] + acc.made <==> x == 0 || x in acc.made;
    }
    InOrderTrans(a.bm, a.blocks, b.bm, b.blocks, c.bm, c.blocks, [0] + acc.made, ListTargets(ins.succ));
    assert [0] + acc.made + ListTargets(ins.succ) == [0] + (acc.made + ListTargets(ins.succ));
    forall t ensures t in acc.made + ListTargets(ins.succ) <==> t in acc.targets + SuccSet(ins) {
      assert t in ListTargets(ins.succ) <==> t in SuccSet(ins);
    }
  }

  // -----------------------------------------------------------------------------------------
  // Stores inside loops

  /** A store-pass step that answers `r` and takes the store set from `before` to `after`
      carries out `step`: the same failure, or the step's advance with its slots added. */
  predicate StoreDone(step: Result<StoreStep>, r: Result<int>, before: set<int>, after: set<int>) {
    match step
    case Fail(e) => r == Fail(e)
    case Ok(st) => r == Ok(st.advance) && after == before + st.slots
  }

  /** `acc` added to the stores of a walk that may fail. */
  function AddStores(acc: set<int>, r: Result<set<int>>): Result<set<int>> {
    match r
    case Fail(e) => Fail(e)
    case Ok(s) => Ok(acc + s)
  }

  lemma AddNothing(r: Result<set<int>>)
    ensures AddStores({}, r) == r
  {
    if r.Ok? {
      assert {} + r.value == r.value;
    }
  }

  /** Every entry of `loops` is a block whose start lies inside the code. */
  predicate LoopList(code: seq<Byte>, bs: seq<Block>, loops: seq<int>) {
    forall j :: 0 <= j < |loops| ==> 0 <= loops[j] < |bs| && 0 <= bs[loops[j]].bci < |code|
  }

  /** The store pass over the block `k`, from its start to the next block start. */
  function BlockStores(isa: Isa, code: seq<Byte>, bm: seq<int>, bs: seq<Block>, k: int): Result<set<int>>
    requires isa.Valid() && |bm| == |code| && 0 <= k < |bs| && 0 <= bs[k].bci < |code|
  {
    BlockStoresFrom(isa, code, bm, bs[k].bci, 4)
  }

  /** The store pass over the loop blocks `loops`, in order; the first failure stops it. */
  function LoopStores(isa: Isa, code: seq<Byte>, bm: seq<int>, bs: seq<Block>, loops: seq<int>): Result<set<int>>
    requires isa.Valid() && |bm| == |code| && LoopList(code, bs, loops)
    decreases |loops|
  {
    if loops == [] then Ok({})
    else
      var n := |loops| - 1;
      match LoopStores(isa, code, bm, bs, loops[..n])
      case Fail(e) => Fail(e)
      case Ok(s) => AddStores(s, BlockStores(isa, code, bm, bs, loops[n]))
  }

  /** A failure in the pass over a prefix of the loop blocks is the failure of the whole pass. */
  lemma {:induction false} LoopStoresFailKept(isa: Isa, code: seq<Byte>, bm: seq<int>, bs: seq<Block>, loops: seq<int>, n: nat)
    requires isa.Valid() && |bm| == |code| && LoopList(code, bs, loops) && n <= |loops|
    requires LoopStores(isa, code, bm, bs, loops[..n]).Fail?
    ensures LoopStores(isa, code, bm, bs, loops) == LoopStores(isa, code, bm, bs, loops[..n])
    decreases |loops|
  {
    if n < |loops| {
      var m := |loops| - 1;
      assert loops[..m][..n] == loops[..n];
      LoopStoresFailKept(isa, code, bm, bs, loops[..m], n);
    } else {
      assert loops[..n] == loops;
    }
  }

  /** One step of the walk over a block: what remains after a store step that does not end
      the block is the walk from the next instruction. */
  lemma WalkStep(isa: Isa, code: seq<Byte>, bm: seq<int>, acc: set<int>, bci: nat)
    requires isa.Valid() && bci < |code| && |bm| == |code| && StoreAt(isa, code, bci, 4).Ok?
    ensures var st := StoreAt(isa, code, bci, 4).value;
            var next := bci + st.advance;
            AddStores(acc, BlockStoresFrom(isa, code, bm, bci, 4))
              == if next >= |code| || bm[next] != -1 then Ok(acc + st.slots)
                 else AddStores(acc + st.slots, BlockStoresFrom(isa, code, bm, next, 4))
  {
    var st := StoreAt(isa, code, bci, 4).value;
    var next := bci + st.advance;
    if next < |code| && bm[next] == -1 {
      match BlockStoresFrom(isa, code, bm, next, 4)
      case Fail(e) =>
      case Ok(rest) => assert acc + (st.slots + rest) == acc + st.slots + rest;
    }
  }

  /** The pass over the loop blocks succeeds exactly when the walk over each of them does. */
  lemma {:induction false} LoopStoresOk(isa: Isa, code: seq<Byte>, bm: seq<int>, bs: seq<Block>, loops: seq<int>)
    requires isa.Valid() && |bm| == |code| && LoopList(code, bs, loops)
    ensures LoopStores(isa, code, bm, bs, loops).Ok? <==>
              forall j :: 0 <= j < |loops| ==> BlockStores(isa, code, bm, bs, loops[j]).Ok?
    decreases |loops|
  {
    if loops != [] {
      var n := |loops| - 1;
      var p := loops[..n];
      LoopStoresOk(isa, code, bm, bs, p);
      assert forall j :: 0 <= j < n ==> loops[j] == p[j];
    }
  }

  /** The loop stores are the locals some store in some loop block writes. */
  lemma {:induction false} LoopStoresUnion(isa: Isa, code: seq<Byte>, bm: seq<int>, bs: seq<Block>, loops: seq<int>, x: int)
    requires isa.Valid() && |bm| == |code| && LoopList(code, bs, loops)
    requires LoopStores(isa, code, bm, bs, loops).Ok?
    ensures x in LoopStores(isa, code, bm, bs, loops).value <==>
              exists j :: 0 <= j < |loops| && BlockStores(isa, code, bm, bs, loops[j]).Ok?
                          && x in BlockStores(isa, code, bm, bs, loops[j]).value
    decreases |loops|
  {
    if loops != [] {
      var n := |loops| - 1;
      var p := loops[..n];
      assert forall j :: 0 <= j < n ==> loops[j] == p[j];
      LoopStoresUnion(isa, code, bm, bs, p, x);
      if x in LoopStores(isa, code, bm, bs, p).value {
        var j :| 0 <= j < |p| && BlockStores(isa, code, bm, bs, p[j]).Ok? && x in BlockStores(isa, code, bm, bs, p[j]).value;
        assert x in BlockStores(isa, code, bm, bs, loops[j]).value;
      }
    }
  }

  /** A failing pass reports the error of the first loop block whose walk fails. */
  lemma {:induction false} LoopStoresFirstFailure(isa: Isa, code: seq<Byte>, bm: seq<int>, bs: seq<Block>, loops: seq<int>)
    returns (j: int)
    requires isa.Valid() && |bm| == |code| && LoopList(code, bs, loops)
    requires LoopStores(isa, code, bm, bs, loops).Fail?
    ensures 0 <= j < |loops| && BlockStores(isa, code, bm, bs, loops[j]) == Fail(LoopStores(isa, code, bm, bs, loops).error)
    ensures forall i :: 0 <= i < j ==> BlockStores(isa, code, bm, bs, loops[i]).Ok?
    decreases |loops|
  {
    var n := |loops| - 1;
    var p := loops[..n];
    assert forall i :: 0 <= i < n ==> loops[i] == p[i];
    if LoopStores(isa, code, bm, bs, p).Fail? {
      j := LoopStoresFirstFailure(isa, code, bm, bs, p);
    } else {
      LoopStoresOk(isa, code, bm, bs, p);
      j := n;
    }
  }

  class BlockMap {
    const code: seq<Byte>
    const isa: Isa
    const maxLocals: nat
    const firstBlock: int
    /** Offset to block index (-1 where no block starts); a block's index is its id minus
        `firstBlock`. */
    const blockMap: array<int>
    /** The blocks, in creation order. */
    var blocks: seq<Block>
    /** Local slots stored inside some loop block. */
    var storesInLoops: set<int>
    /** Offset to successor list (block indices); `null` once cleaned up. */
    var successorMap: array?<Option<seq<int>>>
    /** Blocks found inside loops, with repetitions, in the order the numbering found them. */
    var loopBlocks: seq<int>
    /** Present exactly when the method declares exception handlers. */
    var exceptionMap: ExceptionMap?
    /** Next block id while blocks are created; counts down while they are numbered. */
    var blockNum: int
    /** The counter each block was entered with by the numbering (blocks numbered from that value
        down to the block's own number are its depth-first subtree). */
    ghost var entry: map<int, int>

    /** The offset-to-block array and the block list describe the same blocks, and each id is
        its index plus `firstBlock`. */
    ghost predicate Registry()
      reads this`blocks, blockMap
    {
      blockMap.Length == |code|
      && (forall x :: 0 <= x < blockMap.Length ==> -1 <= blockMap[x] < |blocks|)
      && (forall x :: 0 <= x < blockMap.Length && blockMap[x] != -1 ==> blocks[blockMap[x]].bci == x)
      && (forall k :: 0 <= k < |blocks| ==>
            0 <= blocks[k].bci < |code| && blockMap[blocks[k].bci] == k && blocks[k].id == firstBlock + k)
    }

    ghost predicate RegistryOf(bs: seq<Block>)
      reads blockMap
    {
      blockMap.Length == |code|
      && (forall x :: 0 <= x < blockMap.Length ==> -1 <= blockMap[x] < |bs|)
      && (forall x :: 0 <= x < blockMap.Length && blockMap[x] != -1 ==> bs[blockMap[x]].bci == x)
      && (forall k :: 0 <= k < |bs| ==>
            0 <= bs[k].bci < |code| && blockMap[bs[k].bci] == k && bs[k].id == firstBlock + k)
    }

    /** Changing flags and numbers keeps the registry and the graph. */
    lemma GraphShape(bs: seq<Block>)
      requires GraphOf(bs) && Shape(bs, blocks)
      ensures Graph()
    {
    }

    /** Every successor list and every handler set names existing blocks. */
    ghost predicate Graph()
      reads this`blocks, this`successorMap, this`exceptionMap, blockMap, successorMap, exceptionMap
    {
      Registry() && isa.Valid()
      && successorMap != null && successorMap.Length == |code|
      && (forall x :: 0 <= x < successorMap.Length && successorMap[x].Some? ==> ListBelow(successorMap[x].value, |blocks|))
      && (exceptionMap != null ==>
            forall id :: id in exceptionMap.handlerMap ==> SetBelow(exceptionMap.handlerMap[id], |blocks|))
    }

    lemma GraphIsGraphOf()
      requires Graph()
      ensures GraphOf(blocks)
    {
    }

    ghost predicate GraphOf(bs: seq<Block>)
      reads this`successorMap, this`exceptionMap, blockMap, successorMap, exceptionMap
    {
      RegistryOf(bs) && isa.Valid()
      && successorMap != null && successorMap.Length == |code|
      && (forall x :: 0 <= x < successorMap.Length && successorMap[x].Some? ==> ListBelow(successorMap[x].value, |bs|))
      && (exceptionMap != null ==>
            forall id :: id in exceptionMap.handlerMap ==> SetBelow(exceptionMap.handlerMap[id], |bs|))
    }

    ghost predicate Valid()
      reads this`blocks, this`blockNum, this`successorMap, this`exceptionMap, blockMap, successorMap, exceptionMap
    {
      Graph() && blockNum == firstBlock + |blocks|
    }

    /** The offsets at which a block starts. */
    ghost function Starts(): set<int>
      reads blockMap
    {
      set x | 0 <= x < blockMap.Length && blockMap[x] != -1
    }

    /** The part of the state the linear scan changes. */
    ghost function Snap(): Snapshot
      reads this, blockMap, successorMap, exceptionMap
    {
      Snapshot(if successorMap == null then [] else successorMap[..], blockMap[..], blocks,
               if exceptionMap == null then {} else exceptionMap.canTrap,
               if exceptionMap == null then map[] else exceptionMap.handlerMap)
    }

    constructor (isa: Isa, code: seq<Byte>, maxLocals: nat, handlers: seq<Handler>, isObjectInit: bool, firstBlockNum: int)
      requires isa.Valid()
      ensures Valid() && fresh(blockMap) && fresh(successorMap)
      ensures this.code == code && this.isa == isa && this.maxLocals == maxLocals && firstBlock == firstBlockNum
      ensures blocks == [] && blockNum == firstBlockNum && storesInLoops == {} && loopBlocks == []
      ensures forall x :: 0 <= x < |code| ==> blockMap[x] == -1 && successorMap[x] == None
      ensures (exceptionMap != null) == (|handlers| > 0)
      ensures exceptionMap != null ==>
                fresh(exceptionMap) && exceptionMap.allHandlers == handlers && exceptionMap.isObjectInit == isObjectInit
                && exceptionMap.canTrap == {} && exceptionMap.handlerMap == map[]
    {
      this.code := code;
      this.isa := isa;
      this.maxLocals := maxLocals;
      firstBlock := firstBlockNum;
      blockNum := firstBlockNum;
      blockMap := new int[|code|](_ => -1);
      successorMap := new Option<seq<int>>[|code|](_ => None);
      blocks := [];
      storesInLoops := {};
      loopBlocks := [];
      if |handlers| > 0 {
        exceptionMap := new ExceptionMap(isObjectInit, handlers);
      } else {
        exceptionMap := null;
      }
    }

    /** The block starting at `bci`, or -1; never creates one. */
    function Get(bci: nat): (k: int)
      reads this, blockMap
      requires Registry()
      ensures bci >= blockMap.Length ==> k == -1
      ensures k != -1 <==> bci in Starts()
      ensures k != -1 ==> 0 <= k < |blocks| && blocks[k].bci == bci
    {
      if bci < blockMap.Length then blockMap[bci] else -1
    }

    /** The number of blocks created, which is the number of distinct block start offsets. */
    function NumberOfBlocks(): (n: int)
      reads this, blockMap
      requires Registry() && blockNum == firstBlock + |blocks|
      ensures n == |blocks| && n == |Starts()|
    {
      BlocksAreStarts();
      blockNum - firstBlock
    }

    lemma BlocksAreStarts()
      requires Registry()
      ensures |Starts()| == |blocks|
    {
      var bs := blocks;
      var bcis := seq(|bs|, k requires 0 <= k < |bs| => bs[k].bci);
      forall i, j | 0 <= i < j < |bcis| ensures bcis[i] != bcis[j] {
        assert blockMap[bcis[i]] == i && blockMap[bcis[j]] == j;
      }
      DistinctCard(bcis);
      var image := set i | 0 <= i < |bcis| :: bcis[i];
      forall x | x in Starts() ensures x in image {
        var k := blockMap[x];
        assert bcis[k] == x;
      }
      forall x | x in image ensures x in Starts() {
        var k :| 0 <= k < |bcis| && x == bcis[k];
        assert blockMap[x] == k;
      }
      assert Starts() == image;
    }

    /** The block at `bci`, created with the next id if there is none yet. */
    method Make(bci: int) returns (k: int)
      requires Registry() && blockNum == firstBlock + |blocks| && 0 <= bci < |code|
      modifies this`blocks, this`blockNum, blockMap
      ensures Registry() && blockNum == firstBlock + |blocks|
      ensures 0 <= k < |blocks| && blocks[k].bci == bci && blockMap[bci] == k
      ensures Made([bci], {}, SubroutineEntry)
      ensures old(blockMap[bci]) != -1 ==>
                k == old(blockMap[bci]) && blocks == old(blocks) && blockMap[..] == old(blockMap[..])
      ensures old(blockMap[bci]) == -1 ==>
                k == |old(blocks)| && blocks == old(blocks) + [Block(bci, old(blockNum), {}, None)]
                && blockMap[..] == old(blockMap[..])[bci := k]
    {
      k := blockMap[bci];
      if k == -1 {
        k := |blocks|;
        blocks := blocks + [Block(bci, blockNum, {}, None)];
        blockNum := blockNum + 1;
        blockMap[bci] := k;
      }
    }

    /** Sets a flag on the block with index `k` (the source's `setBlockFlag`). */
    method SetFlag(k: int, f: Flag)
      requires 0 <= k < |blocks|
      modifies this`blocks
      ensures blocks == old(blocks)[k := old(blocks)[k].(flags := old(blocks)[k].flags + {f})]
    {
      blocks := blocks[k := blocks[k].(flags := blocks[k].flags + {f})];
    }

    /** Makes the block at `bci` and marks it with `f`. */
    method AddEntrypoint(bci: int, f: Flag) returns (k: int)
      requires Valid() && 0 <= bci < |code|
      modifies this`blocks, this`blockNum, blockMap
      ensures Valid()
      ensures 0 <= k < |blocks| && blocks[k].bci == bci && blockMap[bci] == k && f in blocks[k].flags
      ensures Made([bci], {bci}, f)
      ensures blockMap[..] == old(blockMap[..])[bci := k]
      ensures old(blockMap[bci]) != -1 ==> k == old(blockMap[bci]) && blockNum == old(blockNum)
      ensures |blocks| == |old(blocks)| + (if old(blockMap[bci]) == -1 then 1 else 0)
      ensures forall j :: 0 <= j < |old(blocks)| && j != k ==> blocks[j] == old(blocks)[j]
      ensures forall j :: 0 <= j < |blocks| && j == k ==>
                blocks[j] == Block(bci, firstBlock + j, (if j < |old(blocks)| then old(blocks)[j].flags else {}) + {f},
                                   if j < |old(blocks)| then old(blocks)[j].depthFirstNumber else None)
    {
      k := Make(bci);
      SetFlag(k, f);
    }

    /** Under finalizer registration (`Object.<init>` with handlers) every return can trap. */
    function ObjectInit(): bool
      reads this`exceptionMap
    {
      exceptionMap != null && exceptionMap.isObjectInit
    }

    /** Since the pre-state: exactly the offsets in `ts` gained blocks, existing blocks kept
        their index, and the blocks at `marks` (only) gained the flag `f`. */
    twostate predicate Made(ts: seq<int>, marks: set<int>, f: Flag)
      reads this, blockMap
    {
      old(Registry()) && Registry() && Grew(old(blockMap[..]), old(blocks), blockMap[..], blocks, ts, marks, f)
    }

    /** A block-ending instruction at `bci` with the single successor `s`. */
    method Succ1(bci: int, s: int)
      requires Valid() && 0 <= bci < |code| && 0 <= s < |code|
      modifies this`blocks, this`blockNum, blockMap, successorMap
      ensures Valid() && Recorded(bci, Some([s]), {}, false)
    {
      var k := Make(s);
      successorMap[bci] := Some([k]);
      assert Targets(blockMap[..], [s]) == [k];
    }

    /** A block-ending instruction at `bci` with the successors `s1` and `s2`, in that order. */
    method Succ2(bci: int, s1: int, s2: int)
      requires Valid() && 0 <= bci < |code| && 0 <= s1 < |code| && 0 <= s2 < |code|
      modifies this`blocks, this`blockNum, blockMap, successorMap
      ensures Valid() && Recorded(bci, Some([s1, s2]), {}, false)
    {
      var list := MakeAll([s1, s2]);
      successorMap[bci] := Some(list);
    }

    /** A switch at `bci`: its successors are the case targets in order, then the default. */
    method MakeSwitchSuccessors(bci: int, sw: Switch)
      requires Valid() && 0 <= bci < |code| && AllInCode(code, sw.cases + [sw.defaultTarget])
      modifies this`blocks, this`blockNum, blockMap, successorMap
      ensures Valid() && Recorded(bci, Some(sw.cases + [sw.defaultTarget]), {}, false)
    {
      var ts := sw.cases + [sw.defaultTarget];
      var list := MakeAll(ts);
      successorMap[bci] := Some(list);
    }

    /** Makes the blocks at the offsets `ts`, in order, and answers their indices. */
    method MakeAll(ts: seq<int>) returns (list: seq<int>)
      requires Valid() && AllInCode(code, ts)
      modifies this`blocks, this`blockNum, blockMap
      ensures Valid() && Made(ts, {}, SubroutineEntry) && list == Targets(blockMap[..], ts)
    {
      list := [];
      var i := 0;
      while i < |ts|
        invariant 0 <= i <= |ts| && |list| == i
        invariant Valid() && old(Registry())
        invariant Grew(old(blockMap[..]), old(blocks), blockMap[..], blocks, ts[..i], {}, SubroutineEntry)
        invariant forall j :: 0 <= j < i ==> list[j] == blockMap[ts[j]]
      {
        label Before:
        var k := Make(ts[i]);
        GrewTrans(old(blockMap[..]), old(blocks), old@Before(blockMap[..]), old@Before(blocks), blockMap[..], blocks,
                  ts[..i], {}, [ts[i]], {}, SubroutineEntry);
        assert ts[..i + 1] == ts[..i] + [ts[i]];
        list := list + [k];
        i := i + 1;
      }
      assert ts[..i] == ts;
    }

    /** Since the pre-state, the scan recorded at `bci` the successor list `succ`, the
        subroutine flag at `marks`, and a trap if `trap`; nothing else changed. */
    twostate predicate Recorded(bci: int, succ: Option<seq<int>>, marks: set<int>, trap: bool)
      reads this, blockMap, successorMap, exceptionMap
    {
      old(Registry()) && Registry()
      && successorMap != null && successorMap == old(successorMap) && successorMap.Length == |code|
      && exceptionMap == old(exceptionMap)
      && RecordedFrom(|code|, exceptionMap != null, old(Snap()), Snap(), bci, succ, marks, trap)
    }

    /** One scan step at `bci` did what `Decode` prescribes and returned the next offset. */
    twostate predicate Stepped(bci: nat, new r: Result<int>)
      reads this, blockMap, successorMap, exceptionMap
      requires isa.Valid() && bci < |code|
    {
      match Decode(isa, code, bci, ObjectInit())
      case Fail(e) => r == Fail(e)
      case Ok(ins) => r == Ok(bci + ins.size) && Recorded(bci, ins.succ, InsnMarks(ins), ins.traps)
    }

    /** The scan at `goto` (16-bit offset) or `goto_w` (32-bit offset). */
    method ScanGoto(bci: nat) returns (r: Result<int>)
      requires Valid() && bci < |code| && (code[bci] == GOTO || code[bci] == GOTO_W)
      modifies this`blocks, this`blockNum, blockMap, successorMap
      ensures Valid() && Stepped(bci, r)
    {
      var width := if code[bci] == GOTO then 2 else 4;
      if !InRange(code, bci + 1, width) {
        assert Decode(isa, code, bci, ObjectInit()) == Fail(Malformed);
        return Fail(Malformed);
      }
      var target := bci + if width == 2 then BeS2(code, bci + 1) else BeS4(code, bci + 1);
      assert Decode(isa, code, bci, ObjectInit()) == Transfer(code, width + 1, [target], None);
      if !(0 <= target < |code|) {
        assert [target][0] == target;
        return Fail(Malformed);
      }
      ghost var ins := Insn(width + 1, Some([target]), None, false);
      Succ1(bci, target);
      assert Decode(isa, code, bci, ObjectInit()) == Ok(ins) && InsnMarks(ins) == {};
      return Ok(bci + width + 1);
    }

    /** The scan at a conditional branch: the fall-through and the target. */
    method ScanConditional(bci: nat) returns (r: Result<int>)
      requires Valid() && bci < |code| && IsConditionalBranch(code[bci])
      modifies this`blocks, this`blockNum, blockMap, successorMap
      ensures Valid() && Stepped(bci, r)
    {
      if !InRange(code, bci + 1, 2) {
        assert Decode(isa, code, bci, ObjectInit()) == Fail(Malformed);
        return Fail(Malformed);
      }
      var target := bci + BeS2(code, bci + 1);
      var next := bci + 3;
      assert Decode(isa, code, bci, ObjectInit()) == Transfer(code, 3, [next, target], None);
      if !(0 <= next < |code| && 0 <= target < |code|) {
        assert [next, target][0] == next && [next, target][1] == target;
        return Fail(Malformed);
      }
      ghost var ins := Insn(3, Some([next, target]), None, false);
      Succ2(bci, next, target);
      assert Decode(isa, code, bci, ObjectInit()) == Ok(ins) && InsnMarks(ins) == {};
      return Ok(next);
    }

    /** A `jsr`'s successor list (return address, then subroutine) and the subroutine flag. */
    method CallSubroutine(bci: int, next: int, target: int)
      requires Valid() && 0 <= bci < |code| && 0 <= next < |code| && 0 <= target < |code|
      modifies this`blocks, this`blockNum, blockMap, successorMap
      ensures Valid() && Recorded(bci, Some([next, target]), {target}, false)
    {
      Succ2(bci, next, target);
      label Listed:
      var _ := AddEntrypoint(target, SubroutineEntry);
      GrewTrans(old(blockMap[..]), old(blocks), old@Listed(blockMap[..]), old@Listed(blocks), blockMap[..], blocks,
                [next, target], {}, [target], {target}, SubroutineEntry);
      assert Grew(old(blockMap[..]), old(blocks), blockMap[..], blocks, [next, target], {target}, SubroutineEntry) by {
        forall x | 0 <= x < |code| ensures x in [next, target] + [target] <==> x in [next, target] {}
      }
      assert Targets(blockMap[..], [next, target]) == Targets(old@Listed(blockMap[..]), [next, target]);
    }

    /** The scan at `jsr` or `jsr_w`: the return address and the subroutine, which is also
        marked as a subroutine entry. */
    method ScanJsr(bci: nat) returns (r: Result<int>)
      requires Valid() && bci < |code| && (code[bci] == JSR || code[bci] == JSR_W)
      modifies this`blocks, this`blockNum, blockMap, successorMap
      ensures Valid() && Stepped(bci, r)
    {
      var width := if code[bci] == JSR then 2 else 4;
      JsrDecodes(isa, code, bci, ObjectInit());
      if !InRange(code, bci + 1, width) {
        assert Decode(isa, code, bci, ObjectInit()) == Fail(Malformed);
        return Fail(Malformed);
      }
      var target := bci + if width == 2 then BeS2(code, bci + 1) else BeS4(code, bci + 1);
      r := JumpToSubroutine(bci, width, target);
    }

    /** The `jsr` at `bci`, `width` operand bytes wide, once its target is decoded. */
    method JumpToSubroutine(bci: nat, width: int, target: int) returns (r: Result<int>)
      requires Valid() && bci < |code| && (code[bci] == JSR || code[bci] == JSR_W)
      requires width == (if code[bci] == JSR then 2 else 4) && InRange(code, bci + 1, width)
      requires target == bci + if width == 2 then BeS2(code, bci + 1) else BeS4(code, bci + 1)
      modifies this`blocks, this`blockNum, blockMap, successorMap
      ensures Valid() && Stepped(bci, r)
    {
      JsrDecodes(isa, code, bci, ObjectInit());
      var next := bci + width + 1;
      if !(0 <= next < |code| && 0 <= target < |code|) {
        assert Decode(isa, code, bci, ObjectInit()) == Fail(Malformed);
        return Fail(Malformed);
      }
      ghost var ins := Insn(width + 1, Some([next, target]), Some(target), false);
      assert Decode(isa, code, bci, ObjectInit()) == Ok(ins) && InsnMarks(ins) == {target};
      CallSubroutine(bci, next, target);
      return Ok(next);
    }

    /** The scan at `tableswitch` or `lookupswitch`. */
    method ScanSwitch(bci: nat) returns (r: Result<int>)
      requires Valid() && bci < |code| && (code[bci] == TABLESWITCH || code[bci] == LOOKUPSWITCH)
      modifies this`blocks, this`blockNum, blockMap, successorMap
      ensures Valid() && Stepped(bci, r)
    {
      var sw := if code[bci] == TABLESWITCH then TableSwitchAt(code, bci) else LookupSwitchAt(code, bci);
      if sw.Fail? {
        assert Decode(isa, code, bci, ObjectInit()) == Fail(sw.error);
        return Fail(sw.error);
      }
      if !AllInCode(code, sw.value.cases + [sw.value.defaultTarget]) {
        assert Decode(isa, code, bci, ObjectInit()) == Fail(Malformed);
        return Fail(Malformed);
      }
      assert Decode(isa, code, bci, ObjectInit()) == Transfer(code, sw.value.size, sw.value.cases + [sw.value.defaultTarget], None);
      r := ScanSwitchTargets(bci, sw.value);
    }

    /** The switch at `bci`, once its header is decoded into `sw` and its targets lie inside the
        code. */
    method ScanSwitchTargets(bci: nat, sw: Switch) returns (r: Result<int>)
      requires Valid() && bci < |code| && AllInCode(code, sw.cases + [sw.defaultTarget])
      requires Decode(isa, code, bci, ObjectInit()) == Transfer(code, sw.size, sw.cases + [sw.defaultTarget], None)
      modifies this`blocks, this`blockNum, blockMap, successorMap
      ensures Valid() && Stepped(bci, r)
    {
      ghost var ins := Insn(sw.size, Some(sw.cases + [sw.defaultTarget]), None, false);
      MakeSwitchSuccessors(bci, sw);
      assert Decode(isa, code, bci, ObjectInit()) == Ok(ins) && InsnMarks(ins) == {};
      return Ok(bci + sw.size);
    }

    /** The scan at `ret`: the end of a subroutine, with no successors. */
    method ScanRet(bci: nat) returns (r: Result<int>)
      requires Valid() && bci < |code| && code[bci] == RET
      modifies successorMap
      ensures Valid() && Stepped(bci, r)
    {
      assert Grew(blockMap[..], blocks, blockMap[..], blocks, [], {}, SubroutineEntry);
      assert Targets(blockMap[..], []) == [];
      ghost var ins := Insn(2, Some([]), None, false);
      assert Decode(isa, code, bci, ObjectInit()) == Ok(ins) && InsnMarks(ins) == {};
      successorMap[bci] := Some([]);
      return Ok(bci + 2);
    }

    /** The scan at `athrow` or a return: no successors; `athrow` always traps, and under
        finalizer registration so does every return. */
    method ScanExit(bci: nat) returns (r: Result<int>)
      requires Valid() && bci < |code| && (code[bci] == ATHROW || isa.IsReturn(code[bci]))
      modifies successorMap, exceptionMap
      ensures Valid() && Stepped(bci, r)
    {
      var op := code[bci];
      assert Grew(blockMap[..], blocks, blockMap[..], blocks, [], {}, SubroutineEntry);
      assert Targets(blockMap[..], []) == [];
      ghost var ins := Insn(1, Some([]), None, op == ATHROW || ObjectInit());
      assert Decode(isa, code, bci, ObjectInit()) == Ok(ins) && InsnMarks(ins) == {};
      MarkExitTrap(bci, op == ATHROW);
      successorMap[bci] := Some([]);
      return Ok(bci + 1);
    }

    /** The trap an exit at `bci` records: always for `athrow`, and for any exit under finalizer
        registration. */
    method MarkExitTrap(bci: int, isThrow: bool)
      modifies exceptionMap
      ensures exceptionMap != null ==>
                exceptionMap.canTrap == old(exceptionMap.canTrap) + (if isThrow || ObjectInit() then {bci} else {})
                && exceptionMap.handlerMap == old(exceptionMap.handlerMap)
    {
      if exceptionMap != null && isThrow {
        exceptionMap.SetCanTrap(bci);
      }
      if exceptionMap != null && exceptionMap.isObjectInit {
        exceptionMap.SetCanTrap(bci);
      }
    }

    /** The scan at any other instruction: it only advances, recording a trap if the opcode
        can trap. */
    method ScanOther(bci: nat) returns (r: Result<int>)
      requires Valid() && bci < |code| && (code[bci] == WIDE || !Dispatched(code[bci])) && code[bci] != isa.wreturn
      modifies exceptionMap
      ensures Valid() && Stepped(bci, r)
    {
      var op := code[bci];
      if op == WIDE {
        var n := LengthAt(isa, code, bci);
        if n.Fail? {
          return Fail(n.error);
        }
        return Ok(bci + n.value);
      }
      if exceptionMap != null && op in isa.trapping {
        exceptionMap.SetCanTrap(bci);
      }
      return Ok(bci + isa.LengthOf(op));
    }

    /** One step of the linear scan (its dispatch on the opcode at `bci`): records the
        instruction's successor list and trap, and returns the offset of the next one. */
    method ScanInstruction(bci: nat) returns (r: Result<int>)
      requires Valid() && bci < |code|
      modifies this`blocks, this`blockNum, blockMap, successorMap, exceptionMap
      ensures Valid() && Stepped(bci, r)
    {
      var op := code[bci];
      if op == ATHROW || isa.IsReturn(op) {
        r := ScanExit(bci);
      } else if op == RET {
        r := ScanRet(bci);
      } else if IsConditionalBranch(op) {
        r := ScanConditional(bci);
      } else if op == JSR || op == JSR_W {
        r := ScanJsr(bci);
      } else if op == GOTO || op == GOTO_W {
        r := ScanGoto(bci);
      } else if op == TABLESWITCH || op == LOOKUPSWITCH {
        r := ScanSwitch(bci);
      } else {
        r := ScanOther(bci);
      }
    }

    /** What the scan reports: the walk from offset 0, or `Malformed` for empty code (the
        source's `make(0)` then indexes past the end). */
    ghost function ScanResult(): Result<Summary>
      reads this`exceptionMap
      requires isa.Valid()
    {
      if |code| == 0 then Fail(Malformed) else ScanFrom(isa, code, ObjectInit(), 0)
    }

    /** One iteration of the scan loop: the scan invariant from `s0` with the walk `acc` done
        up to `bci` carries over to the next offset, or the walk fails here. */
    method ScanAdvance(bci: nat, ghost s0: Snapshot, ghost acc: Summary) returns (r: Result<int>, ghost acc': Summary)
      requires Valid() && bci < |code|
      requires forall b :: b in acc.starts ==> b < bci
      requires ScannedFrom(|code|, exceptionMap != null, s0, Snap(), acc)
      modifies this`blocks, this`blockNum, blockMap, successorMap, exceptionMap
      ensures Valid()
      ensures r.Fail? ==> Then(acc, ScanFrom(isa, code, ObjectInit(), bci)) == Fail(r.error)
      ensures r.Ok? ==>
                r.value > bci && (forall b :: b in acc'.starts ==> b < r.value)
                && ScannedFrom(|code|, exceptionMap != null, s0, Snap(), acc')
                && Then(acc, ScanFrom(isa, code, ObjectInit(), bci)) == Then(acc', ScanFrom(isa, code, ObjectInit(), r.value))
    {
      ghost var before := Snap();
      r := ScanInstruction(bci);
      if r.Fail? {
        ThenFail(isa, code, ObjectInit(), acc, bci);
        return r, acc;
      }
      ghost var ins := Decode(isa, code, bci, ObjectInit()).value;
      ScanStep(|code|, exceptionMap != null, s0, before, Snap(), acc, bci, ins);
      ThenStep(isa, code, ObjectInit(), acc, bci, ins);
      acc' := Push(acc, bci, ins);
    }

    /** The linear scan over the whole method: it fails exactly when the walk from offset 0
        meets malformed code, and otherwise has recorded that walk. */
    method IterateOverBytecodes() returns (r: Outcome)
      requires Valid()
      modifies this`blocks, this`blockNum, blockMap, successorMap, exceptionMap
      ensures Valid()
      ensures r == Pass <==> ScanResult().Ok?
      ensures r.Failure? ==> r.error == ScanResult().error
      ensures ScanResult().Ok? ==> ScannedFrom(|code|, exceptionMap != null, old(Snap()), Snap(), ScanResult().value)
    {
      if |code| == 0 {
        return Failure(Malformed);
      }
      ghost var s0 := Snap();
      var _ := AddEntrypoint(0, StandardEntry);
      ghost var acc := NoWalk();
      var bci := 0;
      ScanStart(|code|, exceptionMap != null, s0, Snap());
      ThenUnit(acc, ScanFrom(isa, code, ObjectInit(), 0));
      while bci < |code|
        invariant Valid()
        invariant forall b :: b in acc.starts ==> b < bci
        invariant ScannedFrom(|code|, exceptionMap != null, s0, Snap(), acc)
        invariant ScanResult() == Then(acc, ScanFrom(isa, code, ObjectInit(), bci))
      {
        var step;
        step, acc := ScanAdvance(bci, s0, acc);
        if step.Fail? {
          return Failure(step.error);
        }
        bci := step.value;
      }
      ThenUnit(acc, ScanFrom(isa, code, ObjectInit(), bci));
      return Pass;
    }

    // ---------------------------------------------------------------------------------------
    // Handler entry points

    /** Starts a block at every handler's entry offset and flags it as an exception entry; an
        entry offset outside the code stops the build. */
    method SetHandlerEntrypoints() returns (r: Outcome)
      requires Valid() && exceptionMap != null
      modifies this`blocks, this`blockNum, blockMap
      ensures Valid()
      ensures r == Pass <==> HandlersInCode(exceptionMap.allHandlers, |code|)
      ensures r != Pass ==> r == Failure(Malformed)
      ensures r == Pass ==>
                Made(EntryOffsets(exceptionMap.allHandlers), EntrySet(exceptionMap.allHandlers), ExceptionEntry)
    {
      var hs := exceptionMap.allHandlers;
      var i := 0;
      while i < |hs|
        invariant 0 <= i <= |hs| && Valid() && old(Registry())
        invariant HandlersInCode(hs[..i], |code|)
        invariant Grew(old(blockMap[..]), old(blocks), blockMap[..], blocks,
                       EntryOffsets(hs[..i]), EntrySet(hs[..i]), ExceptionEntry)
      {
        var bci := hs[i].handlerBci;
        if !(0 <= bci < |code|) {
          return Failure(Malformed);
        }
        EnterHandler(bci, old(blockMap[..]), old(blocks), EntryOffsets(hs[..i]), EntrySet(hs[..i]));
        assert hs[..i + 1][..i] == hs[..i];
        i := i + 1;
      }
      assert hs[..i] == hs;
      return Pass;
    }

    /** One handler entry: the block at `bci` is made and flagged, extending the growth since
        `bm0`/`bl0` by that offset. */
    method EnterHandler(bci: int, ghost bm0: seq<int>, ghost bl0: seq<Block>, ghost ts: seq<int>, ghost marks: set<int>)
      requires Valid() && 0 <= bci < |code| && Grew(bm0, bl0, blockMap[..], blocks, ts, marks, ExceptionEntry)
      modifies this`blocks, this`blockNum, blockMap
      ensures Valid() && Grew(bm0, bl0, blockMap[..], blocks, ts + [bci], marks + {bci}, ExceptionEntry)
    {
      label Before:
      var _ := AddEntrypoint(bci, ExceptionEntry);
      GrewTrans(bm0, bl0, old@Before(blockMap[..]), old@Before(blocks), blockMap[..], blocks,
                ts, marks, [bci], {bci}, ExceptionEntry);
    }

    // ---------------------------------------------------------------------------------------
    // Successor relocation

    lemma RegistryInjective()
      requires Registry()
      ensures Injective(blockMap[..])
    {
      forall a, b | 0 <= a < blockMap.Length && 0 <= b < blockMap.Length && blockMap[a] != -1 && blockMap[a] == blockMap[b]
        ensures a == b
      {
        assert blocks[blockMap[a]].bci == a && blocks[blockMap[b]].bci == b;
      }
    }

    /** The handler entries the relocation pass relies on: inside the code, each starting a block. */
    ghost predicate HandlerEntries()
      reads this`exceptionMap, blockMap, exceptionMap
    {
      exceptionMap != null ==> EntriesMade(exceptionMap.allHandlers, blockMap[..])
    }

    /** Moves each successor list from the instruction that produced it to the start of the
        block it ends, gives a block that runs into the next block's start a one-element
        fall-through list, and attaches the covering handlers of each trapping offset to the
        block holding it.  Ends with `FellOffEnd` when the last block produced no list. */
    method MoveSuccessorLists() returns (r: Outcome)
      requires Valid() && HandlerEntries()
      modifies successorMap, exceptionMap
      ensures Valid() && HandlerEntries()
      ensures forall x :: 0 <= x < |code| ==> successorMap[x] == Relocated(blockMap[..], old(successorMap[..]), x)
      ensures exceptionMap != null ==>
                exceptionMap.canTrap == old(exceptionMap.canTrap)
                && exceptionMap.handlerMap == AttachedThrough(old(exceptionMap.handlerMap), blockMap[..], old(successorMap[..]),
                                                              exceptionMap.canTrap, exceptionMap.allHandlers, |code|)
      ensures r == Pass <==> OpenBefore(blockMap[..], old(successorMap[..]), |code|) == -1
      ensures r != Pass ==> r == Failure(FellOffEnd)
    {
      ghost var bm := blockMap[..];
      ghost var osm := successorMap[..];
      ghost var m0 := if exceptionMap != null then exceptionMap.handlerMap else map[];
      ghost var ct0 := if exceptionMap != null then exceptionMap.canTrap else {};
      RegistryInjective();
      var cur;
      ghost var start;
      cur, start := RelocateAll(bm, osm, m0, ct0);
      ghost var sm := successorMap[..];
      ProgressDone(bm, osm, sm, cur);
      if cur != -1 {
        return Failure(FellOffEnd);
      }
      return Pass;
    }

    /** The relocation loop: visits every offset in order; returns the block left open. */
    method RelocateAll(ghost bm: seq<int>, ghost osm: SuccessorMap, ghost m0: map<int, set<int>>, ghost ct0: set<int>)
      returns (cur: int, ghost start: int)
      requires Valid() && Relocating(bm, osm, m0, ct0, 0, Get(0), 0)
      modifies successorMap, exceptionMap
      ensures Relocating(bm, osm, m0, ct0, |code|, cur, start)
    {
      cur := Get(0);
      start := 0;
      var bci := 0;
      while bci < blockMap.Length
        invariant 0 <= bci <= |code| == blockMap.Length && Relocating(bm, osm, m0, ct0, bci, cur, start)
      {
        cur, start := RelocateStep(bci, cur, start, bm, osm, m0, ct0);
        bci := bci + 1;
      }
      assert bci == |code|;
    }

    /** The relocation pass has visited `[0, bci)` of the block array `bm`, starting from the
        successor map `osm`, the handler map `m0` and the trap set `ct0`. */
    ghost predicate Relocating(bm: seq<int>, osm: SuccessorMap, m0: map<int, set<int>>, ct0: set<int>,
                               bci: nat, cur: int, start: int)
      reads this, blockMap, successorMap, exceptionMap
    {
      (Valid() && HandlerEntries() && blockMap[..] == bm && Injective(bm) && |osm| == |bm|
       && Progress(bm, osm, successorMap[..], bci, cur) && OpenAt(bm, bci, cur, start)
       && (exceptionMap != null ==>
             exceptionMap.canTrap == ct0
             && exceptionMap.handlerMap == AttachedThrough(m0, bm, osm, ct0, exceptionMap.allHandlers, bci)))
    }

    /** One iteration of the relocation loop keeps `Relocating`. */
    method RelocateStep(bci: nat, cur: int, ghost start: int, ghost bm: seq<int>, ghost osm: SuccessorMap,
                        ghost m0: map<int, set<int>>, ghost ct0: set<int>) returns (cur': int, ghost start': int)
      requires bci < |code| && Relocating(bm, osm, m0, ct0, bci, cur, start)
      modifies successorMap, exceptionMap
      ensures Relocating(bm, osm, m0, ct0, bci + 1, cur', start')
    {
      VisitProgress(bm, osm, successorMap[..], bci, cur, start);
      VisitOpens(bm, osm, successorMap[..], bci, cur, start);
      cur', start' := RelocateAt(bci, cur, start);
    }

    /** The relocation pass's visit of `bci`, in place; see `Visit`. */
    method RelocateAt(bci: int, cur: int, ghost start: int) returns (cur': int, ghost start': int)
      requires Valid() && HandlerEntries() && 0 <= bci < |code| && Injective(blockMap[..])
      requires cur != -1 ==> 0 <= start < |code| && blockMap[start] == cur
      modifies successorMap, exceptionMap
      ensures Valid() && HandlerEntries()
      ensures var v := Visit(blockMap[..], old(successorMap[..]), bci, cur, start);
        successorMap[..] == v.0 && cur' == v.1 && start' == v.2
      ensures var open := if blockMap[bci] != -1 then blockMap[bci] else cur;
        exceptionMap != null ==>
          exceptionMap.canTrap == old(exceptionMap.canTrap)
          && exceptionMap.handlerMap == if open == -1 || bci !in exceptionMap.canTrap then old(exceptionMap.handlerMap)
                                        else Attached(old(exceptionMap.handlerMap), open, blockMap[..],
                                                      Covering(exceptionMap.allHandlers, bci))
    {
      var open;
      ghost var at;
      open, at := EnterAt(bci, cur, start);
      if exceptionMap != null && open != -1 {
        AttachHandlers(open, bci);
      }
      cur', start' := LeaveAt(bci, open, at);
    }

    /** The first half of the visit of `bci`; see `Enter`. */
    method EnterAt(bci: int, cur: int, ghost start: int) returns (cur': int, ghost start': int)
      requires Valid() && 0 <= bci < |code| && Injective(blockMap[..])
      requires cur != -1 ==> 0 <= start < |code| && blockMap[start] == cur
      modifies successorMap
      ensures Valid()
      ensures var e := Enter(blockMap[..], old(successorMap[..]), bci, cur, start);
        successorMap[..] == e.0 && cur' == e.1 && start' == e.2
      ensures cur' == if blockMap[bci] != -1 then blockMap[bci] else cur
      ensures cur' != -1 ==> 0 <= start' < |code| && blockMap[start'] == cur'
    {
      cur' := cur;
      start' := start;
      var next := blockMap[bci];
      if next != -1 && next != cur {
        if cur != -1 {
          successorMap[blocks[cur].bci] := Some([next]);
        }
        cur' := next;
        start' := bci;
      }
    }

    /** The second half of the visit of `bci`; see `Leave`. */
    method LeaveAt(bci: int, cur: int, ghost start: int) returns (cur': int, ghost start': int)
      requires Valid() && 0 <= bci < |code|
      requires cur != -1 ==> 0 <= start < |code| && blockMap[start] == cur
      modifies successorMap
      ensures Valid()
      ensures var l := Leave(old(successorMap[..]), bci, cur, start);
        successorMap[..] == l.0 && cur' == l.1 && start' == l.2
    {
      cur' := cur;
      start' := start;
      var succ := successorMap[bci];
      if succ.Some? && cur != -1 {
        successorMap[bci] := None;
        successorMap[blocks[cur].bci] := succ;
        cur' := -1;
      }
    }

    /** Attaches to the block `k` the handlers covering `bci`, if `bci` can trap. */
    method AttachHandlers(k: int, bci: int)
      requires Valid() && HandlerEntries() && exceptionMap != null && 0 <= k < |blocks| && 0 <= bci < |code|
      modifies exceptionMap
      ensures Valid() && HandlerEntries()
      ensures exceptionMap.canTrap == old(exceptionMap.canTrap)
      ensures exceptionMap.handlerMap == if bci !in exceptionMap.canTrap then old(exceptionMap.handlerMap)
                                         else Attached(old(exceptionMap.handlerMap), k, blockMap[..],
                                                       Covering(exceptionMap.allHandlers, bci))
    {
      var hs := Covering(exceptionMap.allHandlers, bci);
      forall i | 0 <= i < |hs| ensures 0 <= blockMap[hs[i].handlerBci] < |blocks| {
        var j :| 0 <= j < |exceptionMap.allHandlers| && exceptionMap.allHandlers[j] == hs[i];
      }
      assert SetBelow(HandlerBlocks(blockMap[..], hs), |blocks|);
      exceptionMap.AddHandlers(k, bci, blockMap[..]);
    }

    /** The handler map the numbering consults (empty without handlers). */
    ghost function HandlerMap(): map<int, set<int>>
      reads this`exceptionMap, exceptionMap
    {
      if exceptionMap == null then map[] else exceptionMap.handlerMap
    }

    /** `g` is the graph the successor lists and the handler map describe. */
    ghost predicate Edges(g: seq<set<int>>)
      reads this`blocks, this`successorMap, this`exceptionMap, successorMap, exceptionMap
    {
      successorMap != null && EdgesOf(g, blocks, successorMap[..], HandlerMap())
    }

    /** The numbering state. */
    ghost function State(visited: array<bool>, active: array<bool>): Dfs
      reads this, visited, active
    {
      Dfs(visited[..], active[..], blocks, blockNum, loopBlocks, entry)
    }

    /** Appends a block to the loop list (created empty). */
    method AddLoopBlock(k: int)
      modifies this`loopBlocks
      ensures loopBlocks == old(loopBlocks) + [k]
    {
      loopBlocks := loopBlocks + [k];
    }

    /** Numbers the blocks reachable from `k` that are not yet visited, in reverse post-order
        counting down from `blockNum`, marks the targets of back edges as loop headers and
        collects the blocks found inside loops; answers whether `k` lies inside a loop. */
    method NumberBlock(k: int, visited: array<bool>, active: array<bool>, ghost g: seq<set<int>>)
      returns (inLoop: bool, ghost seg: seq<int>)
      requires Edges(g) && 0 <= k < |blocks| && visited.Length == |blocks| && active.Length == |blocks|
      requires visited != active && Numbered(State(visited, active))
      modifies this`blocks, this`blockNum, this`loopBlocks, this`entry, visited, active
      ensures Edges(g) && Numbered(State(visited, active))
      ensures Swept(g, old(State(visited, active)), State(visited, active), seg, {k}, inLoop)
      ensures old(visited[k]) && old(active[k]) ==>
                inLoop && seg == [] && blocks == old(blocks)[k := old(blocks)[k].(flags := old(blocks)[k].flags + {ParserLoopHeader})]
                && loopBlocks == old(loopBlocks) + [k]
      ensures old(visited[k]) && !old(active[k]) ==>
                inLoop == IsHeader(old(blocks), k) && seg == [] && blocks == old(blocks)
                && loopBlocks == old(loopBlocks)
      ensures !old(visited[k]) ==> |seg| > 0 && seg[|seg| - 1] == k
      ensures EndsWith(old(State(visited, active)), State(visited, active), seg, k)
      decreases Unvisited(visited[..]), 1
    {
      if visited[k] {
        if active[k] {
          BackEdgeSwept(g, State(visited, active), k);
          MarkLoopHeader(k, visited, active, g);
          return true, [];
        }
        VisitedSwept(g, State(visited, active), k);
        return ParserLoopHeader in blocks[k].flags, [];
      }
      ghost var a := State(visited, active);
      ghost var picks, parts, rest;
      inLoop, seg, picks, parts, rest := NumberFresh(k, visited, active, g);
      FreshSwept(g, a, State(visited, active), seg, k, inLoop);
    }

    /** Marks the block `k`, reached again while still on the active path, as a loop header and
        adds it to the loop list. */
    method MarkLoopHeader(k: int, visited: array<bool>, active: array<bool>, ghost g: seq<set<int>>)
      requires 0 <= k < |blocks| && Edges(g)
      modifies this`blocks, this`loopBlocks
      ensures State(visited, active) == BackEdge(old(State(visited, active)), k) && Edges(g)
    {
      SetFlag(k, ParserLoopHeader);
      AddLoopBlock(k);
      EdgesShape(g, old(blocks), blocks, successorMap[..], HandlerMap());
    }

    /** The part of `NumberBlock` for a block not yet visited: it is entered, its successors and
        then its handlers are explored, and it is left with the next number. Its subtree is made
        of the subtrees `parts` of its successor list, in list order, then those of its handlers
        (`rest`), then `k` itself. */
    method NumberFresh(k: int, visited: array<bool>, active: array<bool>, ghost g: seq<set<int>>)
      returns (inLoop: bool, ghost seg: seq<int>, ghost picks: seq<int>, ghost parts: seq<seq<int>>, ghost rest: seq<int>)
      requires Edges(g) && 0 <= k < |blocks| && visited.Length == |blocks| && active.Length == |blocks|
      requires visited != active && Numbered(State(visited, active)) && !visited[k]
      modifies this`blocks, this`blockNum, this`loopBlocks, this`entry, visited, active
      ensures Edges(g) && Numbered(State(visited, active))
      ensures Swept(g, old(State(visited, active)), State(visited, active), seg, {}, inLoop)
      ensures |seg| > 0 && seg[|seg| - 1] == k && EndsWith(old(State(visited, active)), State(visited, active), seg, k)
      ensures seg == Concat(parts) + rest + [k]
      ensures ListOrder(old(successorMap[blocks[k].bci].value), old(visited[..])[k := true], old(blockNum), entry, picks, parts)
      decreases Unvisited(visited[..]), 0
    {
      ghost var a := State(visited, active);
      EnterBlock(k, visited, active);
      ghost var s;
      inLoop, s, picks, parts, rest := ExploreEdges(k, visited, active, g);
      ghost var c := State(visited, active);
      assert Extends(Mark(a, k).entry, c.entry);
      LeaveBlock(k, inLoop, visited, active, g);
      FinishLast(g, a, c, s, k, inLoop);
      seg := s + [k];
    }

    /** Enters the block `k`: it becomes visited and active, entered with the current counter. */
    method EnterBlock(k: int, visited: array<bool>, active: array<bool>)
      requires 0 <= k < visited.Length && k < active.Length && visited != active && !visited[k]
      modifies visited, active, this`entry
      ensures State(visited, active) == Mark(old(State(visited, active)), k)
      ensures Unvisited(visited[..]) < Unvisited(old(visited[..]))
    {
      ghost var v := visited[..];
      visited[k] := true;
      active[k] := true;
      entry := entry[k := blockNum];
      assert k in Unvisited(v) - Unvisited(visited[..]);
    }

    /** Leaves the block `k`: it leaves the active path and takes the next number, counting
        down; a block inside a loop joins the loop list. */
    method LeaveBlock(k: int, inLoop: bool, visited: array<bool>, active: array<bool>, ghost g: seq<set<int>>)
      requires 0 <= k < active.Length && k < |blocks| && visited != active && Edges(g)
      modifies this`blocks, this`blockNum, this`loopBlocks, active
      ensures State(visited, active) == Finish(old(State(visited, active)), k, inLoop)
      ensures Edges(g)
    {
      ghost var bs := blocks;
      active[k] := false;
      blocks := blocks[k := blocks[k].(depthFirstNumber := Some(blockNum))];
      blockNum := blockNum - 1;
      if inLoop {
        AddLoopBlock(k);
      }
      EdgesShape(g, bs, blocks, successorMap[..], HandlerMap());
    }

    /** Explores the successors of `k` and then its handlers; answers whether any of them lies
        inside a loop. The blocks numbered on the way are whole subtrees of successors of `k`:
        first those of the successor list, in list order (`parts`), then those of the handlers
        (`rest`, empty when there is no handler table). */
    method ExploreEdges(k: int, visited: array<bool>, active: array<bool>, ghost g: seq<set<int>>)
      returns (inLoop: bool, ghost seg: seq<int>, ghost picks: seq<int>, ghost parts: seq<seq<int>>, ghost rest: seq<int>)
      requires Edges(g) && 0 <= k < |blocks| && visited.Length == |blocks| && active.Length == |blocks|
      requires visited != active && Numbered(State(visited, active))
      modifies this`blocks, this`blockNum, this`loopBlocks, this`entry, visited, active
      ensures Edges(g) && Numbered(State(visited, active))
      ensures Swept(g, old(State(visited, active)), State(visited, active), seg, g[k], inLoop)
      ensures Chain(g, old(State(visited, active)), State(visited, active), seg, k)
      ensures seg == Concat(parts) + rest && (exceptionMap == null ==> rest == [])
      ensures ListOrder(old(successorMap[blocks[k].bci].value), old(visited[..]), old(blockNum), entry, picks, parts)
      decreases Unvisited(visited[..]), 4
    {
      ghost var a := State(visited, active);
      var succ := successorMap[blocks[k].bci].value;
      var r1, s1, p1, q1 := ExploreList(succ, visited, active, g, k);
      ghost var e1 := entry;
      inLoop, rest := ExploreHandlers(k, visited, active, g, a, s1, r1, succ);
      seg, picks, parts := s1 + rest, p1, q1;
      ListOrderExtends(succ, a.visited, a.counter, e1, entry, p1, q1);
    }

    /** The second half of `ExploreEdges`: after the successor list `succ` of `k` was explored
        from `a`, numbering `s1`, explores the handlers of `k`, if there are any. */
    method ExploreHandlers(k: int, visited: array<bool>, active: array<bool>, ghost g: seq<set<int>>, ghost a: Dfs,
                           ghost s1: seq<int>, r1: bool, succ: seq<int>)
      returns (inLoop: bool, ghost rest: seq<int>)
      requires Edges(g) && 0 <= k < |blocks| && visited.Length == |blocks| && active.Length == |blocks|
      requires visited != active && Numbered(State(visited, active))
      requires succ == successorMap[blocks[k].bci].value
      requires Swept(g, a, State(visited, active), s1, ElemSet(succ), r1) && Chain(g, a, State(visited, active), s1, k)
      modifies this`blocks, this`blockNum, this`loopBlocks, this`entry, visited, active
      ensures Edges(g) && Numbered(State(visited, active)) && Extends(old(entry), entry)
      ensures Swept(g, a, State(visited, active), s1 + rest, g[k], inLoop)
      ensures Chain(g, a, State(visited, active), s1 + rest, k)
      ensures exceptionMap == null ==> rest == []
      decreases Unvisited(visited[..]), 3
    {
      if exceptionMap == null {
        SweptOver(g, a, State(visited, active), s1, ElemSet(succ), g[k], r1);
        assert s1 + [] == s1;
        return r1, [];
      }
      ghost var c1 := State(visited, active);
      var r2, s2 := ExploreSet(exceptionMap.GetHandlers(k), visited, active, g, k);
      ghost var c2 := State(visited, active);
      SweptTrans(g, a, c1, c2, s1, s2, ElemSet(succ), exceptionMap.GetHandlers(k), r1, r2);
      ChainJoin(g, a, c1, c2, s1, s2, k);
      inLoop, rest := r1 || r2, s2;
    }

    /** Numbers from each block of the successor list `ts` of `p` in turn; answers whether any of
        them lies inside a loop. The blocks numbered are the subtrees `parts` of the elements at
        `picks`, in list order (`ListOrder`). */
    method ExploreList(ts: seq<int>, visited: array<bool>, active: array<bool>, ghost g: seq<set<int>>, ghost p: int)
      returns (inLoop: bool, ghost seg: seq<int>, ghost picks: seq<int>, ghost parts: seq<seq<int>>)
      requires Edges(g) && visited.Length == |blocks| && active.Length == |blocks| && ListBelow(ts, |blocks|)
      requires visited != active && Numbered(State(visited, active)) && 0 <= p < |g| && ElemSet(ts) <= g[p]
      modifies this`blocks, this`blockNum, this`loopBlocks, this`entry, visited, active
      ensures Edges(g) && Numbered(State(visited, active))
      ensures Swept(g, old(State(visited, active)), State(visited, active), seg, ElemSet(ts), inLoop)
      ensures Chain(g, old(State(visited, active)), State(visited, active), seg, p)
      ensures seg == Concat(parts) && ListOrder(ts, old(visited[..]), old(blockNum), entry, picks, parts)
      decreases Unvisited(visited[..]), 3
    {
      ghost var a := State(visited, active);
      ListedNone(g, ts, a, p);
      inLoop, seg, picks, parts := false, [], [], [];
      ghost var b := a;
      var i := 0;
      while i < |ts|
        invariant 0 <= i <= |ts| && b == State(visited, active)
        invariant Edges(g) && visited.Length == |blocks| && active.Length == |blocks|
        invariant Numbered(b) && Listed(g, ts, i, a, b, seg, inLoop, p, picks, parts)
        invariant Unvisited(b.visited) <= Unvisited(a.visited)
      {
        var r;
        ghost var s;
        r, s := ExploreNext(ts, i, visited, active, g, p, a, seg, inLoop, picks, parts);
        picks, parts := if s == [] then picks else picks + [i], if s == [] then parts else parts + [s];
        inLoop := inLoop || r;
        seg := seg + s;
        i := i + 1;
        b := State(visited, active);
      }
      assert ts[..i] == ts;
    }

    /** One turn of `ExploreList`: numbers from the list's element `ts[i]`. */
    method ExploreNext(ts: seq<int>, i: int, visited: array<bool>, active: array<bool>, ghost g: seq<set<int>>, ghost p: int,
                       ghost a: Dfs, ghost seg: seq<int>, ghost inLoop: bool, ghost picks: seq<int>, ghost parts: seq<seq<int>>)
      returns (r: bool, ghost s: seq<int>)
      requires Edges(g) && visited.Length == |blocks| && active.Length == |blocks| && ListBelow(ts, |blocks|)
      requires visited != active && Numbered(State(visited, active)) && 0 <= p < |g| && ElemSet(ts) <= g[p]
      requires 0 <= i < |ts| && |a.blocks| == |blocks| && Listed(g, ts, i, a, State(visited, active), seg, inLoop, p, picks, parts)
      modifies this`blocks, this`blockNum, this`loopBlocks, this`entry, visited, active
      ensures Edges(g) && Numbered(State(visited, active))
      ensures Listed(g, ts, i + 1, a, State(visited, active), seg + s, inLoop || r, p,
                     if s == [] then picks else picks + [i], if s == [] then parts else parts + [s])
      ensures Unvisited(visited[..]) <= old(Unvisited(visited[..]))
      decreases Unvisited(visited[..]), 2
    {
      ghost var b := State(visited, active);
      r, s := NumberBlock(ts[i], visited, active, g);
      ghost var c := State(visited, active);
      ListedNext(g, ts, i, a, b, c, seg, s, inLoop, r, p, picks, parts);
      UnvisitedShrinks(b, c);
    }

    /** Numbers from each handler block of `hs`, handlers of `p`, in no particular order; answers
        whether any of them lies inside a loop. */
    method ExploreSet(hs: set<int>, visited: array<bool>, active: array<bool>, ghost g: seq<set<int>>, ghost p: int)
      returns (inLoop: bool, ghost seg: seq<int>)
      requires Edges(g) && visited.Length == |blocks| && active.Length == |blocks| && SetBelow(hs, |blocks|)
      requires visited != active && Numbered(State(visited, active)) && 0 <= p < |g| && hs <= g[p]
      modifies this`blocks, this`blockNum, this`loopBlocks, this`entry, visited, active
      ensures Edges(g) && Numbered(State(visited, active))
      ensures Swept(g, old(State(visited, active)), State(visited, active), seg, hs, inLoop)
      ensures Chain(g, old(State(visited, active)), State(visited, active), seg, p)
      decreases Unvisited(visited[..]), 2
    {
      ghost var a := State(visited, active);
      SweptNone(g, a);
      ChainNone(g, a, p);
      inLoop, seg := false, [];
      var rest := hs;
      ghost var done: set<int> := {};
      ghost var b := a;
      while rest != {}
        invariant rest <= hs && done == hs - rest && b == State(visited, active)
        invariant Edges(g) && visited.Length == |blocks| && active.Length == |blocks|
        invariant Numbered(b) && Swept(g, a, b, seg, done, inLoop) && Chain(g, a, b, seg, p)
        invariant Unvisited(b.visited) <= Unvisited(a.visited)
        decreases rest
      {
        var t := Pick(rest);
        DoneGrows(hs, rest, t);
        var r;
        ghost var s;
        r, s := NumberBlock(t, visited, active, g);
        ghost var c := State(visited, active);
        SweptTrans(g, a, b, c, seg, s, done, {t}, inLoop, r);
        ChainNext(g, a, b, c, seg, s, p, t);
        UnvisitedShrinks(a, c);
        inLoop := inLoop || r;
        seg := seg + s;
        done := done + {t};
        rest := rest - {t};
        b := c;
      }
      DoneAll(hs, rest);
    }

    /** Numbers the blocks reachable from the block at offset 0 in reverse post-order, counting
        down from the number of the next block to create, and leaves that counter as it was. */
    method ComputeBlockNumbers(ghost g: seq<set<int>>) returns (ghost seg: seq<int>)
      requires Valid() && Edges(g) && |code| > 0 && blockMap[0] != -1 && NoHeaders(blocks)
      modifies this`blocks, this`blockNum, this`loopBlocks, this`entry
      ensures Valid() && Edges(g) && blockNum == old(blockNum)
      ensures Renumbered(g, old(blocks), old(blockNum), old(loopBlocks), blocks, loopBlocks, seg, entry)
      ensures |seg| > 0 && seg[|seg| - 1] == blockMap[0]
    {
      ghost var bs := blocks;
      GraphIsGraphOf();
      var saved := blockNum;
      seg := NumberFrom(Get(0), g);
      blockNum := saved;
      GraphShape(bs);
    }

    /** Numbers from the block `k` with fresh bit maps. */
    method NumberFrom(k: int, ghost g: seq<set<int>>) returns (ghost seg: seq<int>)
      requires Edges(g) && 0 <= k < |blocks| && NoHeaders(blocks)
      modifies this`blocks, this`blockNum, this`loopBlocks, this`entry
      ensures Edges(g) && Renumbered(g, old(blocks), old(blockNum), old(loopBlocks), blocks, loopBlocks, seg, entry)
      ensures |seg| > 0 && seg[|seg| - 1] == k
    {
      var visited := new bool[|blocks|](_ => false);
      var active := new bool[|blocks|](_ => false);
      entry := map[];
      ghost var a := State(visited, active);
      assert forall x :: 0 <= x < |a.visited| ==> !a.visited[x] && !a.active[x];
      assert Numbered(a) && !visited[k];
      var inLoop, s := NumberBlock(k, visited, active, g);
      ghost var b := State(visited, active);
      assert a.blocks == old(blocks) && a.counter == old(blockNum) && a.loops == old(loopBlocks);
      assert b.blocks == blocks && b.loops == loopBlocks && b.entry == entry;
      NumberedAll(g, a, b, s, k, inLoop);
      seg := s;
    }

    // ---------------------------------------------------------------------------------------
    // Stores inside loops

    /** Records one slot as stored inside a loop. */
    method StoreOne(local: int)
      modifies this`storesInLoops
      ensures storesInLoops == old(storesInLoops) + {local}
    {
      storesInLoops := storesInLoops + {local};
    }

    /** Records both slots of a two-slot value as stored inside a loop. */
    method StoreTwo(local: int)
      modifies this`storesInLoops
      ensures storesInLoops == old(storesInLoops) + {local, local + 1}
    {
      storesInLoops := storesInLoops + {local, local + 1};
    }

    /** Records the slots a store opcode writes and answers its length; an opcode the table calls
        a store but that is none of the 26 known forms stops the build. */
    method ProcessStore(opcode: Byte, bci: nat) returns (r: Result<int>)
      requires isa.Valid() && bci < |code| && opcode == code[bci] && opcode != WIDE && opcode in isa.stores
      modifies this`storesInLoops
      ensures StoreDone(StoreAt(isa, code, bci, 4), r, old(storesInLoops), storesInLoops)
    {
      if !IsKnownStore(opcode) {
        return Fail(NotAStore);
      }
      var local;
      if opcode == IINC || opcode <= ASTORE {
        if bci + 1 >= |code| {
          return Fail(Malformed);
        }
        local := code[bci + 1] as int;
        r := Ok(if opcode == IINC then 3 else 2);
      } else {
        local := (opcode - ISTORE_0) as int % 4;
        r := Ok(1);
      }
      if IsTwoSlotStore(opcode) {
        StoreTwo(local);
      } else {
        StoreOne(local);
      }
    }

    /** Records the slots a `wide`-prefixed store writes and answers the length of the wide
        instruction; any other wide instruction is only stepped over. */
    method ProcessWideStore(opcode: Byte, bci: nat) returns (r: Result<int>)
      requires isa.Valid() && bci + 1 < |code| && code[bci] == WIDE && opcode == code[bci + 1]
      modifies this`storesInLoops
      ensures StoreDone(StoreAt(isa, code, bci, 4), r, old(storesInLoops), storesInLoops)
    {
      if opcode == IINC || ISTORE <= opcode <= ASTORE {
        if !InRange(code, bci + 2, 2) {
          return Fail(Malformed);
        }
        var local := BeU2(code, bci + 2);
        if IsTwoSlotStore(opcode) {
          StoreTwo(local);
        } else {
          StoreOne(local);
        }
        return Ok(if opcode == IINC then 6 else 4);
      }
      r := LengthAt(isa, code, bci);
    }

    /** Walks the block starting at `start` instruction by instruction up to the next block start
        or the end of the code, recording the slots its stores write. */
    method ProcessBlockStores(start: nat) returns (r: Outcome)
      requires isa.Valid() && blockMap.Length == |code| && start < |code|
      modifies this`storesInLoops
      ensures match BlockStoresFrom(isa, code, blockMap[..], start, 4)
              case Fail(e) => r == Failure(e)
              case Ok(s) => r == Pass && storesInLoops == old(storesInLoops) + s
    {
      ghost var bm := blockMap[..];
      ghost var whole := BlockStoresFrom(isa, code, bm, start, 4);
      var bci := start;
      ghost var acc: set<int> := {};
      AddNothing(whole);
      while true
        invariant bci < |code| && storesInLoops == old(storesInLoops) + acc
        invariant whole == AddStores(acc, BlockStoresFrom(isa, code, bm, bci, 4))
        decreases |code| - bci
      {
        var step := StoreStepAt(bci);
        if step.Fail? {
          return Failure(step.error);
        }
        WalkStep(isa, code, bm, acc, bci);
        acc := acc + StoreAt(isa, code, bci, 4).value.slots;
        bci := bci + step.value;
        if bci >= |code| || blockMap[bci] != -1 {
          assert whole == Ok(acc);
          break;
        }
      }
      return Pass;
    }

    /** One instruction of the store pass: a store's slots are recorded, and the answer is how
        far to advance. */
    method StoreStepAt(bci: nat) returns (step: Result<int>)
      requires isa.Valid() && bci < |code|
      modifies this`storesInLoops
      ensures StoreDone(StoreAt(isa, code, bci, 4), step, old(storesInLoops), storesInLoops)
    {
      var opcode := code[bci];
      if opcode == WIDE {
        if bci + 1 >= |code| {
          return Fail(Malformed);
        }
        step := ProcessWideStore(code[bci + 1], bci);
      } else if opcode in isa.stores {
        step := ProcessStore(opcode, bci);
      } else {
        step := LengthAt(isa, code, bci);
      }
    }

    /** Runs the store pass over every block found inside a loop, in the order they were found. */
    method ProcessLoopBlocks() returns (r: Outcome)
      requires isa.Valid() && blockMap.Length == |code| && LoopList(code, blocks, loopBlocks)
      modifies this`storesInLoops
      ensures match LoopStores(isa, code, blockMap[..], blocks, loopBlocks)
              case Fail(e) => r == Failure(e)
              case Ok(s) => r == Pass && storesInLoops == old(storesInLoops) + s
    {
      ghost var acc: set<int> := {};
      var i := 0;
      while i < |loopBlocks|
        invariant 0 <= i <= |loopBlocks| && storesInLoops == old(storesInLoops) + acc
        invariant LoopStores(isa, code, blockMap[..], blocks, loopBlocks[..i]) == Ok(acc)
      {
        assert loopBlocks[..i + 1][..i] == loopBlocks[..i];
        ghost var walk := BlockStores(isa, code, blockMap[..], blocks, loopBlocks[i]);
        r := ProcessBlockStores(blocks[loopBlocks[i]].bci);
        if r.Failure? {
          LoopStoresFailKept(isa, code, blockMap[..], blocks, loopBlocks, i + 1);
          return;
        }
        acc := acc + walk.value;
        i := i + 1;
      }
      assert loopBlocks[..i] == loopBlocks;
      return Pass;
    }

    // ---------------------------------------------------------------------------------------
    // Build, queries, clean-up

    /** Every handler entry offset lies inside the code (vacuous without handlers). */
    ghost predicate HandlersOk()
      reads this`exceptionMap, exceptionMap
    {
      exceptionMap != null ==> HandlersInCode(exceptionMap.allHandlers, |code|)
    }

    /** From `a` to `b` the handler entry pass made a block at each handler's entry offset,
        flagged as an exception entry, and changed nothing else; without handlers it did
        nothing.  (Compared with `true` so that a contract that only passes it along keeps it
        folded.) */
    ghost predicate EntriesFrom(a: Snapshot, b: Snapshot)
      reads this`exceptionMap, exceptionMap
    {
      (if exceptionMap == null then b == a
       else
         Grew(a.bm, a.blocks, b.bm, b.blocks, EntryOffsets(exceptionMap.allHandlers),
              EntrySet(exceptionMap.allHandlers), ExceptionEntry)
         && b.succ == a.succ && b.canTrap == a.canTrap && b.handlers == a.handlers)
    }

    /** Runs the passes in order: handler entry points, the linear scan, the relocation of the
        successor lists, the numbering from the entry block, and then either the store pass
        over the loop blocks or, without it, every local counted as stored inside a loop.  The
        first pass that meets malformed code ends the build with its error.  `entered` and
        `scanned` are the state after the handler entry points and after the scan; on success
        `g` is the graph the relocated successor lists and the attached handler sets describe and
        `seg` the numbered blocks. */
    method Build(computeStoresInLoops: bool)
      returns (r: Outcome, ghost g: seq<set<int>>, ghost seg: seq<int>, ghost entered: Snapshot, ghost scanned: Snapshot)
      requires Valid() && loopBlocks == [] && NoHeaders(blocks)
      modifies this`blocks, this`blockNum, this`loopBlocks, this`storesInLoops, this`entry, blockMap, successorMap, exceptionMap
      ensures !HandlersOk() ==> r == Failure(Malformed)
      ensures HandlersOk() ==> EntriesFrom(old(Snap()), entered)
      ensures HandlersOk() && ScanResult().Fail? ==> r == Failure(ScanResult().error)
      ensures HandlersOk() && ScanResult().Ok? ==>
                ScannedFrom(|code|, exceptionMap != null, entered, scanned, ScanResult().value)
                && scanned.bm == blockMap[..] && |scanned.succ| == |code|
                && (OpenBefore(blockMap[..], scanned.succ, |code|) != -1 ==> r == Failure(FellOffEnd))
      ensures r.Pass? ==>
                Valid() && HandlerEntries() && |code| > 0 && blockMap[0] != -1
                && ScanResult().Ok? && OpenBefore(blockMap[..], scanned.succ, |code|) == -1
                && (forall x :: 0 <= x < |code| ==> successorMap[x] == Relocated(blockMap[..], scanned.succ, x))
                && (exceptionMap != null ==>
                      exceptionMap.canTrap == scanned.canTrap
                      && exceptionMap.handlerMap == AttachedThrough(scanned.handlers, blockMap[..], scanned.succ,
                                                                    exceptionMap.canTrap, exceptionMap.allHandlers, |code|))
                && Edges(g) && g == GraphFrom(blocks, successorMap[..], HandlerMap())
                && NumberedFrom(g, scanned.blocks, seg, blockMap[0])
      ensures r.Pass? && !computeStoresInLoops ==> storesInLoops == AllLocals(maxLocals)
      ensures r.Pass? || (HandlersOk() && ScanResult().Ok? && OpenBefore(blockMap[..], scanned.succ, |code|) == -1) ==>
                (computeStoresInLoops ==>
                  LoopList(code, blocks, loopBlocks)
                  && match LoopStores(isa, code, blockMap[..], blocks, loopBlocks)
                     case Fail(e) => r == Failure(e)
                     case Ok(s) => r == Pass && storesInLoops == old(storesInLoops) + s)
    {
      seg := [];
      r, g, entered, scanned := BuildGraph();
      if r.Pass? {
        r, seg := NumberAndStore(computeStoresInLoops, g, scanned.blocks);
      }
    }

    /** The blocks `bs`, with an empty loop list, were renumbered into the current blocks and
        loop list over the graph `g`, visiting `seg` and finishing with the block `root`.
        (Compared with `true` so that a contract that only passes it along keeps it folded.) */
    ghost predicate NumberedFrom(g: seq<set<int>>, bs: seq<Block>, seg: seq<int>, root: int)
      reads this
    {
      (Renumbered(g, bs, blockNum, [], blocks, loopBlocks, seg, entry)
       && |seg| > 0 && seg[|seg| - 1] == root)
    }

    /** The numbering from the entry block, then the stores inside loops; `bs` is the block
        list before the numbering. */
    method NumberAndStore(computeStoresInLoops: bool, ghost g: seq<set<int>>, ghost bs: seq<Block>)
      returns (r: Outcome, ghost seg: seq<int>)
      requires Valid() && Edges(g) && |code| > 0 && blockMap[0] != -1 && loopBlocks == [] && NoHeaders(blocks)
      requires bs == blocks && g == GraphFrom(blocks, successorMap[..], HandlerMap())
      modifies this`blocks, this`blockNum, this`loopBlocks, this`storesInLoops, this`entry
      ensures Valid() && Edges(g) && blockNum == old(blockNum)
      ensures g == GraphFrom(blocks, successorMap[..], HandlerMap())
      ensures NumberedFrom(g, bs, seg, blockMap[0])
      ensures !computeStoresInLoops ==> r == Pass && storesInLoops == AllLocals(maxLocals)
      ensures computeStoresInLoops ==>
                LoopList(code, blocks, loopBlocks)
                && match LoopStores(isa, code, blockMap[..], blocks, loopBlocks)
                   case Fail(e) => r == Failure(e)
                   case Ok(s) => r == Pass && storesInLoops == old(storesInLoops) + s
    {
      seg := ComputeBlockNumbers(g);
      GraphFromShape(bs, blocks, successorMap[..], HandlerMap());
      assert NumberedFrom(g, bs, seg, blockMap[0]);
      NumberedLoopList(g, bs, seg, blockMap[0]);
      r := ComputeStores(computeStoresInLoops);
    }

    /** Every block a numbering put on the loop list is a block inside the code. */
    lemma NumberedLoopList(g: seq<set<int>>, bs: seq<Block>, seg: seq<int>, root: int)
      requires Registry() && NumberedFrom(g, bs, seg, root)
      ensures LoopList(code, blocks, loopBlocks)
    {
      AppendedBlocks(g, bs, blockNum, [], blocks, loopBlocks, seg, entry);
    }

    /** The store pass over the loop blocks, or every local counted as stored inside a loop. */
    method ComputeStores(computeStoresInLoops: bool) returns (r: Outcome)
      requires Valid() && LoopList(code, blocks, loopBlocks)
      modifies this`storesInLoops
      ensures Valid()
      ensures !computeStoresInLoops ==> r == Pass && storesInLoops == AllLocals(maxLocals)
      ensures computeStoresInLoops ==>
                match LoopStores(isa, code, blockMap[..], blocks, loopBlocks)
                case Fail(e) => r == Failure(e)
                case Ok(s) => r == Pass && storesInLoops == old(storesInLoops) + s
    {
      if computeStoresInLoops {
        r := ProcessLoopBlocks();
      } else {
        storesInLoops := AllLocals(maxLocals);
        r := Pass;
      }
    }

    /** The passes up to the relocation of the successor lists. */
    method BuildGraph() returns (r: Outcome, ghost g: seq<set<int>>, ghost entered: Snapshot, ghost scanned: Snapshot)
      requires Valid() && NoHeaders(blocks)
      modifies this`blocks, this`blockNum, blockMap, successorMap, exceptionMap
      ensures !HandlersOk() ==> r == Failure(Malformed)
      ensures HandlersOk() ==> EntriesFrom(old(Snap()), entered)
      ensures HandlersOk() && ScanResult().Fail? ==> r == Failure(ScanResult().error)
      ensures HandlersOk() && ScanResult().Ok? ==>
                Valid() && HandlerEntries() && |code| > 0 && blockMap[0] != -1
                && ScannedFrom(|code|, exceptionMap != null, entered, scanned, ScanResult().value)
                && scanned.bm == blockMap[..] && scanned.blocks == blocks && NoHeaders(blocks)
                && |scanned.succ| == |code|
                && (forall x :: 0 <= x < |code| ==> successorMap[x] == Relocated(blockMap[..], scanned.succ, x))
                && (exceptionMap != null ==>
                      exceptionMap.canTrap == scanned.canTrap
                      && exceptionMap.handlerMap == AttachedThrough(scanned.handlers, blockMap[..], scanned.succ,
                                                                    exceptionMap.canTrap, exceptionMap.allHandlers, |code|))
                && (r == Pass <==> OpenBefore(blockMap[..], scanned.succ, |code|) == -1)
                && (r != Pass ==> r == Failure(FellOffEnd))
      ensures r == Pass ==> HandlersOk() && ScanResult().Ok? && Edges(g) && g == GraphFrom(blocks, successorMap[..], HandlerMap())
    {
      g := [];
      r, entered := ScanWithEntries();
      scanned := Snap();
      if r.Failure? {
        return;
      }
      r, g := MoveAndConnect();
    }

    /** The relocation pass, and the graph it leaves. */
    method MoveAndConnect() returns (r: Outcome, ghost g: seq<set<int>>)
      requires Valid() && HandlerEntries() && |code| > 0 && blockMap[0] != -1
      modifies successorMap, exceptionMap
      ensures Valid() && HandlerEntries()
      ensures forall x :: 0 <= x < |code| ==> successorMap[x] == Relocated(blockMap[..], old(successorMap[..]), x)
      ensures exceptionMap != null ==>
                exceptionMap.canTrap == old(exceptionMap.canTrap)
                && exceptionMap.handlerMap == AttachedThrough(old(exceptionMap.handlerMap), blockMap[..], old(successorMap[..]),
                                                              exceptionMap.canTrap, exceptionMap.allHandlers, |code|)
      ensures r == Pass <==> OpenBefore(blockMap[..], old(successorMap[..]), |code|) == -1
      ensures r != Pass ==> r == Failure(FellOffEnd)
      ensures r == Pass ==> Edges(g) && g == GraphFrom(blocks, successorMap[..], HandlerMap())
    {
      g := [];
      ghost var osm := successorMap[..];
      r := MoveSuccessorLists();
      if r.Failure? {
        return;
      }
      ListedEdges(osm);
      g := GraphFrom(blocks, successorMap[..], HandlerMap());
    }

    /** After a relocation that closed the last block every block has a list, and the lists and
        handler sets make a graph on the blocks. */
    lemma ListedEdges(osm: SuccessorMap)
      requires Graph() && |code| > 0 && blockMap[0] != -1 && |osm| == |code|
      requires OpenBefore(blockMap[..], osm, |code|) == -1
      requires forall x :: 0 <= x < |code| ==> successorMap[x] == Relocated(blockMap[..], osm, x)
      ensures forall k :: 0 <= k < |blocks| ==> successorMap[blocks[k].bci].Some?
      ensures Edges(GraphFrom(blocks, successorMap[..], HandlerMap()))
    {
      ghost var bm := blockMap[..];
      StartsListed(bm, osm);
      forall k | 0 <= k < |blocks|
        ensures successorMap[blocks[k].bci].Some?
      {
        assert bm[blocks[k].bci] != -1;
      }
      ghost var g := GraphFrom(blocks, successorMap[..], HandlerMap());
      forall k | 0 <= k < |blocks|
        ensures SetBelow(g[k], |blocks|)
      {
        assert ListBelow(successorMap[blocks[k].bci].value, |blocks|);
      }
    }

    /** The handler entry points, then the linear scan; `entered` is the state in between. */
    method ScanWithEntries() returns (r: Outcome, ghost entered: Snapshot)
      requires Valid()
      modifies this`blocks, this`blockNum, blockMap, successorMap, exceptionMap
      ensures Valid()
      ensures r == Pass <==> HandlersOk() && ScanResult().Ok?
      ensures !HandlersOk() ==> r == Failure(Malformed)
      ensures HandlersOk() ==> EntriesFrom(old(Snap()), entered)
      ensures HandlersOk() && ScanResult().Fail? ==> r == Failure(ScanResult().error)
      ensures r == Pass ==>
                HandlerEntries() && |code| > 0 && blockMap[0] != -1
                && ScannedFrom(|code|, exceptionMap != null, entered, Snap(), ScanResult().value)
                && (NoHeaders(old(blocks)) ==> NoHeaders(blocks))
    {
      entered := Snap();
      if exceptionMap != null {
        r := SetHandlerEntrypoints();
        if r.Failure? {
          return;
        }
        entered := Snap();
      }
      r := IterateOverBytecodes();
      if r == Pass && NoHeaders(old(blocks)) {
        ScanAddsNoHeaders(old(Snap()), entered, ScanResult().value);
      }
    }

    /** The handler entry pass and the scan add no loop-header flag. */
    lemma ScanAddsNoHeaders(a: Snapshot, e: Snapshot, s: Summary)
      requires Registry() && NoHeaders(a.blocks) && EntriesFrom(a, e) && |a.bm| == |code|
      requires ScannedFrom(|code|, exceptionMap != null, e, Snap(), s)
      ensures NoHeaders(blocks)
    {
      forall x | 0 <= x < |code|
        ensures ParserLoopHeader in FlagsIn(blockMap[..], blocks, x) ==> ParserLoopHeader in FlagsIn(a.bm, a.blocks, x)
      {
      }
      NoHeadersGrown(a.bm, a.blocks, blockMap[..], blocks);
    }

    /** The successor list of the block `k`: every entry names a block, and each is an edge of the
        numbering graph. */
    function GetSuccessors(k: int): (r: Option<seq<int>>)
      requires Graph() && 0 <= k < |blocks|
      reads this, blockMap, successorMap, exceptionMap
      ensures r.Some? ==> ListBelow(r.value, |blocks|)
      ensures forall g :: Edges(g) ==> r.Some? && ElemSet(r.value) <= g[k]
    {
      successorMap[blocks[k].bci]
    }

    /** The handler blocks of the block `k`: none without handlers; each names a block and is an
        edge of the numbering graph. */
    function GetHandlers(k: int): (r: set<int>)
      requires Graph() && 0 <= k < |blocks|
      reads this, blockMap, successorMap, exceptionMap
      ensures exceptionMap == null ==> r == {}
      ensures SetBelow(r, |blocks|)
      ensures forall g :: Edges(g) ==> r <= g[k]
    {
      if exceptionMap == null then {} else exceptionMap.GetHandlers(k)
    }

    /** Drops the successor lists, the loop blocks and the handler map; the blocks, their offsets
        and the stores inside loops remain. */
    method Cleanup()
      modifies this`successorMap, this`loopBlocks, this`exceptionMap
      ensures successorMap == null && loopBlocks == [] && exceptionMap == null
      ensures old(Registry()) ==> Registry()
    {
      successorMap := null;
      loopBlocks := [];
      exceptionMap := null;
    }
  }
}

=== FILE: blocks.dfy ===
/** The basic blocks the builder creates, as values: one per start offset, with the flags the
    passes set on it and the number the depth-first pass gives it. */
module Blocks {
  import opened Outcomes

  /** The markers a pass may set on a block; none is ever cleared. */
  datatype Flag = StandardEntry | ExceptionEntry | SubroutineEntry | ParserLoopHeader

  /** A basic block: its start offset, its id, its flags and its depth-first number (`None`
      until the numbering pass assigns one). */
  datatype Block = Block(bci: int, id: int, flags: set<Flag>, depthFirstNumber: Option<int>)

  /** Two block lists describe the same blocks (offsets and ids), whatever their flags and
      numbers. */
  predicate Shape(bs: seq<Block>, bs': seq<Block>) {
    |bs'| == |bs| && forall j :: 0 <= j < |bs| ==> bs'[j].bci == bs[j].bci && bs'[j].id == bs[j].id
  }

  /** The block `t` is one of `bs` and carries the loop-header flag. */
  predicate IsHeader(bs: seq<Block>, t: int) {
    0 <= t < |bs| && ParserLoopHeader in bs[t].flags
  }

  /** No block carries the loop-header flag yet. */
  predicate NoHeaders(bs: seq<Block>) {
    forall t :: 0 <= t < |bs| ==> ParserLoopHeader !in bs[t].flags
  }
}

=== FILE: bytecodes.dfy ===
/** The instruction-set view the block-map builder consumes: JVM opcode numbers (section 6.5 of
    the Java Virtual Machine Specification), the opcode table as an oracle, and the decoders of the
    two variable-length switch forms. */
module Bytecodes {
  import opened Bytes
  import opened Outcomes

  const ISTORE: Byte := 54
  const LSTORE: Byte := 55
  const FSTORE: Byte := 56
  const DSTORE: Byte := 57
  const ASTORE: Byte := 58
  const ISTORE_0: Byte := 59
  const LSTORE_0: Byte := 63
  const FSTORE_0: Byte := 67
  const DSTORE_0: Byte := 71
  const ASTORE_0: Byte := 75
  const ASTORE_3: Byte := 78
  const IINC: Byte := 132
  const IFEQ: Byte := 153
  const IF_ACMPNE: Byte := 166
  const GOTO: Byte := 167
  const JSR: Byte := 168
  const RET: Byte := 169
  const TABLESWITCH: Byte := 170
  const LOOKUPSWITCH: Byte := 171
  const IRETURN: Byte := 172
  const RETURN: Byte := 177
  const ATHROW: Byte := 191
  const WIDE: Byte := 196
  const IFNULL: Byte := 198
  const IFNONNULL: Byte := 199
  const GOTO_W: Byte := 200
  const JSR_W: Byte := 201

  /** `ifeq` .. `if_acmpne`, `ifnull`, `ifnonnull`: the two-way branches with a 16-bit displacement. */
  predicate IsConditionalBranch(op: int) {
    IFEQ <= op <= IF_ACMPNE || op == IFNULL || op == IFNONNULL
  }

  /** `ireturn` .. `return`. */
  predicate IsStandardReturn(op: int) {
    IRETURN <= op <= RETURN
  }

  /** The opcodes the scanner treats individually; every other opcode is read from the table. */
  predicate Dispatched(op: int) {
    op == ATHROW || IsStandardReturn(op) || op == RET || IsConditionalBranch(op)
    || op == GOTO || op == GOTO_W || op == JSR || op == JSR_W
    || op == TABLESWITCH || op == LOOKUPSWITCH || op == WIDE
  }

  /** The 26 store forms the store pass knows: `iinc`, `xstore`, `xstore_<n>`. */
  predicate IsKnownStore(op: int) {
    op == IINC || ISTORE <= op <= ASTORE_3
  }

  /** Whether a known store writes a two-slot value (`lstore*`, `dstore*`). */
  predicate IsTwoSlotStore(op: int) {
    op == LSTORE || op == DSTORE || LSTORE_0 <= op < FSTORE_0 || DSTORE_0 <= op < ASTORE_0
  }

  /** The opcode table the builder consults: the fixed length of each opcode (`lengthOf(opcode)`),
      which opcodes can trap (`canTrap`), which are stores (`isStore`), and the number of the
      word-return opcode of this virtual machine's extended instruction set. */
  datatype Isa = Isa(lengths: seq<int>, trapping: set<int>, stores: set<int>, wreturn: Byte) {

    predicate Valid() {
      |lengths| == 256 && (forall op :: 0 <= op < 256 ==> lengths[op] >= 1) && !Dispatched(wreturn)
    }

    function LengthOf(op: Byte): (r: int)
      requires Valid()
      ensures r >= 1
    {
      lengths[op]
    }

    predicate IsReturn(op: int) {
      IsStandardReturn(op) || op == wreturn
    }

    /** The table gives the known stores the lengths the store pass hard-codes. */
    predicate AgreesOnStores() {
      |lengths| == 256 && lengths[IINC] == 3
      && (forall op :: ISTORE <= op <= ASTORE ==> lengths[op] == 2)
      && (forall op :: ISTORE_0 <= op <= ASTORE_3 ==> lengths[op] == 1)
    }
  }

  /** Fixed instruction lengths as section 6.5 of the Java Virtual Machine Specification gives
      them (1 for the variable-length and the undefined opcodes). */
  function StandardLength(op: Byte): (r: int)
    ensures 1 <= r <= 5
    ensures IsKnownStore(op) ==> r == (if op == IINC then 3 else if op <= ASTORE then 2 else 1)
  {
    if op == 16 || op == 18 || op == 188 || op == 169 then 2      // bipush, ldc, newarray, ret
    else if 21 <= op <= 25 || 54 <= op <= 58 then 2              // xload, xstore
    else if op == 17 || op == 19 || op == 20 || op == 132 then 3  // sipush, ldc_w, ldc2_w, iinc
    else if 153 <= op <= 168 || op == 198 || op == 199 then 3    // if*, goto, jsr, ifnull, ifnonnull
    else if 178 <= op <= 184 || op == 187 || op == 189 || op == 192 || op == 193 then 3
    else if op == 197 then 4                                     // multianewarray
    else if op == 185 || op == 186 || op == 200 || op == 201 then 5
    else 1
  }

  /** The opcode table with the lengths of section 6.5 of the Java Virtual Machine
      Specification; which opcodes trap or store, and the number of the extended word-return
      opcode, are the virtual machine's own. Such a table meets what the builder asks of one. */
  function StandardIsa(trapping: set<int>, stores: set<int>, wreturn: Byte): (isa: Isa)
    requires !Dispatched(wreturn)
    ensures isa.Valid() && isa.AgreesOnStores()
    ensures forall op: Byte :: isa.LengthOf(op) == StandardLength(op)
  {
    Isa(seq(256, op requires 0 <= op < 256 => StandardLength(op)), trapping, stores, wreturn)
  }

  /** First 4-byte aligned offset after a switch opcode at `bci` (the source's `(bci + 4) & ~3`). */
  function AlignedBci(bci: nat): (r: nat)
    ensures bci < r <= bci + 4 && r % 4 == 0
  {
    (bci + 4) / 4 * 4
  }

  /** A decoded `tableswitch` or `lookupswitch`: its case count as the instruction states it,
      the absolute case targets in order, the absolute default target, and the instruction size. */
  datatype Switch = Switch(count: int, cases: seq<int>, defaultTarget: int, size: int)

  /** Size of a `tableswitch` from its header alone (`high - low + 1` cases, in Java `int`). */
  function TableSwitchSize(code: seq<Byte>, bci: nat): (r: Result<int>)
    ensures r.Ok? ==> r.value >= 1
  {
    var a := AlignedBci(bci);
    if !InRange(code, a + 4, 8) then Fail(Malformed)
    else
      var count := Int32(BeS4(code, a + 8) - BeS4(code, a + 4) + 1);
      var size := a + 12 + 4 * count - bci;
      if size < 1 then Fail(Malformed) else Ok(size)
  }

  /** Size of a `lookupswitch` from its header alone (`npairs` match/offset pairs). */
  function LookupSwitchSize(code: seq<Byte>, bci: nat): (r: Result<int>)
    ensures r.Ok? ==> r.value >= 1
  {
    var a := AlignedBci(bci);
    if !InRange(code, a + 4, 4) then Fail(Malformed)
    else
      var size := a + 8 + 8 * BeS4(code, a + 4) - bci;
      if size < 1 then Fail(Malformed) else Ok(size)
  }

  /** The `n` jump offsets of a switch, the first at `pos` and each `step` bytes after the
      previous one, turned into absolute targets; reading past the code fails, as the source's
      read of that word would. */
  function ReadTargets(code: seq<Byte>, bci: nat, pos: nat, step: nat, n: nat): (r: Result<seq<int>>)
    ensures r.Ok? ==> |r.value| == n
    ensures r.Ok? && n > 0 ==> InRange(code, pos, 4) && r.value[0] == bci + BeS4(code, pos)
    decreases n
  {
    if n == 0 then Ok([])
    else if !InRange(code, pos, 4) then Fail(Malformed)
    else
      match ReadTargets(code, bci, pos + step, step, n - 1)
      case Fail(e) => Fail(e)
      case Ok(rest) => Ok([bci + BeS4(code, pos)] + rest)
  }

  /** The `tableswitch` at `bci`: default, low, high, then `high - low + 1` jump offsets,
      all relative to `bci`.  A case count below -1 makes the source's list allocation throw. */
  function TableSwitchAt(code: seq<Byte>, bci: nat): (r: Result<Switch>)
    ensures r.Ok? ==> r.value.count >= -1 && |r.value.cases| == (if r.value.count < 0 then 0 else r.value.count)
    ensures r.Ok? ==> r.value.size >= 1 && TableSwitchSize(code, bci) == Ok(r.value.size)
  {
    var a := AlignedBci(bci);
    if !InRange(code, a, 12) then Fail(Malformed)
    else
      var count := Int32(BeS4(code, a + 8) - BeS4(code, a + 4) + 1);
      if count < -1 then Fail(Malformed)
      else
        match ReadTargets(code, bci, a + 12, 4, if count < 0 then 0 else count)
        case Fail(e) => Fail(e)
        case Ok(cases) => Ok(Switch(count, cases, bci + BeS4(code, a), a + 12 + 4 * count - bci))
  }

  /** The `lookupswitch` at `bci`: default, npairs, then `npairs` (match, offset) pairs. */
  function LookupSwitchAt(code: seq<Byte>, bci: nat): (r: Result<Switch>)
    ensures r.Ok? ==> r.value.count >= -1 && |r.value.cases| == (if r.value.count < 0 then 0 else r.value.count)
    ensures r.Ok? ==> r.value.size >= 1 && LookupSwitchSize(code, bci) == Ok(r.value.size)
  {
    var a := AlignedBci(bci);
    if !InRange(code, a, 8) then Fail(Malformed)
    else
      var count := BeS4(code, a + 4);
      if count < -1 then Fail(Malformed)
      else
        match ReadTargets(code, bci, a + 12, 8, if count < 0 then 0 else count)
        case Fail(e) => Fail(e)
        case Ok(cases) => Ok(Switch(count, cases, bci + BeS4(code, a), a + 8 + 8 * count - bci))
  }

  /** Length of the instruction at `bci` (the source's `lengthOf(code, bci)`): a `wide` prefix
      covers 6 bytes before `iinc` and 4 otherwise; a switch's length comes from its header. */
  function LengthAt(isa: Isa, code: seq<Byte>, bci: nat): (r: Result<int>)
    requires isa.Valid() && bci < |code|
    ensures r.Ok? ==> r.value >= 1
    ensures code[bci] == WIDE && r.Ok? ==> bci + 1 < |code| && r.value == (if code[bci + 1] == IINC then 6 else 4)
    ensures !Dispatched(code[bci]) ==> r == Ok(isa.LengthOf(code[bci]))
  {
    var op := code[bci];
    if op == WIDE then
      if bci + 1 < |code| then Ok(if code[bci + 1] == IINC then 6 else 4) else Fail(Malformed)
    else if op == TABLESWITCH then TableSwitchSize(code, bci)
    else if op == LOOKUPSWITCH then LookupSwitchSize(code, bci)
    else Ok(isa.LengthOf(op))
  }
}

=== FILE: bytes.dfy ===
/** Big-endian readers over a bytecode array (the source's `Bytes.beU2`, `beS2`, `beS4`). */
module Bytes {

  /** An unsigned byte, as `code[i] & 0xff` yields it. */
  type Byte = b: int | 0 <= b < 256

  /** Whether the `n` bytes starting at `i` lie inside `code`. */
  predicate InRange(code: seq<Byte>, i: int, n: nat) {
    0 <= i && i + n <= |code|
  }

  function BeU2(code: seq<Byte>, i: int): (r: int)
    requires InRange(code, i, 2)
    ensures 0 <= r < 0x1_0000
  {
    (code[i] as int) * 0x100 + code[i + 1] as int
  }

  /** Two bytes read as a signed 16-bit value. */
  function BeS2(code: seq<Byte>, i: int): (r: int)
    requires InRange(code, i, 2)
    ensures -0x8000 <= r < 0x8000
    ensures r % 0x1_0000 == BeU2(code, i)
  {
    var u := BeU2(code, i);
    if u < 0x8000 then u else u - 0x1_0000
  }

  function BeU4(code: seq<Byte>, i: int): (r: int)
    requires InRange(code, i, 4)
    ensures 0 <= r < 0x1_0000_0000
  {
    BeU2(code, i) * 0x1_0000 + BeU2(code, i + 2)
  }

  /** Four bytes read as a signed 32-bit value. */
  function BeS4(code: seq<Byte>, i: int): (r: int)
    requires InRange(code, i, 4)
    ensures -0x8000_0000 <= r < 0x8000_0000
    ensures r % 0x1_0000_0000 == BeU4(code, i)
  {
    var u := BeU4(code, i);
    if u < 0x8000_0000 then u else u - 0x1_0000_0000
  }

  /** Java's `int` arithmetic: the two's-complement 32-bit value of `x`. */
  function Int32(x: int): (r: int)
    ensures -0x8000_0000 <= r < 0x8000_0000
    ensures (r - x) % 0x1_0000_0000 == 0
  {
    var u := x % 0x1_0000_0000;
    if u < 0x8000_0000 then u else u - 0x1_0000_0000
  }

  /** The encoder the readers invert: a signed 16-bit value as two bytes. */
  function EncodeS2(v: int): (r: seq<Byte>)
    requires -0x8000 <= v < 0x8000
    ensures |r| == 2
  {
    var u := v % 0x1_0000;
    [u / 0x100, u % 0x100]
  }

  /** A signed 32-bit value as four bytes. */
  function EncodeS4(v: int): (r: seq<Byte>)
    requires -0x8000_0000 <= v < 0x8000_0000
    ensures |r| == 4
  {
    var u := v % 0x1_0000_0000;
    EncodeU2(u / 0x1_0000) + EncodeU2(u % 0x1_0000)
  }

  function EncodeU2(u: int): (r: seq<Byte>)
    requires 0 <= u < 0x1_0000
    ensures |r| == 2 && BeU2(r, 0) == u
  {
    [u / 0x100, u % 0x100]
  }

  lemma S2RoundTrip(v: int, pre: seq<Byte>, post: seq<Byte>)
    requires -0x8000 <= v < 0x8000
    ensures BeS2(pre + EncodeS2(v) + post, |pre|) == v
  {
    var code := pre + EncodeS2(v) + post;
    var u := v % 0x1_0000;
    assert code[|pre|] == u / 0x100 && code[|pre| + 1] == u % 0x100;
    assert BeU2(code, |pre|) == u;
    assert v < 0 ==> u == v + 0x1_0000;
    assert 0 <= v ==> u == v;
  }

  lemma S4RoundTrip(v: int, pre: seq<Byte>, post: seq<Byte>)
    requires -0x8000_0000 <= v < 0x8000_0000
    ensures BeS4(pre + EncodeS4(v) + post, |pre|) == v
  {
    var code := pre + EncodeS4(v) + post;
    var u := v % 0x1_0000_0000;
    var hi, lo := EncodeU2(u / 0x1_0000), EncodeU2(u % 0x1_0000);
    assert code[|pre|..|pre| + 2] == hi && code[|pre| + 2..|pre| + 4] == lo;
    assert BeU2(code, |pre|) == BeU2(hi, 0) == u / 0x1_0000;
    assert BeU2(code, |pre| + 2) == BeU2(lo, 0) == u % 0x1_0000;
    assert BeU4(code, |pre|) == u;
    assert v < 0 ==> u == v + 0x1_0000_0000;
    assert 0 <= v ==> u == v;
  }
}

=== FILE: exceptionmaps.dfy ===
/** The exception overlay of the block-map builder: which offsets can trap and, per block,
    the set of handler blocks that cover a trapping offset inside it. */
module ExceptionMaps {

  /** One entry of the method's exception table: the covered range `[startBci, endBci)`, the
      handler's entry offset, and whether it catches every exception. */
  datatype Handler = Handler(startBci: int, endBci: int, handlerBci: int, catchAll: bool)

  predicate Covers(h: Handler, bci: int) {
    h.startBci <= bci < h.endBci
  }

  /** The handlers the overlay attaches for a trapping `bci`: those covering it, in declaration
      order, up to and including the first catch-all among them. */
  function Covering(handlers: seq<Handler>, bci: int): (r: seq<Handler>)
    ensures forall i :: 0 <= i < |r| ==> r[i] in handlers && Covers(r[i], bci)
    ensures forall i :: 0 <= i < |r| - 1 ==> !r[i].catchAll
  {
    if handlers == [] then []
    else if Covers(handlers[0], bci) then
      if handlers[0].catchAll then [handlers[0]] else [handlers[0]] + Covering(handlers[1..], bci)
    else Covering(handlers[1..], bci)
  }

  /** A covering handler is attached unless a covering catch-all is declared before it. */
  lemma {:induction false} CoveringComplete(handlers: seq<Handler>, bci: int, j: nat)
    requires j < |handlers| && Covers(handlers[j], bci)
    requires forall i :: 0 <= i < j && Covers(handlers[i], bci) ==> !handlers[i].catchAll
    ensures handlers[j] in Covering(handlers, bci)
  {
    if j > 0 {
      CoveringComplete(handlers[1..], bci, j - 1);
    }
  }

  /** The first covering catch-all masks every handler declared after it, for this offset. */
  lemma {:induction false} CoveringStopsAtCatchAll(handlers: seq<Handler>, bci: int, j: nat)
    requires j < |handlers| && Covers(handlers[j], bci) && handlers[j].catchAll
    ensures Covering(handlers, bci) == Covering(handlers[..j + 1], bci)
  {
    if j > 0 {
      assert handlers[1..][..j] == handlers[..j + 1][1..];
      CoveringStopsAtCatchAll(handlers[1..], bci, j - 1);
    }
  }

  /** The blocks of the given handlers, `bm` being the offset-to-block array. */
  function HandlerBlocks(bm: seq<int>, hs: seq<Handler>): (r: set<int>)
    requires forall i :: 0 <= i < |hs| ==> 0 <= hs[i].handlerBci < |bm|
    ensures forall i :: 0 <= i < |hs| ==> bm[hs[i].handlerBci] in r
    ensures forall x :: x in r ==> exists i :: 0 <= i < |hs| && x == bm[hs[i].handlerBci]
  {
    if hs == [] then {}
    else HandlerBlocks(bm, hs[..|hs| - 1]) + {bm[hs[|hs| - 1].handlerBci]}
  }

  /** The set a handler map holds for `blockId`, or the empty set. */
  function Lookup(m: map<int, set<int>>, blockId: int): set<int> {
    if blockId in m then m[blockId] else {}
  }

  /** The handler map after the blocks of `hs` were attached to `blockId` one by one: the map is
      left alone when there is nothing to attach, and otherwise the block's set grows. */
  function Attached(m: map<int, set<int>>, blockId: int, bm: seq<int>, hs: seq<Handler>): (r: map<int, set<int>>)
    requires forall i :: 0 <= i < |hs| ==> 0 <= hs[i].handlerBci < |bm|
    ensures hs != [] ==> blockId in r && r[blockId] == Lookup(m, blockId) + HandlerBlocks(bm, hs)
    ensures forall b :: b != blockId ==> (b in r <==> b in m) && (b in m ==> r[b] == m[b])
  {
    if hs == [] then m else m[blockId := Lookup(m, blockId) + HandlerBlocks(bm, hs)]
  }

  /** Attaching one more handler block extends the attachment by that block. */
  lemma AttachedSnoc(m: map<int, set<int>>, blockId: int, bm: seq<int>, hs: seq<Handler>, h: Handler)
    requires forall i :: 0 <= i < |hs| ==> 0 <= hs[i].handlerBci < |bm|
    requires 0 <= h.handlerBci < |bm|
    ensures var a := Attached(m, blockId, bm, hs);
      Attached(m, blockId, bm, hs + [h]) == a[blockId := Lookup(a, blockId) + {bm[h.handlerBci]}]
  {
    assert (hs + [h])[..|hs|] == hs;
    var a := Attached(m, blockId, bm, hs);
    assert HandlerBlocks(bm, hs + [h]) == HandlerBlocks(bm, hs) + {bm[h.handlerBci]};
    var y := Lookup(m, blockId) + HandlerBlocks(bm, hs + [h]);
    assert Lookup(a, blockId) + {bm[h.handlerBci]} == y;
    if hs != [] {
      assert a == m[blockId := Lookup(m, blockId) + HandlerBlocks(bm, hs)];
      assert a[blockId := y] == m[blockId := y];
    } else {
      assert a == m && HandlerBlocks(bm, hs) == {};
    }
  }

  predicate HandlersInCode(handlers: seq<Handler>, n: int) {
    forall i :: 0 <= i < |handlers| ==> 0 <= handlers[i].handlerBci < n
  }

  class ExceptionMap {
    /** Offsets whose instruction can trap (the source's `canTrap` bit map). */
    var canTrap: set<int>
    const isObjectInit: bool
    const allHandlers: seq<Handler>
    /** Block index to the indices of its handler blocks (the source's `handlerMap`, keyed by id). */
    var handlerMap: map<int, set<int>>

    constructor (isObjectInit: bool, handlers: seq<Handler>)
      ensures this.isObjectInit == isObjectInit && allHandlers == handlers
      ensures canTrap == {} && handlerMap == map[]
    {
      this.isObjectInit := isObjectInit;
      allHandlers := handlers;
      canTrap := {};
      handlerMap := map[];
    }

    method SetCanTrap(bci: int)
      modifies this
      ensures canTrap == old(canTrap) + {bci} && handlerMap == old(handlerMap)
    {
      canTrap := canTrap + {bci};
    }

    /** The handler blocks of a block; empty for a block that has none. */
    function GetHandlers(blockId: int): (r: set<int>)
      reads this
      ensures blockId !in handlerMap ==> r == {}
    {
      Lookup(handlerMap, blockId)
    }

    method AddHandler(blockId: int, handler: int)
      modifies this
      ensures handlerMap == old(handlerMap)[blockId := Lookup(old(handlerMap), blockId) + {handler}]
      ensures canTrap == old(canTrap)
    {
      var s := GetHandlers(blockId);
      handlerMap := handlerMap[blockId := s + {handler}];
    }

    /** Attaches to the block `blockId` the handler blocks covering `bci`, if `bci` can trap. */
    method AddHandlers(blockId: int, bci: int, blockMap: seq<int>)
      requires HandlersInCode(allHandlers, |blockMap|)
      modifies this
      ensures canTrap == old(canTrap)
      ensures handlerMap == if bci in canTrap then Attached(old(handlerMap), blockId, blockMap, Covering(allHandlers, bci))
                            else old(handlerMap)
    {
      if bci in canTrap {
        ghost var done: seq<Handler> := [];
        var i := 0;
        while i < |allHandlers|
          invariant 0 <= i <= |allHandlers| && canTrap == old(canTrap)
          invariant Covering(allHandlers, bci) == done + Covering(allHandlers[i..], bci)
          invariant forall j :: 0 <= j < |done| ==> 0 <= done[j].handlerBci < |blockMap|
          invariant handlerMap == Attached(old(handlerMap), blockId, blockMap, done)
        {
          var h := allHandlers[i];
          assert allHandlers[i..][0] == h && allHandlers[i..][1..] == allHandlers[i + 1..];
          if Covers(h, bci) {
            AttachedSnoc(old(handlerMap), blockId, blockMap, done, h);
            AddHandler(blockId, blockMap[h.handlerBci]);
            done := done + [h];
            if h.catchAll {
              assert Covering(allHandlers, bci) == done;
              break;
            }
          }
          i := i + 1;
        }
        assert Covering(allHandlers, bci) == done;
      }
    }
  }
}

=== FILE: instructions.dfy ===
/** Reference definitions of what the two bytecode passes of the block-map builder see at one
    instruction: the control effect the linear scan records, the walk the scan makes over the
    whole method, and the locals a store instruction writes. */
module Instructions {
  import opened Bytes
  import opened Bytecodes
  import opened Outcomes

  /** What the scan records for one instruction: its size, its successor targets (`None` for an
      instruction that does not end a block), the target it flags as a subroutine entry, and
      whether it is recorded as able to trap when the method has handlers. */
  datatype Insn = Insn(size: int, succ: Option<seq<int>>, subroutine: Option<int>, traps: bool)

  predicate AllInCode(code: seq<Byte>, ts: seq<int>) {
    forall i :: 0 <= i < |ts| ==> 0 <= ts[i] < |code|
  }

  /** A control transfer whose targets must all be indices of the code (else `make` throws). */
  function Transfer(code: seq<Byte>, size: int, targets: seq<int>, sub: Option<int>): (r: Result<Insn>)
  {
    if AllInCode(code, targets) then Ok(Insn(size, Some(targets), sub, false)) else Fail(Malformed)
  }

  /** A switch's successors: the case targets in order, then the default. */
  function SwitchTransfer(code: seq<Byte>, sw: Result<Switch>): (r: Result<Insn>)
  {
    match sw
    case Fail(e) => Fail(e)
    case Ok(s) => Transfer(code, s.size, s.cases + [s.defaultTarget], None)
  }

  /** The instruction at `bci` as the linear scan classifies it.  `objectInit` is the
      finalizer-registration rule: every return of `Object.<init>` counts as trapping. */
  function Decode(isa: Isa, code: seq<Byte>, bci: nat, objectInit: bool): (r: Result<Insn>)
    requires isa.Valid() && bci < |code|
    ensures r.Ok? ==> r.value.size >= 1
    ensures r.Ok? && r.value.succ.Some? ==> AllInCode(code, r.value.succ.value)
    ensures r.Ok? && r.value.subroutine.Some? ==>
              r.value.succ.Some? && |r.value.succ.value| == 2 && r.value.succ.value[1] == r.value.subroutine.value
    ensures r.Ok? && r.value.traps ==> r.value.succ.None? || r.value.succ == Some([])
  {
    var op := code[bci];
    if op == ATHROW then Ok(Insn(1, Some([]), None, true))
    else if isa.IsReturn(op) then Ok(Insn(1, Some([]), None, objectInit))
    else if op == RET then Ok(Insn(2, Some([]), None, false))
    else if IsConditionalBranch(op) then
      if !InRange(code, bci + 1, 2) then Fail(Malformed)
      else Transfer(code, 3, [bci + 3, bci + BeS2(code, bci + 1)], None)
    else if op == GOTO then
      if !InRange(code, bci + 1, 2) then Fail(Malformed)
      else Transfer(code, 3, [bci + BeS2(code, bci + 1)], None)
    else if op == GOTO_W then
      if !InRange(code, bci + 1, 4) then Fail(Malformed)
      else Transfer(code, 5, [bci + BeS4(code, bci + 1)], None)
    else if op == JSR then
      if !InRange(code, bci + 1, 2) then Fail(Malformed)
      else Transfer(code, 3, [bci + 3, bci + BeS2(code, bci + 1)], Some(bci + BeS2(code, bci + 1)))
    else if op == JSR_W then
      if !InRange(code, bci + 1, 4) then Fail(Malformed)
      else Transfer(code, 5, [bci + 5, bci + BeS4(code, bci + 1)], Some(bci + BeS4(code, bci + 1)))
    else if op == TABLESWITCH then SwitchTransfer(code, TableSwitchAt(code, bci))
    else if op == LOOKUPSWITCH then SwitchTransfer(code, LookupSwitchAt(code, bci))
    else if op == WIDE then
      match LengthAt(isa, code, bci)
      case Fail(e) => Fail(e)
      case Ok(n) => Ok(Insn(n, None, None, false))
    else Ok(Insn(isa.LengthOf(op), None, None, op in isa.trapping))
  }

  /** What the whole scan from some offset on records: the instruction starts it visits, every
      target it materializes a block for (as a set, and in `made` in the order the scan asks for
      them, repetitions included), the targets it flags as subroutine entries, the offsets it
      marks as trapping, and the successor list of each block-ending instruction. */
  datatype Summary = Summary(starts: set<int>, targets: set<int>, subroutines: set<int>, traps: set<int>,
                             lists: map<int, seq<int>>, made: seq<int>)

  /** The targets a successor list materializes blocks for, in order. */
  function ListTargets(succ: Option<seq<int>>): seq<int> {
    if succ.Some? then succ.value else []
  }

  function SuccSet(ins: Insn): set<int> {
    match ins.succ
    case None => {}
    case Some(ts) => set t | t in ts
  }

  /** The instruction at `bci` recorded in front of the walk `s` that follows it. */
  function Record(s: Summary, bci: int, ins: Insn): Summary {
    Summary(s.starts + {bci}, s.targets + SuccSet(ins),
            s.subroutines + (if ins.subroutine.Some? then {ins.subroutine.value} else {}),
            s.traps + (if ins.traps then {bci} else {}),
            if ins.succ.Some? then s.lists[bci := ins.succ.value] else s.lists,
            ListTargets(ins.succ) + s.made)
  }

  /** The instruction at `bci` recorded after the walk `s` that precedes it. */
  function Push(s: Summary, bci: int, ins: Insn): Summary {
    Record(s, bci, ins).(made := s.made + ListTargets(ins.succ))
  }

  /** The walk that records nothing. */
  function NoWalk(): Summary {
    Summary({}, {}, {}, {}, map[], [])
  }

  /** Every recorded list belongs to a visited instruction and names only recorded targets. */
  predicate ListsRecorded(s: Summary) {
    forall b :: b in s.lists ==> b in s.starts && AllIn(s.lists[b], s.targets)
  }

  predicate AllIn(ts: seq<int>, s: set<int>) {
    forall i :: 0 <= i < |ts| ==> ts[i] in s
  }

  /** The linear scan from `bci` to the end of the code, as a walk over instruction starts. */
  function ScanFrom(isa: Isa, code: seq<Byte>, objectInit: bool, bci: nat): (r: Result<Summary>)
    requires isa.Valid()
    ensures r.Ok? ==> forall b :: b in r.value.starts ==> bci <= b < |code|
    ensures r.Ok? ==> forall b :: b in r.value.starts ==> Decode(isa, code, b, objectInit).Ok?
    ensures r.Ok? ==> forall b :: b in r.value.starts ==>
              (b in r.value.lists <==> Decode(isa, code, b, objectInit).value.succ.Some?)
    ensures r.Ok? ==> forall b :: b in r.value.lists ==>
              0 <= b < |code| && Decode(isa, code, b, objectInit).Ok?
              && Decode(isa, code, b, objectInit).value.succ == Some(r.value.lists[b])
    ensures r.Ok? ==> forall t :: t in r.value.targets ==> 0 <= t < |code|
    ensures r.Ok? ==> r.value.subroutines <= r.value.targets && r.value.traps <= r.value.starts
    ensures r.Ok? ==> ListsRecorded(r.value)
    decreases |code| - bci
  {
    if bci >= |code| then Ok(NoWalk())
    else
      match Decode(isa, code, bci, objectInit)
      case Fail(e) => Fail(e)
      case Ok(ins) =>
        match ScanFrom(isa, code, objectInit, bci + ins.size)
        case Fail(e) => Fail(e)
        case Ok(rest) => Ok(Record(rest, bci, ins))
  }

  /** What the store pass does at one instruction: how far it advances and which local slots
      it marks as stored. */
  datatype StoreStep = StoreStep(advance: int, slots: set<int>)

  /** One slot, or a two-slot value's pair of slots. */
  function Slots(local: int, twoSlot: bool): set<int> {
    if twoSlot then {local, local + 1} else {local}
  }

  /** The store pass at `bci`.  `wideStoreLength` is how far a `wide`-prefixed `xstore` advances
      the walk: the instruction is 4 bytes long (section 6.5 of the Java Virtual Machine
      Specification, `wide`, format 1). */
  function StoreAt(isa: Isa, code: seq<Byte>, bci: nat, wideStoreLength: int): (r: Result<StoreStep>)
    requires isa.Valid() && bci < |code| && wideStoreLength >= 1
    ensures r.Ok? ==> r.value.advance >= 1
    ensures r.Ok? && r.value.slots != {} ==> code[bci] == WIDE || IsKnownStore(code[bci])
    ensures r == Fail(NotAStore) <==> code[bci] != WIDE && code[bci] in isa.stores && !IsKnownStore(code[bci])
  {
    var op := code[bci];
    if op == WIDE then
      if bci + 1 >= |code| then Fail(Malformed)
      else
        var wop := code[bci + 1];
        if wop == IINC || ISTORE <= wop <= ASTORE then
          if !InRange(code, bci + 2, 2) then Fail(Malformed)
          else Ok(StoreStep(if wop == IINC then 6 else wideStoreLength, Slots(BeU2(code, bci + 2), IsTwoSlotStore(wop))))
        else
          match LengthAt(isa, code, bci)
          case Fail(e) => Fail(e)
          case Ok(n) => Ok(StoreStep(n, {}))
    else if op in isa.stores then
      if !IsKnownStore(op) then Fail(NotAStore)
      else if op == IINC || op <= ASTORE then
        if bci + 1 >= |code| then Fail(Malformed)
        else Ok(StoreStep(if op == IINC then 3 else 2, Slots(code[bci + 1], IsTwoSlotStore(op))))
      else Ok(StoreStep(1, Slots((op - ISTORE_0) % 4, IsTwoSlotStore(op))))
    else
      match LengthAt(isa, code, bci)
      case Fail(e) => Fail(e)
      case Ok(n) => Ok(StoreStep(n, {}))
  }

  /** The store pass over one block: from the block's start `bci`, instruction by instruction,
      until the next block start (`bm[x] != -1`) or the end of the code. */
  function BlockStoresFrom(isa: Isa, code: seq<Byte>, bm: seq<int>, bci: nat, wideStoreLength: int): (r: Result<set<int>>)
    requires isa.Valid() && bci < |code| && |bm| == |code| && wideStoreLength >= 1
    decreases |code| - bci
  {
    match StoreAt(isa, code, bci, wideStoreLength)
    case Fail(e) => Fail(e)
    case Ok(step) =>
      var next := bci + step.advance;
      if next >= |code| || bm[next] != -1 then Ok(step.slots)
      else
        match BlockStoresFrom(isa, code, bm, next, wideStoreLength)
        case Fail(e) => Fail(e)
        case Ok(rest) => Ok(step.slots + rest)
  }

  /** With the `wide` store advancing by 4, the store pass steps over every instruction exactly
      as the instruction-length table does, so the walk stays on instruction boundaries. */
  lemma {:induction false} StoreStepIsInstructionLength(isa: Isa, code: seq<Byte>, bci: nat)
    requires isa.Valid() && isa.AgreesOnStores() && bci < |code|
    requires StoreAt(isa, code, bci, 4).Ok?
    ensures LengthAt(isa, code, bci) == Ok(StoreAt(isa, code, bci, 4).value.advance)
  {
    var op := code[bci];
    if op != WIDE && op in isa.stores {
      assert !Dispatched(op);
    }
  }

  /** As written, the four bytes of a single `wide istore 315` are read with the walk advancing
      by 3 and landing on offset 3, the low byte `0x3B` of the slot index: that byte is taken for
      `istore_0`, and slot 0 is reported as stored although nothing stores it.  With the
      instruction's real length of 4 the walk records slot 315 only. */
  lemma WideStoreAsWritten(isa: Isa)
    requires isa.Valid() && ISTORE_0 in isa.stores
    ensures var code: seq<Byte> := [WIDE, ISTORE, 0x01, ISTORE_0];
            var bm := [0, -1, -1, -1];
            && BlockStoresFrom(isa, code, bm, 0, 3) == Ok({315, 0})
            && BlockStoresFrom(isa, code, bm, 0, 4) == Ok({315})
            && LengthAt(isa, code, 0) == Ok(4)
  {
    var code: seq<Byte> := [WIDE, ISTORE, 0x01, ISTORE_0];
    var bm := [0, -1, -1, -1];
    assert StoreAt(isa, code, 0, 3) == Ok(StoreStep(3, {315}));
    assert StoreAt(isa, code, 3, 3) == Ok(StoreStep(1, {0}));
    assert BlockStoresFrom(isa, code, bm, 3, 3) == Ok({0});
    assert {315} + {0} == {315, 0};
  }
}

=== FILE: numbering.dfy ===
/** The depth-first numbering of the blocks, as values: the state it works on, the steps it takes
    (entering a block, leaving it, meeting a block still on the active path), the relations each
    step keeps, and what a numbering started with nothing visited promises. */
module Numbering {
  import opened Outcomes
  import opened Blocks

  /** The state the numbering works on: the visited and active bit maps, the blocks, the counter,
      the loop-block list, and the counter each visited block was entered with (a ghost record:
      the blocks numbered from that value down to the block's own number are its subtree of the
      depth-first search). */
  datatype Dfs = Dfs(visited: seq<bool>, active: seq<bool>, blocks: seq<Block>, counter: int,
                     loops: seq<int>, entry: map<int, int>)

  /** Some block of `ts` is a loop header. */
  predicate Touches(ts: set<int>, bs: seq<Block>) {
    exists t :: t in ts && IsHeader(bs, t)
  }

  /** The blocks the edges of `g` out of the blocks of `seg` lead to. */
  function EdgesOut(g: seq<set<int>>, seg: seq<int>): set<int> {
    if seg == [] then {}
    else EdgesOut(g, seg[..|seg| - 1]) + (if 0 <= seg[|seg| - 1] < |g| then g[seg[|seg| - 1]] else {})
  }

  /** `t` is the target of an edge out of `seg` exactly when some block of `seg` has an edge to
      it. */
  lemma {:induction false} EdgesOutIn(g: seq<set<int>>, seg: seq<int>, t: int)
    ensures t in EdgesOut(g, seg) <==> exists j :: 0 <= j < |seg| && 0 <= seg[j] < |g| && t in g[seg[j]]
    decreases |seg|
  {
    if seg != [] {
      var p := seg[..|seg| - 1];
      EdgesOutIn(g, p, t);
      if t in EdgesOut(g, p) {
        var j :| 0 <= j < |p| && 0 <= p[j] < |g| && t in g[p[j]];
        assert seg[j] == p[j];
      }
      if exists j :: 0 <= j < |seg| && 0 <= seg[j] < |g| && t in g[seg[j]] {
        var j :| 0 <= j < |seg| && 0 <= seg[j] < |g| && t in g[seg[j]];
        if j < |p| {
          assert p[j] == seg[j];
        }
      }
    }
  }

  lemma {:induction false} EdgesOutAppend(g: seq<set<int>>, s1: seq<int>, s2: seq<int>)
    ensures EdgesOut(g, s1 + s2) == EdgesOut(g, s1) + EdgesOut(g, s2)
    decreases |s2|
  {
    if s2 == [] {
      assert s1 + s2 == s1;
    } else {
      var p := s2[..|s2| - 1];
      assert (s1 + s2)[..|s1 + s2| - 1] == s1 + p;
      EdgesOutAppend(g, s1, p);
    }
  }

  /** A stretch of `seg` has fewer edges out than the whole. */
  lemma EdgesOutSlice(g: seq<set<int>>, seg: seq<int>, lo: int, hi: int)
    requires 0 <= lo <= hi <= |seg|
    ensures EdgesOut(g, seg[lo..hi]) <= EdgesOut(g, seg)
  {
    assert seg == seg[..lo] + seg[lo..hi] + seg[hi..];
    EdgesOutAppend(g, seg[..lo] + seg[lo..hi], seg[hi..]);
    EdgesOutAppend(g, seg[..lo], seg[lo..hi]);
  }

  lemma TouchesUnion(a: set<int>, b: set<int>, bs: seq<Block>)
    ensures Touches(a + b, bs) == (Touches(a, bs) || Touches(b, bs))
  {
    if Touches(a + b, bs) {
      var t :| t in a + b && IsHeader(bs, t);
    }
  }

  /** `t`, a successor of a block numbered `c`, was finished before it: it is off the active
      path and numbered above `c`. */
  predicate Ahead(s: Dfs, t: int, c: int)
    requires 0 <= t < |s.active| && t < |s.blocks|
  {
    !s.active[t] && s.blocks[t].depthFirstNumber.Some? && s.blocks[t].depthFirstNumber.value > c
  }

  /** `t` encloses a block numbered `c` in the depth-first tree: it was entered with the counter
      at `c` or above, and it is still active or numbered `c` or below. */
  predicate Above(s: Dfs, t: int, c: int)
    requires 0 <= t < |s.active| && t < |s.blocks|
  {
    t in s.entry && s.entry[t] >= c
    && (s.active[t] || (s.blocks[t].depthFirstNumber.Some? && s.blocks[t].depthFirstNumber.value <= c))
  }

  /** Every block of `ts`, the targets of the edges out of a block numbered `c`, has been visited
      and was either finished before that block (a tree, forward or cross edge) or is a loop
      header enclosing it (a back edge). */
  predicate Ordered(ts: set<int>, s: Dfs, c: int) {
    forall t :: t in ts ==>
      0 <= t < |s.visited| && t < |s.active| && t < |s.blocks| && s.visited[t]
      && (Ahead(s, t, c) || (IsHeader(s.blocks, t) && Above(s, t, c)))
  }

  /** Every block of `ts` has been visited, and the ones still on the active path are loop
      headers. */
  predicate Explored(ts: set<int>, s: Dfs) {
    forall t :: t in ts ==>
      0 <= t < |s.visited| && t < |s.active| && t < |s.blocks| && s.visited[t]
      && (s.active[t] ==> IsHeader(s.blocks, t))
  }

  /** The blocks with an entry counter are visited ones. */
  predicate Entered(s: Dfs) {
    |s.visited| == |s.blocks| && forall x :: x in s.entry ==> 0 <= x < |s.blocks| && s.visited[x]
  }

  /** The numbering state is consistent: active blocks are visited and were entered at or above
      the counter, a visited block that is no longer active has been numbered above the counter,
      exactly the visited blocks have an entry counter, and no unvisited block is a loop header. */
  predicate Numbered(s: Dfs) {
    Entered(s) && |s.active| == |s.blocks|
    && forall x :: 0 <= x < |s.blocks| ==>
         (s.active[x] ==> s.visited[x] && x in s.entry && s.entry[x] >= s.counter)
         && (s.visited[x] ==> x in s.entry)
         && (s.visited[x] && !s.active[x] ==>
               s.blocks[x].depthFirstNumber.Some? && s.blocks[x].depthFirstNumber.value > s.counter)
         && (!s.visited[x] ==> !IsHeader(s.blocks, x))
  }

  /** `e'` keeps every entry of `e`. */
  predicate Extends(e: map<int, int>, e': map<int, int>) {
    forall x :: x in e ==> x in e' && e'[x] == e[x]
  }

  /** The state's shape is kept: same bit maps' length, same blocks up to flags and numbers, same
      active path, entry counters kept, and the loop list only grows by block indices. */
  predicate Framed(a: Dfs, b: Dfs) {
    var n := |a.blocks|;
    |a.visited| == n && |a.active| == n && |b.visited| == n
    && Shape(a.blocks, b.blocks) && b.active == a.active
    && (forall x :: 0 <= x < n && a.visited[x] ==> b.visited[x])
    && Extends(a.entry, b.entry)
    && |a.loops| <= |b.loops| && b.loops[..|a.loops|] == a.loops
    && (forall j :: |a.loops| <= j < |b.loops| ==> 0 <= b.loops[j] < n)
  }

  /** The numbers `n` up to `hi` were taken, from the bottom up, by whole subtrees of successors of
      `x`: the block numbered `n` (the one at `top - n` in `seg`) is a successor of `x` entered
      at `hi` or below, and the numbers above its entry counter continue the same way. */
  ghost predicate Kids(g: seq<set<int>>, seg: seq<int>, top: int, entry: map<int, int>, x: int, n: int, hi: int)
    decreases hi - n + 1
  {
    if n > hi then n == hi + 1
    else
      0 <= top - n < |seg| && seg[top - n] in entry && n <= entry[seg[top - n]] <= hi
      && 0 <= x < |g| && seg[top - n] in g[x]
      && Kids(g, seg, top, entry, x, entry[seg[top - n]] + 1, hi)
  }


  /** From `a` to `b` the blocks of `seg` were numbered, in that order, counting down: exactly the
      newly visited blocks, each entered at or below the starting counter; no other number
      changed. */
  predicate Counted(a: Dfs, b: Dfs, seg: seq<int>) {
    var n := |a.blocks|;
    |a.visited| == n && |b.visited| == n && |b.blocks| == n
    && b.counter == a.counter - |seg|
    && (forall j :: 0 <= j < |seg| ==> 0 <= seg[j] < n && b.blocks[seg[j]].depthFirstNumber == Some(a.counter - j))
    && (forall x :: 0 <= x < n ==> (x in seg <==> b.visited[x] && !a.visited[x]))
    && (forall x :: 0 <= x < n && x !in seg ==> b.blocks[x].depthFirstNumber == a.blocks[x].depthFirstNumber)
    && (forall j :: 0 <= j < |seg| ==> seg[j] in b.entry && a.counter - j <= b.entry[seg[j]] <= a.counter)
  }

  /** Every block of `seg`, numbered from `a`'s counter down, has its successors ordered in `b`. */
  predicate SegOrdered(g: seq<set<int>>, a: Dfs, b: Dfs, seg: seq<int>) {
    |g| == |a.blocks|
    && forall j :: 0 <= j < |seg| ==> 0 <= seg[j] < |g| && Ordered(g[seg[j]], b, a.counter - j)
  }

  /** `x` is one of `seg`; the subtree facts below are stated for members named this way, so that
      they are only unfolded for the blocks a proof asks about. */
  ghost predicate Member(seg: seq<int>, x: int) {
    x in seg
  }

  /** Every block of `seg` has its subtree made of whole subtrees of its successors. */
  ghost predicate Subtrees(g: seq<set<int>>, a: Dfs, b: Dfs, seg: seq<int>) {
    forall x {:trigger Member(seg, x)} ::
      Member(seg, x) && 0 <= x < |b.blocks| && x in b.entry && b.blocks[x].depthFirstNumber.Some? ==>
        Kids(g, seg, a.counter, b.entry, x, b.blocks[x].depthFirstNumber.value + 1, b.entry[x])
  }

  /** From `a` to `b` only blocks on the active path or numbered in `seg` became loop headers,
      and no other flag changed. */
  predicate Marked(a: Dfs, b: Dfs, seg: seq<int>) {
    var n := |a.blocks|;
    |a.active| == n && |b.blocks| == n
    && forall x :: 0 <= x < n ==>
         (b.blocks[x].flags == a.blocks[x].flags
          || (b.blocks[x].flags == a.blocks[x].flags + {ParserLoopHeader} && (a.active[x] || x in seg)))
  }

  /** From `a` to `b` the numbering finished the blocks `seg`, in that order, over the graph `g`
      (block index to the indices of its successors and handlers). */
  ghost predicate Finished(g: seq<set<int>>, a: Dfs, b: Dfs, seg: seq<int>) {
    Framed(a, b) && Counted(a, b, seg) && SegOrdered(g, a, b, seg) && Subtrees(g, a, b, seg) && Marked(a, b, seg)
  }

  /** An edge out of the block numbered `top - j` (the `j`-th of `seg`) enters `x`, which
      encloses that block. */
  ghost predicate Backed(g: seq<set<int>>, s: Dfs, seg: seq<int>, top: int, x: int)
    requires 0 <= x < |s.active| && x < |s.blocks|
  {
    exists j :: 0 <= j < |seg| && 0 <= seg[j] < |g| && x in g[seg[j]] && Above(s, x, top - j)
  }

  /** Every block that became a loop header from `a` to `b` is one of `extra` still on the active
      path, or is entered by a back edge out of a block of `seg`. */
  ghost predicate Raised(g: seq<set<int>>, a: Dfs, b: Dfs, seg: seq<int>, extra: set<int>) {
    var n := |a.blocks|;
    |b.blocks| == n && |b.active| == n
    && forall x :: 0 <= x < n && !IsHeader(a.blocks, x) && IsHeader(b.blocks, x) ==>
         (x in extra && b.active[x]) || Backed(g, b, seg, a.counter, x)
  }

  /** `x`, one of `seg` numbered from `top`, has an edge out of its subtree (the blocks numbered
      from its own number up to its entry counter) into a loop header. */
  ghost predicate InLoop(g: seq<set<int>>, bs: seq<Block>, entry: map<int, int>, seg: seq<int>, top: int, x: int) {
    0 <= x < |bs| && x in entry && bs[x].depthFirstNumber.Some?
    && 0 <= top - entry[x] <= top - bs[x].depthFirstNumber.value < |seg|
    && Touches(EdgesOut(g, seg[top - entry[x] .. top - bs[x].depthFirstNumber.value + 1]), bs)
  }

  /** From `a` to `b` the loop list gained exactly (as a set) the blocks of `seg` with an edge out
      of their subtree into a loop header, and the blocks on the active path entered by an edge
      from the explorer (`extra`) or from a block of `seg`. */
  ghost predicate LoopsGrown(g: seq<set<int>>, a: Dfs, b: Dfs, seg: seq<int>, extra: set<int>) {
    |a.active| == |a.blocks| && |a.loops| <= |b.loops|
    && forall x :: 0 <= x < |a.blocks| ==>
         (x in b.loops[|a.loops|..] <==>
            (x in seg && InLoop(g, b.blocks, b.entry, seg, a.counter, x))
            || (a.active[x] && (x in extra || x in EdgesOut(g, seg))))
  }

  /** From `a` to `b` the blocks `extra` were explored (from one block), numbering `seg`; the
      answer `inLoop` says whether one of `extra` or a target of an edge out of `seg` is a loop
      header. */
  ghost predicate Swept(g: seq<set<int>>, a: Dfs, b: Dfs, seg: seq<int>, extra: set<int>, inLoop: bool) {
    Finished(g, a, b, seg) && Raised(g, a, b, seg, extra) && LoopsGrown(g, a, b, seg, extra)
    && Explored(extra, b) && inLoop == Touches(extra + EdgesOut(g, seg), b.blocks)
  }

  // -----------------------------------------------------------------------------------------
  // The steps

  /** Entering an unvisited block: it becomes visited and active, and its entry counter is
      recorded. */
  function Mark(a: Dfs, k: int): Dfs
    requires 0 <= k < |a.visited| && k < |a.active|
  {
    a.(visited := a.visited[k := true], active := a.active[k := true], entry := a.entry[k := a.counter])
  }

  /** Leaving a block: it leaves the active path and takes the counter, which counts down; a
      block found inside a loop joins the loop list. */
  function Finish(c: Dfs, k: int, inLoop: bool): Dfs
    requires 0 <= k < |c.active| && k < |c.blocks|
  {
    c.(active := c.active[k := false],
       blocks := c.blocks[k := c.blocks[k].(depthFirstNumber := Some(c.counter))],
       counter := c.counter - 1,
       loops := if inLoop then c.loops + [k] else c.loops)
  }

  /** Reaching a block on the active path: it is a loop header and joins the loop list. */
  function BackEdge(a: Dfs, k: int): Dfs
    requires 0 <= k < |a.blocks|
  {
    a.(blocks := a.blocks[k := a.blocks[k].(flags := a.blocks[k].flags + {ParserLoopHeader})],
       loops := a.loops + [k])
  }

  // -----------------------------------------------------------------------------------------
  // Facts that survive further numbering

  /** Ordering, once reached, survives further numbering. */
  lemma OrderedKept(ts: set<int>, b: Dfs, c: Dfs, s2: seq<int>, m: int)
    requires Ordered(ts, b, m) && Framed(b, c) && Counted(b, c, s2) && Marked(b, c, s2)
    ensures Ordered(ts, c, m)
  {
    forall t | t in ts ensures Ahead(c, t, m) || (IsHeader(c.blocks, t) && Above(c, t, m)) {
      assert t !in s2;
      assert IsHeader(b.blocks, t) ==> IsHeader(c.blocks, t);
    }
  }

  /** Exploration, once reached, survives further numbering. */
  lemma ExploredKept(ts: set<int>, b: Dfs, c: Dfs, s2: seq<int>)
    requires Explored(ts, b) && Framed(b, c) && Marked(b, c, s2)
    ensures Explored(ts, c)
  {
    forall t | t in ts ensures c.active[t] ==> IsHeader(c.blocks, t) {
      assert IsHeader(b.blocks, t) ==> IsHeader(c.blocks, t);
    }
  }

  /** Two block lists with the same loop headers touch the same ones. */
  lemma TouchesSame(ts: set<int>, bs: seq<Block>, bs': seq<Block>)
    requires forall t :: t in ts ==> IsHeader(bs, t) == IsHeader(bs', t)
    ensures Touches(ts, bs) == Touches(ts, bs')
  {
    if Touches(ts, bs) {
      var t :| t in ts && IsHeader(bs, t);
    }
    if Touches(ts, bs') {
      var t :| t in ts && IsHeader(bs', t);
    }
  }

  /** Whether explored blocks include a loop header is settled: a finished block never becomes
      one, and an active one already is. */
  lemma TouchesKept(ts: set<int>, b: Dfs, c: Dfs, s2: seq<int>)
    requires Explored(ts, b) && Framed(b, c) && Counted(b, c, s2) && Marked(b, c, s2)
    ensures Touches(ts, c.blocks) == Touches(ts, b.blocks)
  {
    forall t | t in ts ensures IsHeader(c.blocks, t) == IsHeader(b.blocks, t) {
      assert t !in s2;
    }
    TouchesSame(ts, b.blocks, c.blocks);
  }

  /** An enclosing block keeps enclosing. */
  lemma AboveKept(b: Dfs, c: Dfs, s2: seq<int>, x: int, m: int)
    requires Entered(b) && Framed(b, c) && Counted(b, c, s2) && 0 <= x < |b.blocks| && Above(b, x, m)
    ensures Above(c, x, m)
  {
    assert b.visited[x] && x !in s2;
  }

  /** The targets of the edges out of numbered blocks are explored. */
  lemma SegExplored(g: seq<set<int>>, a: Dfs, b: Dfs, seg: seq<int>)
    requires SegOrdered(g, a, b, seg)
    ensures Explored(EdgesOut(g, seg), b)
  {
    forall t | t in EdgesOut(g, seg)
      ensures 0 <= t < |b.visited| && t < |b.active| && t < |b.blocks| && b.visited[t]
      ensures b.active[t] ==> IsHeader(b.blocks, t)
    {
      EdgesOutIn(g, seg, t);
      var j :| 0 <= j < |seg| && 0 <= seg[j] < |g| && t in g[seg[j]];
      assert Ordered(g[seg[j]], b, a.counter - j);
    }
  }

  // -----------------------------------------------------------------------------------------
  // Subtrees

  /** Numbering more blocks after `seg` keeps its subtrees. */
  lemma {:induction false} KidsPrefix(g: seq<set<int>>, s: seq<int>, s': seq<int>, top: int, e: map<int, int>,
                                      e': map<int, int>, x: int, n: int, hi: int)
    requires Kids(g, s, top, e, x, n, hi) && Extends(e, e')
    ensures Kids(g, s + s', top, e', x, n, hi)
    decreases hi - n + 1
  {
    if n <= hi {
      var c := s[top - n];
      assert (s + s')[top - n] == c;
      KidsPrefix(g, s, s', top, e, e', x, e[c] + 1, hi);
    }
  }

  /** Numbering blocks before `seg` keeps its subtrees. */
  lemma {:induction false} KidsShift(g: seq<set<int>>, p: seq<int>, s: seq<int>, top: int, top': int, e: map<int, int>,
                                     e': map<int, int>, x: int, n: int, hi: int)
    requires Kids(g, s, top, e, x, n, hi) && Extends(e, e') && top' == top + |p|
    ensures Kids(g, p + s, top', e', x, n, hi)
    decreases hi - n + 1
  {
    if n <= hi {
      var c := s[top - n];
      assert (p + s)[top + |p| - n] == c;
      KidsShift(g, p, s, top, top', e, e', x, e[c] + 1, hi);
    }
  }

  /** Subtrees of successors of `x` numbered after the ones in `s1` extend its chain down. */
  lemma {:induction false} KidsJoin(g: seq<set<int>>, s1: seq<int>, s2: seq<int>, top: int, e1: map<int, int>,
                                    e: map<int, int>, x: int, n: int, hi: int)
    requires Kids(g, s1, top, e1, x, top - |s1| + 1, hi) && Extends(e1, e)
    requires Kids(g, s2, top - |s1|, e, x, n, top - |s1|)
    ensures Kids(g, s1 + s2, top, e, x, n, hi)
    decreases top - |s1| - n + 1
  {
    var m := top - |s1|;
    if n > m {
      KidsPrefix(g, s1, s2, top, e1, e, x, m + 1, hi);
    } else {
      var c := s2[m - n];
      assert (s1 + s2)[top - n] == c;
      KidsJoin(g, s1, s2, top, e1, e, x, e[c] + 1, hi);
    }
  }

  /** A block just numbered with its subtree `s`, from the counter `top`, is one whole subtree of
      its predecessor `p`. */
  lemma KidsOne(g: seq<set<int>>, s: seq<int>, top: int, e: map<int, int>, p: int)
    requires |s| > 0 && s[|s| - 1] in e && e[s[|s| - 1]] == top && 0 <= p < |g| && s[|s| - 1] in g[p]
    ensures Kids(g, s, top, e, p, top - |s| + 1, top)
  {
    assert Kids(g, s, top, e, p, top + 1, top);
  }

  /** The blocks `seg` numbered from `a` to `c` are whole subtrees of successors of `p`, from
      `a`'s counter down to `c`'s.  (The chain is compared with `true` so that a proof that only
      passes it along keeps it folded instead of unrolling `Kids`.) */
  ghost predicate Chain(g: seq<set<int>>, a: Dfs, c: Dfs, seg: seq<int>, p: int) {
    Kids(g, seg, a.counter, c.entry, p, c.counter + 1, a.counter) == true
  }

  /** `s`, numbered from `b` to `c`, is empty or ends with `t`, entered with `b`'s counter: what
      numbering from `t` leaves. */
  ghost predicate EndsWith(b: Dfs, c: Dfs, s: seq<int>, t: int) {
    s == [] || (s[|s| - 1] == t && t in c.entry && c.entry[t] == b.counter)
  }

  /** Nothing numbered yet: the chain is empty. */
  lemma ChainNone(g: seq<set<int>>, a: Dfs, p: int)
    ensures Chain(g, a, a, [], p)
  {
  }

  /** Numbering from one more successor `t` of `p` extends the chain of subtrees of `p`'s
      successors. */
  lemma ChainNext(g: seq<set<int>>, a: Dfs, b: Dfs, c: Dfs, seg: seq<int>, s: seq<int>, p: int, t: int)
    requires b.counter == a.counter - |seg| && c.counter == b.counter - |s| && Extends(b.entry, c.entry)
    requires Chain(g, a, b, seg, p) && 0 <= p < |g| && t in g[p] && EndsWith(b, c, s, t)
    ensures Chain(g, a, c, seg + s, p)
  {
    if s == [] {
      KidsPrefix(g, seg, [], a.counter, b.entry, c.entry, p, b.counter + 1, a.counter);
    } else {
      KidsOne(g, s, b.counter, c.entry, p);
      KidsJoin(g, seg, s, a.counter, b.entry, c.entry, p, c.counter + 1, a.counter);
    }
  }

  /** Two chains of subtrees of successors of `p`, one after the other, make one. */
  lemma ChainJoin(g: seq<set<int>>, a: Dfs, b: Dfs, c: Dfs, s1: seq<int>, s2: seq<int>, p: int)
    requires b.counter == a.counter - |s1| && Extends(b.entry, c.entry)
    requires Chain(g, a, b, s1, p) && Chain(g, b, c, s2, p)
    ensures Chain(g, a, c, s1 + s2, p)
  {
    KidsJoin(g, s1, s2, a.counter, b.entry, c.entry, p, c.counter + 1, a.counter);
  }

  // -----------------------------------------------------------------------------------------
  // List order

  /** The blocks of `parts`, one part after the other. */
  function Concat(parts: seq<seq<int>>): seq<int> {
    if parts == [] then [] else Concat(parts[..|parts| - 1]) + parts[|parts| - 1]
  }

  /** A block of the parts lies in one of them. */
  lemma {:induction false} ConcatIn(parts: seq<seq<int>>, x: int)
    requires x in Concat(parts)
    ensures exists j :: 0 <= j < |parts| && x in parts[j]
    decreases |parts|
  {
    var p := parts[..|parts| - 1];
    if x !in parts[|parts| - 1] {
      ConcatIn(p, x);
      var j :| 0 <= j < |p| && x in p[j];
      assert parts[j] == p[j];
    }
  }

  /** The blocks numbered from the successor list `ts`, counting down from `top` with `v` the
      visited map before, are the subtrees `parts` of the list's elements at the positions
      `picks`, taken in list order: element by element, one not reached before (neither visited
      before the list nor in an earlier part) starts the next part, which ends with it and
      began with the counter it was entered with; one reached before adds nothing. */
  ghost predicate ListOrder(ts: seq<int>, v: seq<bool>, top: int, e: map<int, int>, picks: seq<int>, parts: seq<seq<int>>)
    decreases |ts|
  {
    if ts == [] then picks == [] && parts == []
    else
      var i := |ts| - 1;
      if picks != [] && picks[|picks| - 1] == i then
        var n := |picks| - 1;
        |parts| == |picks| && ListOrder(ts[..i], v, top, e, picks[..n], parts[..n])
        && !(0 <= ts[i] < |v| && v[ts[i]]) && ts[i] !in Concat(parts[..n])
        && parts[n] != [] && parts[n][|parts[n]| - 1] == ts[i]
        && ts[i] in e && e[ts[i]] == top - |Concat(parts[..n])|
      else
        ListOrder(ts[..i], v, top, e, picks, parts)
        && ((0 <= ts[i] < |v| && v[ts[i]]) || ts[i] in Concat(parts))
  }

  /** One part per pick, and the picks are positions of the list. */
  lemma {:induction false} ListOrderPicks(ts: seq<int>, v: seq<bool>, top: int, e: map<int, int>, picks: seq<int>,
                                          parts: seq<seq<int>>)
    requires ListOrder(ts, v, top, e, picks, parts)
    ensures |picks| == |parts| && forall j :: 0 <= j < |picks| ==> 0 <= picks[j] < |ts|
    decreases |ts|
  {
    if ts != [] {
      var i := |ts| - 1;
      if picks != [] && picks[|picks| - 1] == i {
        var n := |picks| - 1;
        ListOrderPicks(ts[..i], v, top, e, picks[..n], parts[..n]);
        assert forall j :: 0 <= j < n ==> picks[j] == picks[..n][j];
      } else {
        ListOrderPicks(ts[..i], v, top, e, picks, parts);
      }
    }
  }

  /** The list order survives further numbering. */
  lemma {:induction false} ListOrderExtends(ts: seq<int>, v: seq<bool>, top: int, e: map<int, int>, e': map<int, int>,
                                            picks: seq<int>, parts: seq<seq<int>>)
    requires ListOrder(ts, v, top, e, picks, parts) && Extends(e, e')
    ensures ListOrder(ts, v, top, e', picks, parts)
    decreases |ts|
  {
    if ts != [] {
      var i := |ts| - 1;
      if picks != [] && picks[|picks| - 1] == i {
        var n := |picks| - 1;
        ListOrderExtends(ts[..i], v, top, e, e', picks[..n], parts[..n]);
      } else {
        ListOrderExtends(ts[..i], v, top, e, e', picks, parts);
      }
    }
  }

  /** An element already reached, before the list or in one of its parts, adds nothing. */
  lemma ListOrderSkip(ts: seq<int>, i: int, v: seq<bool>, top: int, e: map<int, int>, e': map<int, int>,
                      picks: seq<int>, parts: seq<seq<int>>)
    requires 0 <= i < |ts| && ListOrder(ts[..i], v, top, e, picks, parts) && Extends(e, e')
    requires (0 <= ts[i] < |v| && v[ts[i]]) || ts[i] in Concat(parts)
    ensures ListOrder(ts[..i + 1], v, top, e', picks, parts)
  {
    ListOrderPicks(ts[..i], v, top, e, picks, parts);
    ListOrderExtends(ts[..i], v, top, e, e', picks, parts);
    assert ts[..i + 1][..i] == ts[..i];
  }

  /** An element not reached before starts the next part, its subtree. */
  lemma ListOrderPick(ts: seq<int>, i: int, v: seq<bool>, top: int, e: map<int, int>, e': map<int, int>,
                      picks: seq<int>, parts: seq<seq<int>>, s: seq<int>)
    requires 0 <= i < |ts| && ListOrder(ts[..i], v, top, e, picks, parts) && Extends(e, e')
    requires !(0 <= ts[i] < |v| && v[ts[i]]) && ts[i] !in Concat(parts)
    requires s != [] && s[|s| - 1] == ts[i] && ts[i] in e' && e'[ts[i]] == top - |Concat(parts)|
    ensures ListOrder(ts[..i + 1], v, top, e', picks + [i], parts + [s])
    ensures Concat(parts + [s]) == Concat(parts) + s
  {
    ListOrderPicks(ts[..i], v, top, e, picks, parts);
    ListOrderExtends(ts[..i], v, top, e, e', picks, parts);
    assert ts[..i + 1][..i] == ts[..i];
    assert (picks + [i])[..|picks|] == picks && (parts + [s])[..|parts|] == parts;
  }

  /** Every element of the list was visited before it or lies in the part of a pick at or before
      its own position: the list is explored in its order. */
  lemma {:induction false} ListOrderReached(ts: seq<int>, v: seq<bool>, top: int, e: map<int, int>, picks: seq<int>,
                                            parts: seq<seq<int>>, i: int)
    requires ListOrder(ts, v, top, e, picks, parts) && 0 <= i < |ts|
    ensures |picks| == |parts|
    ensures (0 <= ts[i] < |v| && v[ts[i]]) || exists j :: 0 <= j < |picks| && picks[j] <= i && ts[i] in parts[j]
    decreases |ts|
  {
    var last := |ts| - 1;
    ListOrderPicks(ts, v, top, e, picks, parts);
    if picks != [] && picks[|picks| - 1] == last {
      var n := |picks| - 1;
      if i == last {
        assert picks[n] <= i && ts[i] in parts[n];
      } else {
        ListOrderReached(ts[..last], v, top, e, picks[..n], parts[..n], i);
        if !(0 <= ts[i] < |v| && v[ts[i]]) {
          var j :| 0 <= j < n && picks[..n][j] <= i && ts[..last][i] in parts[..n][j];
          assert picks[j] <= i && ts[i] in parts[j];
        }
      }
    } else if i == last {
      if !(0 <= ts[i] < |v| && v[ts[i]]) {
        ConcatIn(parts, ts[i]);
        var j :| 0 <= j < |parts| && ts[i] in parts[j];
        assert picks[j] <= i;
      }
    } else {
      ListOrderReached(ts[..last], v, top, e, picks, parts, i);
      assert ts[..last][i] == ts[i];
    }
  }

  // -----------------------------------------------------------------------------------------
  // Composition

  /** Finishing composes. */
  lemma FinishedTrans(g: seq<set<int>>, a: Dfs, b: Dfs, c: Dfs, s1: seq<int>, s2: seq<int>)
    requires Finished(g, a, b, s1) && Finished(g, b, c, s2)
    ensures Finished(g, a, c, s1 + s2)
  {
    FramedTrans(a, b, c);
    CountedTrans(a, b, c, s1, s2);
    SegOrderedTrans(g, a, b, c, s1, s2);
    SubtreesTrans(g, a, b, c, s1, s2);
    MarkedTrans(a, b, c, s1, s2);
  }

  lemma FramedTrans(a: Dfs, b: Dfs, c: Dfs)
    requires Framed(a, b) && Framed(b, c)
    ensures Framed(a, c)
  {
    assert c.loops[..|a.loops|] == c.loops[..|b.loops|][..|a.loops|];
  }

  lemma CountedTrans(a: Dfs, b: Dfs, c: Dfs, s1: seq<int>, s2: seq<int>)
    requires Framed(a, b) && Framed(b, c) && Counted(a, b, s1) && Counted(b, c, s2)
    ensures Counted(a, c, s1 + s2)
  {
    var n := |a.blocks|;
    var s := s1 + s2;
    forall x | 0 <= x < n ensures x in s <==> c.visited[x] && !a.visited[x] {
      assert x in s <==> x in s1 || x in s2;
    }
    forall j | 0 <= j < |s|
      ensures 0 <= s[j] < n && c.blocks[s[j]].depthFirstNumber == Some(a.counter - j)
      ensures s[j] in c.entry && a.counter - j <= c.entry[s[j]] <= a.counter
    {
      if j >= |s1| {
        assert s[j] == s2[j - |s1|];
      } else {
        assert s[j] == s1[j] && s1[j] !in s2;
      }
    }
  }

  lemma SegOrderedTrans(g: seq<set<int>>, a: Dfs, b: Dfs, c: Dfs, s1: seq<int>, s2: seq<int>)
    requires SegOrdered(g, a, b, s1) && SegOrdered(g, b, c, s2) && Counted(a, b, s1)
    requires Framed(b, c) && Counted(b, c, s2) && Marked(b, c, s2)
    ensures SegOrdered(g, a, c, s1 + s2)
  {
    var s := s1 + s2;
    forall j | 0 <= j < |s| ensures 0 <= s[j] < |g| && Ordered(g[s[j]], c, a.counter - j) {
      if j >= |s1| {
        assert s[j] == s2[j - |s1|];
      } else {
        assert s[j] == s1[j];
        OrderedKept(g[s1[j]], b, c, s2, a.counter - j);
      }
    }
  }

  lemma SubtreesTrans(g: seq<set<int>>, a: Dfs, b: Dfs, c: Dfs, s1: seq<int>, s2: seq<int>)
    requires Subtrees(g, a, b, s1) && Subtrees(g, b, c, s2) && Framed(b, c) && Counted(a, b, s1) && Counted(b, c, s2)
    ensures Subtrees(g, a, c, s1 + s2)
  {
    forall x | Member(s1 + s2, x) && 0 <= x < |c.blocks| && x in c.entry && c.blocks[x].depthFirstNumber.Some?
      ensures Kids(g, s1 + s2, a.counter, c.entry, x, c.blocks[x].depthFirstNumber.value + 1, c.entry[x])
    {
      assert x in s1 || x in s2;
      if x in s1 {
        assert Member(s1, x) && x !in s2 && x in b.entry && b.blocks[x].depthFirstNumber == c.blocks[x].depthFirstNumber;
        KidsPrefix(g, s1, s2, a.counter, b.entry, c.entry, x, b.blocks[x].depthFirstNumber.value + 1, b.entry[x]);
      } else {
        assert Member(s2, x);
        KidsShift(g, s1, s2, b.counter, a.counter, c.entry, c.entry, x, c.blocks[x].depthFirstNumber.value + 1, c.entry[x]);
      }
    }
  }

  lemma MarkedTrans(a: Dfs, b: Dfs, c: Dfs, s1: seq<int>, s2: seq<int>)
    requires Marked(a, b, s1) && Marked(b, c, s2) && Framed(a, b) && Framed(b, c)
    ensures Marked(a, c, s1 + s2)
  {
    var s := s1 + s2;
    forall x | 0 <= x < |a.blocks| ensures
      c.blocks[x].flags == a.blocks[x].flags
      || (c.blocks[x].flags == a.blocks[x].flags + {ParserLoopHeader} && (a.active[x] || x in s))
    {
      assert x in s <==> x in s1 || x in s2;
      assert b.blocks[x].flags + {ParserLoopHeader} + {ParserLoopHeader} == b.blocks[x].flags + {ParserLoopHeader};
    }
  }

  /** New loop headers compose. */
  lemma RaisedTrans(g: seq<set<int>>, a: Dfs, b: Dfs, c: Dfs, s1: seq<int>, s2: seq<int>, e1: set<int>, e2: set<int>)
    requires Entered(b) && Framed(a, b) && Framed(b, c) && Counted(a, b, s1) && Counted(b, c, s2)
    requires Raised(g, a, b, s1, e1) && Raised(g, b, c, s2, e2)
    ensures Raised(g, a, c, s1 + s2, e1 + e2)
  {
    forall x | 0 <= x < |a.blocks| && !IsHeader(a.blocks, x) && IsHeader(c.blocks, x)
      ensures (x in e1 + e2 && c.active[x]) || Backed(g, c, s1 + s2, a.counter, x)
    {
      if IsHeader(b.blocks, x) {
        if !(x in e1 && b.active[x]) {
          BackedKept(g, b, c, s1, s2, a.counter, x);
        }
      } else if !(x in e2 && c.active[x]) {
        BackedShift(g, c, s1, s2, b.counter, a.counter, x);
      }
    }
  }

  /** A back edge out of a numbered block stays one. */
  lemma BackedKept(g: seq<set<int>>, b: Dfs, c: Dfs, s1: seq<int>, s2: seq<int>, top: int, x: int)
    requires Entered(b) && Framed(b, c) && Counted(b, c, s2) && 0 <= x < |b.blocks| && Backed(g, b, s1, top, x)
    ensures Backed(g, c, s1 + s2, top, x)
  {
    var j :| 0 <= j < |s1| && 0 <= s1[j] < |g| && x in g[s1[j]] && Above(b, x, top - j);
    AboveKept(b, c, s2, x, top - j);
    assert (s1 + s2)[j] == s1[j];
  }

  /** A back edge out of a later block reads the same in a longer numbering. */
  lemma BackedShift(g: seq<set<int>>, c: Dfs, s1: seq<int>, s2: seq<int>, top: int, top': int, x: int)
    requires 0 <= x < |c.active| && x < |c.blocks| && Backed(g, c, s2, top, x) && top' == top + |s1|
    ensures Backed(g, c, s1 + s2, top', x)
  {
    var j :| 0 <= j < |s2| && 0 <= s2[j] < |g| && x in g[s2[j]] && Above(c, x, top - j);
    assert (s1 + s2)[|s1| + j] == s2[j];
    assert top' - (|s1| + j) == top - j;
  }

  /** The targets of the edges out of `seg` are loop headers in `c` exactly when they are in
      `b`. */
  ghost predicate Settled(g: seq<set<int>>, b: Dfs, c: Dfs, seg: seq<int>) {
    forall t :: t in EdgesOut(g, seg) ==> IsHeader(c.blocks, t) == IsHeader(b.blocks, t)
  }

  /** Whether the targets of the edges out of numbered blocks are loop headers is settled: a
      finished block never becomes one, and an active one already is. */
  lemma SettledKept(g: seq<set<int>>, a: Dfs, b: Dfs, c: Dfs, s1: seq<int>, s2: seq<int>)
    requires SegOrdered(g, a, b, s1) && Framed(b, c) && Counted(b, c, s2) && Marked(b, c, s2)
    ensures Settled(g, b, c, s1)
  {
    SegExplored(g, a, b, s1);
    forall t | t in EdgesOut(g, s1) ensures IsHeader(c.blocks, t) == IsHeader(b.blocks, t) {
      assert t !in s2;
    }
  }

  /** A stretch of settled blocks is settled. */
  lemma SettledSlice(g: seq<set<int>>, b: Dfs, c: Dfs, seg: seq<int>, lo: int, hi: int)
    requires Settled(g, b, c, seg) && 0 <= lo <= hi <= |seg|
    ensures Settled(g, b, c, seg[lo..hi])
  {
    EdgesOutSlice(g, seg, lo, hi);
  }

  /** Settled blocks touch a loop header in `c` exactly when they do in `b`. */
  lemma SettledTouches(g: seq<set<int>>, b: Dfs, c: Dfs, seg: seq<int>)
    requires Settled(g, b, c, seg)
    ensures Touches(EdgesOut(g, seg), c.blocks) == Touches(EdgesOut(g, seg), b.blocks)
  {
    TouchesSame(EdgesOut(g, seg), c.blocks, b.blocks);
  }

  /** A block's membership of the loop list, once settled, survives further numbering. */
  lemma InLoopKept(g: seq<set<int>>, a: Dfs, b: Dfs, c: Dfs, s1: seq<int>, s2: seq<int>, x: int)
    requires Counted(a, b, s1) && Counted(b, c, s2) && Extends(b.entry, c.entry)
    requires Settled(g, b, c, s1) && x in s1
    ensures InLoop(g, c.blocks, c.entry, s1 + s2, a.counter, x) == InLoop(g, b.blocks, b.entry, s1, a.counter, x)
  {
    var j :| 0 <= j < |s1| && s1[j] == x;
    KeptAt(a, b, c, s1, s2, x, j);
    InLoopSettled(g, b, c, s1, s2, a.counter, x, j);
  }

  /** The same, for the `j`-th block of `s1`, numbered from `top`. */
  lemma InLoopSettled(g: seq<set<int>>, b: Dfs, c: Dfs, s1: seq<int>, s2: seq<int>, top: int, x: int, j: int)
    requires 0 <= j < |s1| && 0 <= x < |b.blocks| && |c.blocks| == |b.blocks| && Settled(g, b, c, s1)
    requires x in b.entry && x in c.entry && c.entry[x] == b.entry[x] && top - j <= b.entry[x] <= top
    requires b.blocks[x].depthFirstNumber == Some(top - j)
    requires c.blocks[x].depthFirstNumber == b.blocks[x].depthFirstNumber
    ensures InLoop(g, c.blocks, c.entry, s1 + s2, top, x) == InLoop(g, b.blocks, b.entry, s1, top, x)
  {
    var lo := top - b.entry[x];
    SettledSlice(g, b, c, s1, lo, j + 1);
    SettledTouches(g, b, c, s1[lo..j + 1]);
    InLoopExtend(g, b.blocks, c.blocks, b.entry, c.entry, s1, s2, top, x, j);
  }

  /** What a further numbering leaves of a block numbered earlier: its number and its entry
      counter. */
  lemma KeptAt(a: Dfs, b: Dfs, c: Dfs, s1: seq<int>, s2: seq<int>, x: int, j: int)
    requires Counted(a, b, s1) && Counted(b, c, s2) && Extends(b.entry, c.entry) && 0 <= j < |s1| && s1[j] == x
    ensures x !in s2 && 0 <= x < |b.blocks| && |c.blocks| == |b.blocks|
    ensures x in b.entry && x in c.entry && c.entry[x] == b.entry[x] && a.counter - j <= b.entry[x] <= a.counter
    ensures b.blocks[x].depthFirstNumber == Some(a.counter - j)
    ensures c.blocks[x].depthFirstNumber == b.blocks[x].depthFirstNumber
  {
  }

  /** Numbering more blocks after a block's subtree leaves its loop-list answer as it was, as long
      as the loop headers its subtree reaches stay the same. */
  lemma InLoopExtend(g: seq<set<int>>, bs: seq<Block>, bs': seq<Block>, e: map<int, int>, e': map<int, int>,
                     s1: seq<int>, s2: seq<int>, top: int, x: int, j: int)
    requires 0 <= j < |s1| && 0 <= x < |bs| && |bs'| == |bs| && x in e && x in e' && e'[x] == e[x]
    requires bs[x].depthFirstNumber == Some(top - j) && bs'[x].depthFirstNumber == bs[x].depthFirstNumber
    requires top - j <= e[x] <= top
    requires Touches(EdgesOut(g, s1[top - e[x]..j + 1]), bs') == Touches(EdgesOut(g, s1[top - e[x]..j + 1]), bs)
    ensures InLoop(g, bs', e', s1 + s2, top, x) == InLoop(g, bs, e, s1, top, x)
  {
    assert (s1 + s2)[top - e[x]..j + 1] == s1[top - e[x]..j + 1];
  }

  /** A block's membership of the loop list reads the same in a longer numbering. */
  lemma InLoopShift(g: seq<set<int>>, a: Dfs, b: Dfs, c: Dfs, s1: seq<int>, s2: seq<int>, x: int)
    requires b.counter == a.counter - |s1| && Counted(b, c, s2) && x in s2
    ensures InLoop(g, c.blocks, c.entry, s1 + s2, a.counter, x) == InLoop(g, c.blocks, c.entry, s2, b.counter, x)
  {
    var j :| 0 <= j < |s2| && s2[j] == x;
    assert c.blocks[x].depthFirstNumber == Some(b.counter - j);
    assert x in c.entry && b.counter - j <= c.entry[x] <= b.counter;
    InLoopSlide(g, c.blocks, c.entry, s1, s2, b.counter, a.counter, x, j);
  }

  lemma InLoopSlide(g: seq<set<int>>, bs: seq<Block>, e: map<int, int>, s1: seq<int>, s2: seq<int>, top: int, top': int,
                    x: int, j: int)
    requires 0 <= j < |s2| && 0 <= x < |bs| && x in e && top - j <= e[x] <= top && bs[x].depthFirstNumber == Some(top - j)
    requires top' == top + |s1|
    ensures InLoop(g, bs, e, s1 + s2, top', x) == InLoop(g, bs, e, s2, top, x)
  {
    var lo := top - e[x];
    assert (s1 + s2)[|s1| + lo..|s1| + j + 1] == s2[lo..j + 1];
  }

  /** What a list that grew twice gained. */
  lemma LoopsSplit(l0: seq<int>, l1: seq<int>, l2: seq<int>, x: int)
    requires |l0| <= |l1| <= |l2| && l1[..|l0|] == l0 && l2[..|l1|] == l1
    ensures x in l2[|l0|..] <==> x in l1[|l0|..] || x in l2[|l1|..]
  {
    assert l2[|l0|..] == l1[|l0|..] + l2[|l1|..] by {
      assert l2 == l1 + l2[|l1|..];
    }
  }

  /** The loop list's growth composes. */
  lemma LoopsTrans(g: seq<set<int>>, a: Dfs, b: Dfs, c: Dfs, s1: seq<int>, s2: seq<int>, e1: set<int>, e2: set<int>)
    requires Framed(a, b) && Framed(b, c) && Counted(a, b, s1) && SegOrdered(g, a, b, s1)
    requires Counted(b, c, s2) && Marked(b, c, s2)
    requires LoopsGrown(g, a, b, s1, e1) && LoopsGrown(g, b, c, s2, e2)
    ensures LoopsGrown(g, a, c, s1 + s2, e1 + e2)
  {
    var s := s1 + s2;
    EdgesOutAppend(g, s1, s2);
    SettledKept(g, a, b, c, s1, s2);
    forall x | 0 <= x < |a.blocks|
      ensures x in c.loops[|a.loops|..] <==>
                (x in s && InLoop(g, c.blocks, c.entry, s, a.counter, x))
                || (a.active[x] && (x in e1 + e2 || x in EdgesOut(g, s)))
    {
      LoopsSplit(a.loops, b.loops, c.loops, x);
      assert x in s <==> x in s1 || x in s2;
      if x in s1 {
        InLoopKept(g, a, b, c, s1, s2, x);
      }
      if x in s2 {
        InLoopShift(g, a, b, c, s1, s2, x);
      }
    }
  }

  /** Exploring composes: two explorations from the same block make one. */
  lemma SweptTrans(g: seq<set<int>>, a: Dfs, b: Dfs, c: Dfs, s1: seq<int>, s2: seq<int>, e1: set<int>, e2: set<int>,
                   r1: bool, r2: bool)
    requires Entered(b) && Swept(g, a, b, s1, e1, r1) && Swept(g, b, c, s2, e2, r2)
    ensures Swept(g, a, c, s1 + s2, e1 + e2, r1 || r2)
  {
    FinishedTrans(g, a, b, c, s1, s2);
    RaisedTrans(g, a, b, c, s1, s2, e1, e2);
    LoopsTrans(g, a, b, c, s1, s2, e1, e2);
    ExploredKept(e1, b, c, s2);
    SegExplored(g, a, b, s1);
    TouchesKept(e1 + EdgesOut(g, s1), b, c, s2);
    EdgesOutAppend(g, s1, s2);
    TouchesUnion(e1 + EdgesOut(g, s1), e2 + EdgesOut(g, s2), c.blocks);
    assert e1 + e2 + EdgesOut(g, s1 + s2) == (e1 + EdgesOut(g, s1)) + (e2 + EdgesOut(g, s2));
  }

  /** Nothing explored yet. */
  lemma SweptNone(g: seq<set<int>>, a: Dfs)
    requires Numbered(a) && |g| == |a.blocks|
    ensures Swept(g, a, a, [], {}, false)
  {
    assert a.loops[..|a.loops|] == a.loops;
    assert EdgesOut(g, []) == {};
  }

  // -----------------------------------------------------------------------------------------
  // The three cases of numbering a block

  /** A block met again while still active: the back edge numbers nothing, marks it as a loop
      header, appends it to the loop list and answers that it lies inside a loop. */
  lemma BackEdgeSwept(g: seq<set<int>>, a: Dfs, k: int)
    requires Numbered(a) && |g| == |a.blocks| && 0 <= k < |a.blocks| && a.visited[k] && a.active[k]
    ensures Swept(g, a, BackEdge(a, k), [], {k}, true) && Numbered(BackEdge(a, k))
  {
    var b := BackEdge(a, k);
    assert b.loops[..|a.loops|] == a.loops;
    assert b.loops[|a.loops|..] == [k];
    assert EdgesOut(g, []) == {};
    assert IsHeader(b.blocks, k);
  }

  /** A block met again after it was finished: nothing changes, and the answer is whether it is
      a loop header. */
  lemma VisitedSwept(g: seq<set<int>>, a: Dfs, k: int)
    requires Numbered(a) && |g| == |a.blocks| && 0 <= k < |a.blocks| && a.visited[k] && !a.active[k]
    ensures Swept(g, a, a, [], {k}, IsHeader(a.blocks, k))
  {
    assert a.loops[..|a.loops|] == a.loops;
    assert EdgesOut(g, []) == {};
    assert Touches({k}, a.blocks) == IsHeader(a.blocks, k);
  }

  /** A block numbered fresh answers for itself too: it is a loop header only if an edge out of its
      subtree enters it. */
  lemma FreshSwept(g: seq<set<int>>, a: Dfs, b: Dfs, seg: seq<int>, k: int, inLoop: bool)
    requires Numbered(a) && 0 <= k < |a.blocks| && !a.visited[k] && k in seg && Swept(g, a, b, seg, {}, inLoop)
    ensures Swept(g, a, b, seg, {k}, inLoop)
  {
    assert !IsHeader(a.blocks, k);
    if IsHeader(b.blocks, k) {
      var j :| 0 <= j < |seg| && 0 <= seg[j] < |g| && k in g[seg[j]] && Above(b, k, a.counter - j);
      EdgesOutIn(g, seg, k);
    }
    TouchesUnion({k}, EdgesOut(g, seg), b.blocks);
    assert {} + EdgesOut(g, seg) == EdgesOut(g, seg);
  }

  // -----------------------------------------------------------------------------------------
  // Leaving a block

  /** Leaving the block `k` after its successors `g[k]` were explored from the state just after
      entering it completes the numbering of `s + [k]` from the state `a` before it. */
  lemma FinishLast(g: seq<set<int>>, a: Dfs, c: Dfs, s: seq<int>, k: int, inLoop: bool)
    requires Numbered(a) && |g| == |a.blocks| && 0 <= k < |a.blocks| && !a.visited[k]
    requires Swept(g, Mark(a, k), c, s, g[k], inLoop) && Numbered(c) && Chain(g, Mark(a, k), c, s, k)
    ensures Swept(g, a, Finish(c, k, inLoop), s + [k], {}, inLoop) && Numbered(Finish(c, k, inLoop))
  {
    assert Mark(a, k).counter == a.counter;
    var b := Finish(c, k, inLoop);
    FinishLastDone(g, a, c, s, k, inLoop);
    FinishRaised(g, a, c, s, k, inLoop);
    SegExplored(g, Mark(a, k), c, s);
    assert c.active[k] && k !in s && !a.active[k];
    assert k in g[k] + EdgesOut(g, s) ==> IsHeader(c.blocks, k);
    FinishLoops(g, a, c, s, k, inLoop);
    FinishAnswer(g, c, s, k, inLoop);
  }

  /** Leaving `k` completes the numbering of `s + [k]`. */
  lemma FinishLastDone(g: seq<set<int>>, a: Dfs, c: Dfs, s: seq<int>, k: int, inLoop: bool)
    requires Numbered(a) && |g| == |a.blocks| && 0 <= k < |a.blocks| && !a.visited[k]
    requires Finished(g, Mark(a, k), c, s) && Explored(g[k], c) && Numbered(c)
    requires Kids(g, s, a.counter, c.entry, k, c.counter + 1, a.counter)
    ensures Finished(g, a, Finish(c, k, inLoop), s + [k]) && Numbered(Finish(c, k, inLoop))
  {
    FinishFramed(a, c, s, k, inLoop);
    FinishNumbered(c, k, inLoop);
    FinishCounted(a, c, s, k, inLoop);
    FinishSegOrdered(g, a, c, s, k, inLoop);
    FinishSubtrees(g, a, c, s, k, inLoop);
    FinishMarks(a, c, s, k, inLoop);
  }

  /** The answer of the block left covers its own edges and those of its subtree. */
  lemma FinishAnswer(g: seq<set<int>>, c: Dfs, s: seq<int>, k: int, inLoop: bool)
    requires 0 <= k < |c.active| && k < |c.blocks| && k < |g| && inLoop == Touches(g[k] + EdgesOut(g, s), c.blocks)
    ensures inLoop == Touches({} + EdgesOut(g, s + [k]), Finish(c, k, inLoop).blocks)
  {
    EdgesOutAppend(g, s, [k]);
    assert EdgesOut(g, [k]) == g[k];
    HeadersLeave(c, k, inLoop);
    assert {} + EdgesOut(g, s + [k]) == g[k] + EdgesOut(g, s);
    TouchesSame({} + EdgesOut(g, s + [k]), c.blocks, Finish(c, k, inLoop).blocks);
  }

  /** Leaving a block changes no flag. */
  lemma HeadersLeave(c: Dfs, k: int, inLoop: bool)
    requires 0 <= k < |c.active| && k < |c.blocks|
    ensures forall t :: IsHeader(Finish(c, k, inLoop).blocks, t) == IsHeader(c.blocks, t)
  {
  }

  lemma FinishFramed(a: Dfs, c: Dfs, s: seq<int>, k: int, inLoop: bool)
    requires Numbered(a) && 0 <= k < |a.blocks| && !a.visited[k] && Framed(Mark(a, k), c)
    ensures Framed(a, Finish(c, k, inLoop))
  {
    var b := Finish(c, k, inLoop);
    assert b.active == a.active;
    assert b.loops[..|a.loops|] == c.loops[..|a.loops|];
    assert k !in a.entry;
  }

  lemma FinishNumbered(c: Dfs, k: int, inLoop: bool)
    requires Numbered(c) && 0 <= k < |c.blocks| && c.active[k]
    ensures Numbered(Finish(c, k, inLoop))
  {
  }

  lemma FinishCounted(a: Dfs, c: Dfs, s: seq<int>, k: int, inLoop: bool)
    requires |a.visited| == |a.blocks| && |a.active| == |a.blocks| && 0 <= k < |a.blocks| && !a.visited[k]
    requires Framed(Mark(a, k), c) && Counted(Mark(a, k), c, s)
    ensures Counted(a, Finish(c, k, inLoop), s + [k])
  {
    var b := Finish(c, k, inLoop);
    var t := s + [k];
    assert k !in s;
    forall j | 0 <= j < |t|
      ensures 0 <= t[j] < |a.blocks| && b.blocks[t[j]].depthFirstNumber == Some(a.counter - j)
      ensures t[j] in b.entry && a.counter - j <= b.entry[t[j]] <= a.counter
    {
      if j < |s| {
        assert t[j] == s[j];
      } else {
        assert t[j] == k;
      }
    }
    forall x | 0 <= x < |a.blocks| ensures x in t <==> b.visited[x] && !a.visited[x] {
      assert x in t <==> x in s || x == k;
    }
  }

  lemma FinishSegOrdered(g: seq<set<int>>, a: Dfs, c: Dfs, s: seq<int>, k: int, inLoop: bool)
    requires |g| == |a.blocks| && 0 <= k < |a.blocks| && |a.active| == |a.blocks| && |a.visited| == |a.blocks|
    requires Counted(Mark(a, k), c, s) && SegOrdered(g, Mark(a, k), c, s) && Framed(Mark(a, k), c)
    requires Numbered(c) && Explored(g[k], c)
    ensures SegOrdered(g, a, Finish(c, k, inLoop), s + [k])
  {
    var b := Finish(c, k, inLoop);
    var t := s + [k];
    forall j | 0 <= j < |t| ensures 0 <= t[j] < |g| && Ordered(g[t[j]], b, a.counter - j) {
      if j < |s| {
        assert t[j] == s[j];
        OrderedLeave(g[s[j]], c, k, inLoop, a.counter - j);
      } else {
        assert t[j] == k;
        LastOrdered(g[k], c, k, inLoop);
      }
    }
  }

  /** Leaving the active block `k` keeps every ordering reached for blocks numbered at or above
      the counter. */
  lemma OrderedLeave(ts: set<int>, c: Dfs, k: int, inLoop: bool, m: int)
    requires 0 <= k < |c.active| && k < |c.blocks| && c.active[k] && Ordered(ts, c, m) && m >= c.counter
    ensures Ordered(ts, Finish(c, k, inLoop), m)
  {
    var b := Finish(c, k, inLoop);
    forall t | t in ts ensures Ahead(b, t, m) || (IsHeader(b.blocks, t) && Above(b, t, m)) {
      assert IsHeader(b.blocks, t) == IsHeader(c.blocks, t);
    }
  }

  /** The block `k` leaves with its explored successors ordered after it. */
  lemma LastOrdered(ts: set<int>, c: Dfs, k: int, inLoop: bool)
    requires Numbered(c) && 0 <= k < |c.blocks| && c.active[k] && Explored(ts, c)
    ensures Ordered(ts, Finish(c, k, inLoop), c.counter)
  {
    var b := Finish(c, k, inLoop);
    forall t | t in ts ensures Ahead(b, t, c.counter) || (IsHeader(b.blocks, t) && Above(b, t, c.counter)) {
      assert IsHeader(b.blocks, t) == IsHeader(c.blocks, t);
      if !c.active[t] {
        assert t != k;
      }
    }
  }

  lemma FinishSubtrees(g: seq<set<int>>, a: Dfs, c: Dfs, s: seq<int>, k: int, inLoop: bool)
    requires 0 <= k < |a.blocks| && |a.visited| == |a.blocks| && |a.active| == |a.blocks|
    requires k < |c.blocks| && k < |c.active| && k in c.entry && c.entry[k] == a.counter
    requires Subtrees(g, Mark(a, k), c, s) && Kids(g, s, a.counter, c.entry, k, c.counter + 1, a.counter)
    ensures Subtrees(g, a, Finish(c, k, inLoop), s + [k])
  {
    var b := Finish(c, k, inLoop);
    forall x | Member(s + [k], x) && 0 <= x < |b.blocks| && x in b.entry && b.blocks[x].depthFirstNumber.Some?
      ensures Kids(g, s + [k], a.counter, b.entry, x, b.blocks[x].depthFirstNumber.value + 1, b.entry[x])
    {
      if x == k {
        SubtreeLeave(g, s, a.counter, c, k, inLoop, k, c.counter + 1, a.counter);
      } else {
        assert Member(s, x);
        SubtreeLeave(g, s, a.counter, c, k, inLoop, x, c.blocks[x].depthFirstNumber.value + 1, c.entry[x]);
      }
    }
  }

  /** Leaving `k` keeps the subtrees numbered before it, and its own. */
  lemma SubtreeLeave(g: seq<set<int>>, s: seq<int>, top: int, c: Dfs, k: int, inLoop: bool, x: int, n: int, hi: int)
    requires 0 <= k < |c.active| && k < |c.blocks| && 0 <= x < |c.blocks| && x in c.entry && hi == c.entry[x]
    requires x == k || c.blocks[x].depthFirstNumber.Some?
    requires n == (if x == k then c.counter else c.blocks[x].depthFirstNumber.value) + 1
    requires Kids(g, s, top, c.entry, x, n, hi)
    ensures Kids(g, s + [k], top, Finish(c, k, inLoop).entry, x,
                 Finish(c, k, inLoop).blocks[x].depthFirstNumber.value + 1, Finish(c, k, inLoop).entry[x])
  {
    KidsPrefix(g, s, [k], top, c.entry, c.entry, x, n, hi);
  }

  lemma FinishMarks(a: Dfs, c: Dfs, s: seq<int>, k: int, inLoop: bool)
    requires 0 <= k < |a.blocks| && |a.visited| == |a.blocks| && |a.active| == |a.blocks|
    requires Marked(Mark(a, k), c, s) && Framed(Mark(a, k), c)
    ensures Marked(a, Finish(c, k, inLoop), s + [k])
  {
    var b := Finish(c, k, inLoop);
    forall x | 0 <= x < |a.blocks| ensures
      b.blocks[x].flags == a.blocks[x].flags
      || (b.blocks[x].flags == a.blocks[x].flags + {ParserLoopHeader} && (a.active[x] || x in s + [k]))
    {
      assert x in s + [k] <==> x in s || x == k;
    }
  }

  lemma FinishRaised(g: seq<set<int>>, a: Dfs, c: Dfs, s: seq<int>, k: int, inLoop: bool)
    requires |g| == |a.blocks| && 0 <= k < |a.blocks| && |a.visited| == |a.blocks| && |a.active| == |a.blocks|
    requires Counted(Mark(a, k), c, s) && Raised(g, Mark(a, k), c, s, g[k]) && Numbered(c)
    ensures Raised(g, a, Finish(c, k, inLoop), s + [k], {})
  {
    var b := Finish(c, k, inLoop);
    forall x | 0 <= x < |a.blocks| && !IsHeader(a.blocks, x) && IsHeader(b.blocks, x)
      ensures Backed(g, b, s + [k], a.counter, x)
    {
      assert IsHeader(c.blocks, x);
      if x in g[k] && c.active[x] {
        BackedLeaveSelf(g, c, s, k, inLoop, a.counter, x);
      } else {
        BackedLeave(g, c, s, k, inLoop, a.counter, x);
      }
    }
  }

  /** A back edge out of the block left itself, to a block still active. */
  lemma BackedLeaveSelf(g: seq<set<int>>, c: Dfs, s: seq<int>, k: int, inLoop: bool, top: int, x: int)
    requires Numbered(c) && 0 <= k < |c.blocks| && k < |g| && 0 <= x < |c.blocks| && x in g[k] && c.active[x]
    requires c.counter == top - |s|
    ensures Backed(g, Finish(c, k, inLoop), s + [k], top, x)
  {
    var b := Finish(c, k, inLoop);
    assert (s + [k])[|s|] == k;
    assert Above(b, x, top - |s|);
  }

  /** A back edge out of a block numbered before the block left stays one. */
  lemma BackedLeave(g: seq<set<int>>, c: Dfs, s: seq<int>, k: int, inLoop: bool, top: int, x: int)
    requires Numbered(c) && 0 <= k < |c.blocks| && 0 <= x < |c.blocks| && Backed(g, c, s, top, x)
    requires c.counter == top - |s|
    ensures Backed(g, Finish(c, k, inLoop), s + [k], top, x)
  {
    var b := Finish(c, k, inLoop);
    var j :| 0 <= j < |s| && 0 <= s[j] < |g| && x in g[s[j]] && Above(c, x, top - j);
    assert (s + [k])[j] == s[j];
    assert Above(b, x, top - j);
  }

  lemma FinishLoops(g: seq<set<int>>, a: Dfs, c: Dfs, s: seq<int>, k: int, inLoop: bool)
    requires |g| == |a.blocks| && |a.visited| == |a.blocks| && |a.active| == |a.blocks|
    requires 0 <= k < |a.blocks| && !a.active[k] && k !in s && |c.active| == |c.blocks|
    requires Counted(Mark(a, k), c, s) && |a.loops| <= |c.loops| && c.loops[..|a.loops|] == a.loops
    requires LoopsGrown(g, Mark(a, k), c, s, g[k]) && k in c.entry && c.entry[k] == a.counter
    requires k in g[k] + EdgesOut(g, s) ==> IsHeader(c.blocks, k)
    requires inLoop == Touches(g[k] + EdgesOut(g, s), c.blocks)
    ensures LoopsGrown(g, a, Finish(c, k, inLoop), s + [k], {})
  {
    var b := Finish(c, k, inLoop);
    var t := s + [k];
    EdgesOutAppend(g, s, [k]);
    assert EdgesOut(g, [k]) == g[k];
    assert Mark(a, k).counter == a.counter && Mark(a, k).loops == a.loops && Mark(a, k).blocks == a.blocks;
    assert |c.blocks| == |a.blocks|;
    DropSnoc(c.loops, if inLoop then [k] else [], |a.loops|);
    forall x | 0 <= x < |a.blocks|
      ensures x in b.loops[|a.loops|..] <==>
                (x in t && InLoop(g, b.blocks, b.entry, t, a.counter, x))
                || (a.active[x] && (x in {} || x in EdgesOut(g, t)))
    {
      assert x in t <==> x in s || x == k;
      if x == k {
        LeaveInLoopSelf(g, c, s, k, inLoop, a.counter);
      } else if x in s {
        LeaveInLoopOf(g, a, c, s, k, inLoop, x);
      }
    }
  }

  lemma LeaveInLoopOf(g: seq<set<int>>, a: Dfs, c: Dfs, s: seq<int>, k: int, inLoop: bool, x: int)
    requires 0 <= k < |a.blocks| && |a.visited| == |a.blocks| && |a.active| == |a.blocks| && |c.active| == |c.blocks|
    requires Counted(Mark(a, k), c, s) && x in s && k !in s
    ensures InLoop(g, Finish(c, k, inLoop).blocks, Finish(c, k, inLoop).entry, s + [k], a.counter, x)
            == InLoop(g, c.blocks, c.entry, s, a.counter, x)
  {
    var j :| 0 <= j < |s| && s[j] == x;
    LeaveInLoopOther(g, c, s, k, inLoop, a.counter, x, j);
  }

  lemma DropSnoc(l: seq<int>, ext: seq<int>, i: int)
    requires 0 <= i <= |l|
    ensures (l + ext)[i..] == l[i..] + ext
  {
  }

  /** The block left answers, for the loop list, whether it lies inside a loop. */
  lemma LeaveInLoopSelf(g: seq<set<int>>, c: Dfs, s: seq<int>, k: int, inLoop: bool, top: int)
    requires 0 <= k < |c.active| && k < |c.blocks| && k in c.entry && c.entry[k] == top && c.counter == top - |s|
    requires k < |g| && inLoop == Touches(g[k] + EdgesOut(g, s), c.blocks)
    ensures InLoop(g, Finish(c, k, inLoop).blocks, Finish(c, k, inLoop).entry, s + [k], top, k) == inLoop
  {
    var b := Finish(c, k, inLoop);
    var t := s + [k];
    assert t[0..|s| + 1] == t;
    EdgesOutAppend(g, s, [k]);
    assert EdgesOut(g, [k]) == g[k];
    assert EdgesOut(g, t) == g[k] + EdgesOut(g, s);
    HeadersLeave(c, k, inLoop);
    TouchesSame(EdgesOut(g, t), c.blocks, b.blocks);
  }

  /** Leaving a block leaves the loop-list answers of the blocks numbered before it unchanged. */
  lemma LeaveInLoopOther(g: seq<set<int>>, c: Dfs, s: seq<int>, k: int, inLoop: bool, top: int, x: int, j: int)
    requires 0 <= k < |c.active| && k < |c.blocks| && 0 <= j < |s| && s[j] == x && x != k && 0 <= x < |c.blocks|
    requires c.blocks[x].depthFirstNumber == Some(top - j) && x in c.entry && top - j <= c.entry[x] <= top
    ensures InLoop(g, Finish(c, k, inLoop).blocks, Finish(c, k, inLoop).entry, s + [k], top, x)
            == InLoop(g, c.blocks, c.entry, s, top, x)
  {
    var b := Finish(c, k, inLoop);
    var lo := top - c.entry[x];
    assert (s + [k])[lo..j + 1] == s[lo..j + 1];
    HeadersLeave(c, k, inLoop);
    TouchesSame(EdgesOut(g, s[lo..j + 1]), c.blocks, b.blocks);
  }

  // -----------------------------------------------------------------------------------------
  // What a whole numbering promises

  /** Every block of `ts` is one of `seg` and numbered; if it is numbered at or below `c` it is a
      loop header entered at or above `c`: the edges out of a block numbered `c` go to blocks
      finished before it, or back to a block enclosing it. */
  ghost predicate Forward(ts: set<int>, bs: seq<Block>, seg: seq<int>, entry: map<int, int>, c: int) {
    forall t :: t in ts ==>
      t in seg && 0 <= t < |bs| && bs[t].depthFirstNumber.Some?
      && (bs[t].depthFirstNumber.value > c
          || (IsHeader(bs, t) && t in entry && bs[t].depthFirstNumber.value <= c <= entry[t]))
  }

  /** The blocks of `seg` carry the numbers `top`, `top - 1`, ... in that order, each entered
      with the counter at its `entry` value, which is at or above its number. */
  ghost predicate Numbers(bs: seq<Block>, top: int, seg: seq<int>, entry: map<int, int>) {
    forall j :: 0 <= j < |seg| ==>
      0 <= seg[j] < |bs| && bs[seg[j]].depthFirstNumber == Some(top - j)
      && seg[j] in entry && top - j <= entry[seg[j]] <= top
  }

  /** The numbers from a block's own up to its entry counter are its subtree, made of whole
      subtrees of its successors. */
  ghost predicate Nested(g: seq<set<int>>, bs: seq<Block>, top: int, seg: seq<int>, entry: map<int, int>) {
    forall x {:trigger Member(seg, x)} ::
      Member(seg, x) && 0 <= x < |bs| && x in entry && bs[x].depthFirstNumber.Some? ==>
        Kids(g, seg, top, entry, x, bs[x].depthFirstNumber.value + 1, entry[x])
  }

  /** Every edge out of a block of `seg` leads to another block of `seg` finished before it or back
      to a block enclosing it. */
  ghost predicate Closed(g: seq<set<int>>, bs: seq<Block>, top: int, seg: seq<int>, entry: map<int, int>) {
    |g| == |bs| && forall j :: 0 <= j < |seg| ==> 0 <= seg[j] < |g| && Forward(g[seg[j]], bs, seg, entry, top - j)
  }

  /** A reverse post-order numbering of a depth-first search over `g` from `top` down. */
  ghost predicate DepthFirst(g: seq<set<int>>, bs: seq<Block>, top: int, seg: seq<int>, entry: map<int, int>) {
    Numbers(bs, top, seg, entry) && Nested(g, bs, top, seg, entry) && Closed(g, bs, top, seg, entry)
  }

  /** An edge out of a block of `seg` enters `x`, which encloses that block: a back edge. */
  ghost predicate BackTarget(g: seq<set<int>>, bs: seq<Block>, seg: seq<int>, top: int, entry: map<int, int>, x: int) {
    exists j :: 0 <= j < |seg| && 0 <= seg[j] < |g| && x in g[seg[j]]
      && 0 <= x < |bs| && x in entry && bs[x].depthFirstNumber.Some?
      && bs[x].depthFirstNumber.value <= top - j <= entry[x]
  }

  /** A numbering that took the blocks `bs` and loop list `loops` to `bs'` and `loops'`: the blocks
      `seg` are numbered depth-first from `top` down and every other block is untouched; a block
      is a loop header exactly when it was one or a back edge enters it; and the loop list
      gained, as a set, exactly the blocks of `seg` with an edge out of their subtree into a loop
      header. */
  ghost predicate Renumbered(g: seq<set<int>>, bs: seq<Block>, top: int, loops: seq<int>,
                             bs': seq<Block>, loops': seq<int>, seg: seq<int>, entry: map<int, int>) {
    DepthFirst(g, bs', top, seg, entry) && Shape(bs, bs')
    && (forall x :: 0 <= x < |bs'| && x !in seg ==> bs'[x] == bs[x])
    && (forall x :: 0 <= x < |bs'| ==>
          bs'[x].flags == bs[x].flags || bs'[x].flags == bs[x].flags + {ParserLoopHeader})
    && (forall x :: 0 <= x < |bs'| ==>
          (IsHeader(bs', x) <==> IsHeader(bs, x) || BackTarget(g, bs', seg, top, entry, x)))
    && |loops| <= |loops'| && loops'[..|loops|] == loops
    && (forall x :: x in loops'[|loops|..] <==> x in seg && InLoop(g, bs', entry, seg, top, x))
  }

  /** The blocks a renumbering appended to the loop list are blocks. */
  lemma AppendedBlocks(g: seq<set<int>>, bs: seq<Block>, top: int, loops: seq<int>, bs': seq<Block>,
                       loops': seq<int>, seg: seq<int>, entry: map<int, int>)
    requires Renumbered(g, bs, top, loops, bs', loops', seg, entry)
    ensures forall j :: |loops| <= j < |loops'| ==> 0 <= loops'[j] < |bs'|
  {
    forall j | |loops| <= j < |loops'| ensures 0 <= loops'[j] < |bs'| {
      var x := loops'[j];
      assert loops'[|loops|..][j - |loops|] == x;
      assert x in loops'[|loops|..];
      assert InLoop(g, bs', entry, seg, top, x);
    }
  }

  /** A numbering started with nothing visited is a depth-first numbering of a closed set of
      blocks, with the back-edge targets as its loop headers. */
  lemma NumberedAll(g: seq<set<int>>, a: Dfs, b: Dfs, seg: seq<int>, k: int, inLoop: bool)
    requires Numbered(a) && Swept(g, a, b, seg, {k}, inLoop)
    requires forall x :: 0 <= x < |a.visited| ==> !a.visited[x]
    ensures Renumbered(g, a.blocks, a.counter, a.loops, b.blocks, b.loops, seg, b.entry)
  {
    AllNumbers(g, a, b, seg);
    AllClosed(g, a, b, seg);
    AllHeaders(g, a, b, seg, {k});
    AllLoops(g, a, b, seg, {k});
    AllUntouched(a, b, seg);
  }

  lemma AllNumbers(g: seq<set<int>>, a: Dfs, b: Dfs, seg: seq<int>)
    requires Counted(a, b, seg) && Subtrees(g, a, b, seg)
    ensures Numbers(b.blocks, a.counter, seg, b.entry) && Nested(g, b.blocks, a.counter, seg, b.entry)
  {
  }

  lemma AllUntouched(a: Dfs, b: Dfs, seg: seq<int>)
    requires Framed(a, b) && Counted(a, b, seg) && Marked(a, b, seg) && Numbered(a)
    requires forall x :: 0 <= x < |a.visited| ==> !a.visited[x]
    ensures forall x :: 0 <= x < |b.blocks| && x !in seg ==> b.blocks[x] == a.blocks[x]
    ensures forall x :: 0 <= x < |b.blocks| ==>
              b.blocks[x].flags == a.blocks[x].flags || b.blocks[x].flags == a.blocks[x].flags + {ParserLoopHeader}
  {
    forall x | 0 <= x < |b.blocks| && x !in seg ensures b.blocks[x] == a.blocks[x] {
      assert !a.active[x];
    }
  }

  lemma AllClosed(g: seq<set<int>>, a: Dfs, b: Dfs, seg: seq<int>)
    requires Numbered(a) && Framed(a, b) && SegOrdered(g, a, b, seg) && Counted(a, b, seg)
    requires forall x :: 0 <= x < |a.visited| ==> !a.visited[x]
    ensures Closed(g, b.blocks, a.counter, seg, b.entry)
  {
    forall j | 0 <= j < |seg| ensures Forward(g[seg[j]], b.blocks, seg, b.entry, a.counter - j) {
      assert Ordered(g[seg[j]], b, a.counter - j);
    }
  }

  lemma AllHeaders(g: seq<set<int>>, a: Dfs, b: Dfs, seg: seq<int>, e: set<int>)
    requires Numbered(a) && Framed(a, b) && SegOrdered(g, a, b, seg) && Raised(g, a, b, seg, e)
    requires forall x :: 0 <= x < |a.visited| ==> !a.visited[x]
    ensures forall x :: 0 <= x < |b.blocks| ==>
              (IsHeader(b.blocks, x) <==> IsHeader(a.blocks, x) || BackTarget(g, b.blocks, seg, a.counter, b.entry, x))
  {
    forall x | 0 <= x < |b.blocks|
      ensures IsHeader(b.blocks, x) <==> IsHeader(a.blocks, x) || BackTarget(g, b.blocks, seg, a.counter, b.entry, x)
    {
      if BackTarget(g, b.blocks, seg, a.counter, b.entry, x) {
        var j :| 0 <= j < |seg| && 0 <= seg[j] < |g| && x in g[seg[j]]
          && 0 <= x < |b.blocks| && x in b.entry && b.blocks[x].depthFirstNumber.Some?
          && b.blocks[x].depthFirstNumber.value <= a.counter - j <= b.entry[x];
        assert Ordered(g[seg[j]], b, a.counter - j);
      }
      if IsHeader(b.blocks, x) && !IsHeader(a.blocks, x) {
        assert !b.active[x];
        var j :| 0 <= j < |seg| && 0 <= seg[j] < |g| && x in g[seg[j]] && Above(b, x, a.counter - j);
      }
    }
  }

  lemma AllLoops(g: seq<set<int>>, a: Dfs, b: Dfs, seg: seq<int>, e: set<int>)
    requires Numbered(a) && Framed(a, b) && Counted(a, b, seg) && LoopsGrown(g, a, b, seg, e)
    requires forall x :: 0 <= x < |a.visited| ==> !a.visited[x]
    ensures forall x :: x in b.loops[|a.loops|..] <==> x in seg && InLoop(g, b.blocks, b.entry, seg, a.counter, x)
  {
    forall x ensures x in b.loops[|a.loops|..] <==> x in seg && InLoop(g, b.blocks, b.entry, seg, a.counter, x) {
      if x in b.loops[|a.loops|..] {
        var i :| 0 <= i < |b.loops[|a.loops|..]| && b.loops[|a.loops|..][i] == x;
        assert b.loops[|a.loops| + i] == x;
      }
    }
  }

  /** `p` follows edges of `g`: each block is followed by one of its successors or handlers. */
  predicate IsPath(g: seq<set<int>>, p: seq<int>) {
    forall i :: 0 <= i < |p| - 1 ==> 0 <= p[i] < |g| && p[i + 1] in g[p[i]]
  }

  /** A depth-first numbering numbers every block reachable from a numbered block. */
  lemma {:induction false} ReachableNumbered(g: seq<set<int>>, bs: seq<Block>, top: int, seg: seq<int>,
                                             entry: map<int, int>, p: seq<int>)
    requires Numbers(bs, top, seg, entry) && Closed(g, bs, top, seg, entry)
    requires IsPath(g, p) && |p| > 0 && p[0] in seg
    ensures forall i :: 0 <= i < |p| ==> p[i] in seg && 0 <= p[i] < |bs| && bs[p[i]].depthFirstNumber.Some?
    decreases |p|
  {
    var n := |p| - 1;
    if n > 0 {
      ReachableNumbered(g, bs, top, seg, entry, p[..n]);
      assert p[n - 1] == p[..n][n - 1];
      var j :| 0 <= j < |seg| && seg[j] == p[n - 1];
      assert Forward(g[seg[j]], bs, seg, entry, top - j);
    }
    var j :| 0 <= j < |seg| && seg[j] == p[n];
  }

  /** The blocks not yet visited. */
  ghost function Unvisited(v: seq<bool>): set<int> {
    set x | 0 <= x < |v| && !v[x]
  }

  lemma UnvisitedShrinks(a: Dfs, b: Dfs)
    requires Framed(a, b)
    ensures Unvisited(b.visited) <= Unvisited(a.visited)
  {
  }

  // -----------------------------------------------------------------------------------------
  // The example of the class comment

  /** The example method of the class comment of `BlockMap.java`: its seven blocks, at offsets 0,
      5, 9, 15, 19, 22 and 26, indexed in that order, with ids to match. */
  function DocBlocks(): (bs: seq<Block>)
    ensures |bs| == 7 && NoHeaders(bs)
  {
    [Block(0, 0, {}, None), Block(5, 1, {}, None), Block(9, 2, {}, None), Block(15, 3, {}, None),
     Block(19, 4, {}, None), Block(22, 5, {}, None), Block(26, 6, {}, None)]
  }

  /** Their successor lists after the move to the block starts: the `goto` at 2 leads to 22;
      the `ifle` at 6 to 9 and 15; the `goto` at 12 to 22; the `ifge` at 16 to 19 and 22; the
      block at 19 falls through to 22; the `ifgt` at 23 to 26 and 5; the return at 27 nowhere. */
  function DocGraph(): (g: seq<set<int>>)
    ensures |g| == 7
  {
    [{5}, {2, 3}, {5}, {4, 5}, {5}, {6, 1}, {}]
  }

  /** The documented outcome: the numbers 2, 4, 7, 5, 6, 3 and 8 in offset order, and the block
      at 22 flagged as the loop header. */
  function DocNumbered(): (bs: seq<Block>)
    ensures Shape(DocBlocks(), bs)
    ensures forall x :: 0 <= x < |bs| ==> (IsHeader(bs, x) <==> bs[x].bci == 22)
  {
    [Block(0, 0, {}, Some(2)), Block(5, 1, {}, Some(4)), Block(9, 2, {}, Some(7)), Block(15, 3, {}, Some(5)),
     Block(19, 4, {}, Some(6)), Block(22, 5, {ParserLoopHeader}, Some(3)), Block(26, 6, {}, Some(8))]
  }

  /** The order in which the documented numbering finishes the blocks: 26, 9, 19, 15, 5, 22, 0. */
  function DocSeg(): seq<int> { [6, 2, 4, 3, 1, 5, 0] }

  /** The counter each block was entered with: the search visits the blocks at 0, 22, 26, 5, 9,
      15 and 19, in that order. */
  function DocEntry(): map<int, int> { map[0 := 8, 5 := 8, 6 := 8, 1 := 7, 2 := 7, 3 := 6, 4 := 6] }

  /** The documented numbering of the example, with the loop list it leaves (the header at 22
      appended four times, once per back edge and once when it is left, and the blocks at 0, 5,
      9, 15 and 19 once each), is a depth-first renumbering from the counter 8. */
  lemma DocExampleNumbering()
    ensures Renumbered(DocGraph(), DocBlocks(), 8, [], DocNumbered(), [5, 2, 5, 4, 5, 3, 1, 5, 0], DocSeg(), DocEntry())
  {
    DocNumbers();
    DocNested();
    DocClosed();
    DocHeaders();
    DocLoops();
    DocUntouched();
  }

  lemma DocUntouched()
    ensures forall x :: 0 <= x < |DocNumbered()| && x !in DocSeg() ==> DocNumbered()[x] == DocBlocks()[x]
    ensures forall x :: 0 <= x < |DocNumbered()| ==>
              DocNumbered()[x].flags == DocBlocks()[x].flags
              || DocNumbered()[x].flags == DocBlocks()[x].flags + {ParserLoopHeader}
  {
  }

  lemma DocNumbers()
    ensures Numbers(DocNumbered(), 8, DocSeg(), DocEntry())
  {
  }

  lemma DocNested()
    ensures Nested(DocGraph(), DocNumbered(), 8, DocSeg(), DocEntry())
  {
    var g, bs, seg, e := DocGraph(), DocNumbered(), DocSeg(), DocEntry();
    assert Kids(g, seg, 8, e, 0, 9, 8) && Kids(g, seg, 8, e, 5, 9, 8) && Kids(g, seg, 8, e, 6, 9, 8);
    assert Kids(g, seg, 8, e, 0, 3, 8);
    assert Kids(g, seg, 8, e, 5, 8, 8);
    assert Kids(g, seg, 8, e, 5, 4, 8);
    assert Kids(g, seg, 8, e, 1, 8, 7) && Kids(g, seg, 8, e, 2, 8, 7);
    assert Kids(g, seg, 8, e, 1, 7, 7);
    assert Kids(g, seg, 8, e, 1, 5, 7);
    assert Kids(g, seg, 8, e, 3, 7, 6) && Kids(g, seg, 8, e, 4, 7, 6);
    assert Kids(g, seg, 8, e, 3, 6, 6);
  }

  lemma DocClosed()
    ensures Closed(DocGraph(), DocNumbered(), 8, DocSeg(), DocEntry())
  {
  }

  lemma DocHeaders()
    ensures forall x :: 0 <= x < |DocNumbered()| ==>
              (IsHeader(DocNumbered(), x) <==>
                 (IsHeader(DocBlocks(), x) || BackTarget(DocGraph(), DocNumbered(), DocSeg(), 8, DocEntry(), x)))
  {
    assert BackTarget(DocGraph(), DocNumbered(), DocSeg(), 8, DocEntry(), 5) by {
      assert 5 in DocGraph()[DocSeg()[1]];
    }
  }

  lemma DocLoops()
    ensures forall x :: x in [5, 2, 5, 4, 5, 3, 1, 5, 0] <==>
              x in DocSeg() && InLoop(DocGraph(), DocNumbered(), DocEntry(), DocSeg(), 8, x)
  {
    DocInLoop();
  }

  /** Every block of the example but the one at 26 has an edge out of its subtree into the loop
      header at 22. */
  lemma DocInLoop()
    ensures forall x :: x in DocSeg() ==> (InLoop(DocGraph(), DocNumbered(), DocEntry(), DocSeg(), 8, x) <==> x != 6)
  {
    var g, bs, seg, e := DocGraph(), DocNumbered(), DocSeg(), DocEntry();
    forall x | x in seg ensures InLoop(g, bs, e, seg, 8, x) <==> x != 6 {
      var lo, hi := 8 - e[x], 8 - bs[x].depthFirstNumber.value + 1;
      if x == 6 {
        assert seg[lo..hi] == [6];
        assert EdgesOut(g, [6]) == {} by {
          assert EdgesOut(g, []) == {};
        }
      } else {
        assert IsHeader(bs, 5);
        assert lo <= 1 < hi || lo <= 2 < hi;
        EdgesOutIn(g, seg[lo..hi], 5);
        if lo <= 1 < hi {
          assert seg[lo..hi][1 - lo] == 2;
        } else {
          assert seg[lo..hi][2 - lo] == 4;
        }
      }
    }
  }
}

=== FILE: outcomes.dfy ===
/** The ways a block-map build can end abnormally.  The source signals each of them
    by throwing; the model returns them. */
module Outcomes {

  datatype Error =
    | Malformed    // an index outside the bytecode array (Java: ArrayIndexOutOfBounds and kin)
    | FellOffEnd   // the last block has no successor list (Java: the relocation assert)
    | NotAStore    // the opcode table calls an opcode a store the store pass does not know
    | NoOpenBlock  // handlers attached while no block is open (Java: a null dereference)

  datatype Result<T> = Ok(value: T) | Fail(error: Error)

  datatype Outcome = Pass | Failure(error: Error)

  datatype Option<T> = None | Some(value: T)
}

=== FILE: relocation.dfy ===
/** Reference definitions for the successor-relocation pass.  `bm` is the offset-to-block array
    (-1 where no block starts) and `osm` the successor map the linear scan left behind, keyed by
    the offsets of the instructions that produced each list. */
module Relocation {
  import opened Outcomes

  type SuccessorMap = seq<Option<seq<int>>>

  /** The first block start at or after `y`, or `|bm|`. */
  function NextStart(bm: seq<int>, y: nat): (r: nat)
    requires y <= |bm|
    ensures y <= r <= |bm| && (r < |bm| ==> bm[r] != -1)
    ensures forall z :: y <= z < r ==> bm[z] == -1
    decreases |bm| - y
  {
    if y == |bm| || bm[y] != -1 then y else NextStart(bm, y + 1)
  }

  /** The last block start at or before `x`, or -1. */
  function LastStart(bm: seq<int>, x: nat): (r: int)
    requires x < |bm|
    ensures -1 <= r <= x && (r >= 0 ==> bm[r] != -1)
    ensures forall z :: r < z <= x ==> bm[z] == -1
  {
    if bm[x] != -1 then x else if x == 0 then -1 else LastStart(bm, x - 1)
  }

  /** The first offset in `[lo, hi)` that holds a successor list, or `hi`. */
  function FirstList(osm: SuccessorMap, lo: nat, hi: nat): (r: nat)
    requires lo <= hi <= |osm|
    ensures lo <= r <= hi && (r < hi ==> osm[r].Some?)
    ensures forall z :: lo <= z < r ==> !osm[z].Some?
    decreases hi - lo
  {
    if hi == lo then hi
    else
      var f := FirstList(osm, lo, hi - 1);
      if f < hi - 1 then f else if osm[hi - 1].Some? then hi - 1 else hi
  }

  /** The block the pass holds open while it visits offset `x` (a block starting at `x` is
      opened first), or -1 when the last block was already closed by a successor list. */
  function Owner(bm: seq<int>, osm: SuccessorMap, x: nat): int
    requires |osm| == |bm| && x < |bm|
  {
    if bm[x] != -1 then bm[x]
    else if x == 0 then -1
    else if osm[x - 1].Some? then -1
    else Owner(bm, osm, x - 1)
  }

  /** The block open before the pass visits offset `x`. */
  function OpenBefore(bm: seq<int>, osm: SuccessorMap, x: nat): int
    requires |osm| == |bm| && x <= |bm|
  {
    if x == 0 then (if |bm| > 0 then bm[0] else -1)
    else if osm[x - 1].Some? then -1
    else Owner(bm, osm, x - 1)
  }

  /** The successor map after relocation, at offset `x`.  A block start receives the first
      list produced inside its block, or, when none was produced and another block follows,
      the one-element fall-through list to that block.  An offset inside a block loses the list
      that was moved away from it; a list produced after its block was already closed stays. */
  function Relocated(bm: seq<int>, osm: SuccessorMap, x: nat): Option<seq<int>>
    requires |osm| == |bm| && x < |bm|
  {
    if bm[x] == -1 then
      if Owner(bm, osm, x) != -1 && osm[x].Some? then None else osm[x]
    else
      var e := NextStart(bm, x + 1);
      var f := FirstList(osm, x, e);
      if f < e then osm[f] else if e < |bm| then Some([bm[e]]) else None
  }

  /** A block is open at `x` exactly when no list was produced in its block before `x`. */
  lemma {:induction false} OwnerInRegion(bm: seq<int>, osm: SuccessorMap, x: nat)
    requires |osm| == |bm| && x < |bm|
    ensures var s := LastStart(bm, x);
      Owner(bm, osm, x) == if s == -1 || FirstList(osm, s, x) < x then -1 else bm[s]
  {
    if bm[x] == -1 && x > 0 {
      OwnerInRegion(bm, osm, x - 1);
    }
  }

  /** The start of the region that still lacks its final list is the last start before `x`. */
  lemma LastRegion(bm: seq<int>, y: nat, x: nat)
    requires y < x <= |bm| && bm[y] != -1 && NextStart(bm, y + 1) >= x
    ensures LastStart(bm, x - 1) == y
  {
  }

  /** Invariant of the relocation loop after it has visited `[0, bci)`: `sm` is the successor
      map, `cur` the open block. */
  ghost predicate Progress(bm: seq<int>, osm: SuccessorMap, sm: SuccessorMap, bci: nat, cur: int)
  {
    |bm| == |osm| == |sm| && bci <= |bm|
    && cur == OpenBefore(bm, osm, bci)
    && (forall y :: bci <= y < |sm| ==> sm[y] == osm[y])
    && (forall y :: 0 <= y < bci && bm[y] == -1 ==> sm[y] == Relocated(bm, osm, y))
    && (forall y :: 0 <= y < bci && bm[y] != -1 ==> sm[y] == StartEntry(bm, osm, y, bci))
  }

  /** What the start `y` of a block holds once the pass has visited `[0, bci)`: its final list
      once the next block has been reached, otherwise the first list produced so far in it. */
  function StartEntry(bm: seq<int>, osm: SuccessorMap, y: nat, bci: nat): Option<seq<int>>
    requires |osm| == |bm| && y < bci <= |bm|
  {
    if NextStart(bm, y + 1) < bci then Relocated(bm, osm, y)
    else var f := FirstList(osm, y, bci); if f < bci then osm[f] else None
  }

  /** Once every offset is visited, the map is the relocated one. */
  lemma ProgressDone(bm: seq<int>, osm: SuccessorMap, sm: SuccessorMap, cur: int)
    requires Progress(bm, osm, sm, |bm|, cur)
    ensures forall y :: 0 <= y < |bm| ==> sm[y] == Relocated(bm, osm, y)
  {
    forall y | 0 <= y < |bm| && bm[y] != -1
      ensures sm[y] == Relocated(bm, osm, y)
    {
      var e := NextStart(bm, y + 1);
      if e >= |bm| {
        assert e == |bm|;
      }
    }
  }

  /** A successor list survives at an offset that starts no block only when it was produced
      after its block had already been closed (code after a transfer that nothing reaches). */
  lemma StrayListsAreUnowned(bm: seq<int>, osm: SuccessorMap, x: nat)
    requires |osm| == |bm| && x < |bm| && bm[x] == -1 && Relocated(bm, osm, x).Some?
    ensures osm[x].Some? && Owner(bm, osm, x) == -1
    ensures x > 0 && LastStart(bm, x) >= 0 ==> FirstList(osm, LastStart(bm, x), x) < x
  {
    OwnerInRegion(bm, osm, x);
  }

  /** The pass ends with a block still open exactly when the last block produced no list. */
  lemma {:induction false} OpenAtEnd(bm: seq<int>, osm: SuccessorMap)
    requires |osm| == |bm| > 0 && bm[0] != -1
    ensures var s := LastStart(bm, |bm| - 1);
      OpenBefore(bm, osm, |bm|) != -1 <==> s >= 0 && FirstList(osm, s, |bm|) == |bm|
  {
    var n := |bm|;
    OwnerInRegion(bm, osm, n - 1);
    var s := LastStart(bm, n - 1);
    assert s >= 0 by { LastStartFindsZero(bm, n - 1); }
  }

  /** When the last block was closed, every block start holds a successor list after the move. */
  lemma {:induction false} StartsListed(bm: seq<int>, osm: SuccessorMap)
    requires |osm| == |bm| > 0 && bm[0] != -1 && OpenBefore(bm, osm, |bm|) == -1
    ensures forall x :: 0 <= x < |bm| && bm[x] != -1 ==> Relocated(bm, osm, x).Some?
  {
    OpenAtEnd(bm, osm);
    forall x | 0 <= x < |bm| && bm[x] != -1
      ensures Relocated(bm, osm, x).Some?
    {
      var e := NextStart(bm, x + 1);
      if e == |bm| && FirstList(osm, x, e) == e {
        LastRegion(bm, x, |bm|);
      }
    }
  }

  lemma {:induction false} LastStartFindsZero(bm: seq<int>, x: nat)
    requires x < |bm| && bm[0] != -1
    ensures LastStart(bm, x) >= 0
  {
    if x > 0 && bm[x] == -1 {
      LastStartFindsZero(bm, x - 1);
    }
  }

  /** No two offsets start the same block. */
  predicate Injective(bm: seq<int>) {
    forall a, b :: 0 <= a < |bm| && 0 <= b < |bm| && bm[a] != -1 && bm[a] == bm[b] ==> a == b
  }

  /** One visit of the relocation pass at `bci`, on values: `cur` is the open block (-1 for
      none) and `start` the offset it begins at.  A block starting here closes the open one with
      a fall-through list and opens itself; a list produced here then moves to the open block's
      start and closes it.  Returns the new map, open block and start. */
  function Visit(bm: seq<int>, sm: SuccessorMap, bci: nat, cur: int, start: int): (SuccessorMap, int, int)
    requires |sm| == |bm| && bci < |bm| && (cur != -1 ==> 0 <= start < |bm|)
  {
    var e := Enter(bm, sm, bci, cur, start);
    Leave(e.0, bci, e.1, e.2)
  }

  /** The first half of a visit: a block starting at `bci` closes the open block with a
      fall-through list and opens itself. */
  function Enter(bm: seq<int>, sm: SuccessorMap, bci: nat, cur: int, start: int): (r: (SuccessorMap, int, int))
    requires |sm| == |bm| && bci < |bm| && (cur != -1 ==> 0 <= start < |bm|)
    ensures |r.0| == |sm| && (r.1 != -1 ==> 0 <= r.2 < |bm|)
  {
    if bm[bci] != -1 && bm[bci] != cur then
      ((if cur != -1 then sm[start := Some([bm[bci]])] else sm), bm[bci], bci)
    else (sm, cur, start)
  }

  /** The second half of a visit: a list produced at `bci` moves to the open block's start and
      closes the block. */
  function Leave(sm: SuccessorMap, bci: nat, cur: int, start: int): (SuccessorMap, int, int)
    requires bci < |sm| && (cur != -1 ==> 0 <= start < |sm|)
  {
    if sm[bci].Some? && cur != -1 then (sm[bci := None][start := sm[bci]], -1, start)
    else (sm, cur, start)
  }

  /** Where the open block begins, before the pass visits `bci`. */
  predicate OpenAt(bm: seq<int>, bci: nat, cur: int, start: int) {
    bci <= |bm|
    && (cur != -1 ==> 0 <= start < |bm| && bm[start] == cur
                      && start == (if bci == 0 then 0 else LastStart(bm, bci - 1)))
  }

  /** The open block and its start after a visit. */
  lemma {:induction false} VisitOpens(bm: seq<int>, osm: SuccessorMap, sm: SuccessorMap, bci: nat, cur: int, start: int)
    requires Progress(bm, osm, sm, bci, cur) && bci < |bm| && OpenAt(bm, bci, cur, start) && Injective(bm)
    ensures bci > 0 && LastStart(bm, bci - 1) >= 0 ==>
              (cur != -1 <==> FirstList(osm, LastStart(bm, bci - 1), bci) == bci)
    ensures (if bm[bci] != -1 then bm[bci] else cur) == Owner(bm, osm, bci)
    ensures Visit(bm, sm, bci, cur, start).1 == OpenBefore(bm, osm, bci + 1)
    ensures OpenAt(bm, bci + 1, Visit(bm, sm, bci, cur, start).1, Visit(bm, sm, bci, cur, start).2)
    ensures bm[bci] == -1 || bci == 0 ==> Visit(bm, sm, bci, cur, start).2 == start
  {
    if bci > 0 && LastStart(bm, bci - 1) >= 0 {
      var x := bci - 1;
      OwnerInRegion(bm, osm, x);
    }
    var v := Visit(bm, sm, bci, cur, start);
    var cur1 := if bm[bci] != -1 then bm[bci] else cur;
    assert cur1 == Owner(bm, osm, bci);
    assert sm[bci] == osm[bci];
    if bm[bci] == -1 && cur != -1 {
      assert LastStart(bm, bci) == LastStart(bm, bci - 1);
    }
  }

  /** A visit writes only at the visited offset and at the open block's start. */
  lemma VisitWrites(bm: seq<int>, sm: SuccessorMap, bci: nat, cur: int, start: int)
    requires |sm| == |bm| && bci < |bm| && (cur != -1 ==> 0 <= start < |bm|)
    ensures |Visit(bm, sm, bci, cur, start).0| == |sm|
    ensures forall y :: 0 <= y < |sm| && y != bci && (cur == -1 || y != start) ==>
              Visit(bm, sm, bci, cur, start).0[y] == sm[y]
  {
  }

  /** After the visit the start of the last block before `bci` holds what the invariant asks. */
  lemma VisitClosing(bm: seq<int>, osm: SuccessorMap, sm: SuccessorMap, bci: nat, cur: int, start: int)
    requires Progress(bm, osm, sm, bci, cur) && bci < |bm| && OpenAt(bm, bci, cur, start) && Injective(bm)
    requires bci > 0 && LastStart(bm, bci - 1) >= 0
    ensures var s := LastStart(bm, bci - 1);
      Visit(bm, sm, bci, cur, start).0[s] == StartEntry(bm, osm, s, bci + 1)
  {
    var s := LastStart(bm, bci - 1);
    VisitOpens(bm, osm, sm, bci, cur, start);
    assert NextStart(bm, s + 1) >= bci;
    assert sm[s] == StartEntry(bm, osm, s, bci);
    assert sm[bci] == osm[bci];
  }

  /** Earlier block starts are settled and untouched by the visit. */
  lemma VisitEarlier(bm: seq<int>, osm: SuccessorMap, sm: SuccessorMap, bci: nat, cur: int, start: int, y: nat)
    requires Progress(bm, osm, sm, bci, cur) && bci < |bm| && OpenAt(bm, bci, cur, start) && Injective(bm)
    requires y < bci && bm[y] != -1 && y != LastStart(bm, bci - 1)
    ensures Visit(bm, sm, bci, cur, start).0[y] == StartEntry(bm, osm, y, bci + 1)
  {
    var s := LastStart(bm, bci - 1);
    assert y < s;
    assert NextStart(bm, y + 1) <= s;
    VisitWrites(bm, sm, bci, cur, start);
  }

  /** The visited offset itself holds what the invariant asks. */
  lemma VisitAt(bm: seq<int>, osm: SuccessorMap, sm: SuccessorMap, bci: nat, cur: int, start: int)
    requires Progress(bm, osm, sm, bci, cur) && bci < |bm| && OpenAt(bm, bci, cur, start) && Injective(bm)
    ensures bm[bci] == -1 ==> Visit(bm, sm, bci, cur, start).0[bci] == Relocated(bm, osm, bci)
    ensures bm[bci] != -1 ==> Visit(bm, sm, bci, cur, start).0[bci] == StartEntry(bm, osm, bci, bci + 1)
  {
    VisitOpens(bm, osm, sm, bci, cur, start);
    assert sm[bci] == osm[bci];
    assert FirstList(osm, bci, bci + 1) == if osm[bci].Some? then bci else bci + 1;
  }

  /** The visit at `bci` keeps the relocation invariant, one offset further. */
  lemma {:induction false} VisitProgress(bm: seq<int>, osm: SuccessorMap, sm: SuccessorMap, bci: nat, cur: int, start: int)
    requires Progress(bm, osm, sm, bci, cur) && bci < |bm| && OpenAt(bm, bci, cur, start) && Injective(bm)
    ensures var v := Visit(bm, sm, bci, cur, start);
      Progress(bm, osm, v.0, bci + 1, v.1) && OpenAt(bm, bci + 1, v.1, v.2)
  {
    var v := Visit(bm, sm, bci, cur, start);
    VisitOpens(bm, osm, sm, bci, cur, start);
    VisitWrites(bm, sm, bci, cur, start);
    VisitAt(bm, osm, sm, bci, cur, start);
    if bci > 0 && LastStart(bm, bci - 1) >= 0 {
      VisitClosing(bm, osm, sm, bci, cur, start);
    }
    forall y | 0 <= y < bci && bm[y] != -1 && y != LastStart(bm, bci - 1)
      ensures v.0[y] == StartEntry(bm, osm, y, bci + 1)
    {
      VisitEarlier(bm, osm, sm, bci, cur, start, y);
    }
    forall y | 0 <= y < bci && bm[y] == -1
      ensures v.0[y] == Relocated(bm, osm, y)
    {
    }
    forall y | 0 <= y <= bci && bm[y] != -1
      ensures v.0[y] == StartEntry(bm, osm, y, bci + 1)
    {
      if y < bci && y == LastStart(bm, bci - 1) {
      }
    }
  }
}
